=== FILE: README.md ===
# Inferna instructor app — a Dafny model of its core logic

Inferna is a fitness-class app for instructors. It has two parts:

- **The mobile app.** Instructors build workouts and classes, then deliver a class in **Play Mode**. Play Mode is a guided countdown through the class's workouts, with ten-second transitions between them.
- **The Express backend.** It stores workouts and classes, runs an approval workflow for submitted workouts, and runs a featured-class review.

This project models the logic inside both parts as pure functions over immutable data, and proves what that logic guarantees.

**Mobile side:**

- `PlayMode`: the Play Mode session.
  - The screen's state is one record, and each handler, timer tick and pending timeout is one event.
  - The buttons' `disabled` props decide which events can happen.
- The Redux slices:
  - `ClassesStore`: the class builder and the request flags.
  - `WorkoutsStore`: the filters, the list, and prepend-on-create.
  - `AuthStore`: the sign-in flags, with its three thunks working on the device's token store.
- The screens:
  - `ClassBuilder`: list edits, totals, the picker, the duplicate check and the save payload.
  - `ClassDetail`: the class becomes a play list.
  - `WorkoutForm`: validation, comma lists, minutes and seconds.

**Backend side:**

- `Database`: the tables, as maps from id to row.
- The routes:
  - `WorkoutRoutes`: validation, unique names, tags, the delete guard, severity order.
  - `ClassRoutes`: totals, numbering, owner checks, list filters.
  - `SubmissionRoutes`: the approval workflow.
  - `FeaturedRoutes`: the featured review.
- The middleware: `ErrorHandler` and `AuditLogger`.

**Shared pieces:**

- `SaveFlow` connects what each screen sends with what the receiving route stores.
- `Wrappers`, `Text` and `Lists` hold the JavaScript semantics the rest relies on:
  - `||` on possibly-absent values;
  - `trim` over the ECMAScript white-space set, and ASCII `toLowerCase`;
  - `.length` in UTF-16 code units;
  - `split` and `join`, decimal `parseInt`, `Number(...)` as a NaN test;
  - `Math.ceil`, `Math.round` and `Math.floor` of `/ 60`;
  - `splice`.

**Where the code has a fault**, the model holds two variants:

- an `AsWritten` variant, which does what the code does;
- a `Corrected` variant, which does what the code evidently means.

The faults are listed under Findings. The rest of the model builds on the corrected variant. For example, a started class plays through to the end only under the corrected Play Mode.

**Parameters, not effects.** Database ids, the current time, the replies of server calls and the role middleware's reply are all parameters. Emails, logging, haptics and rendering do not appear.

## Model

| member | source | states |
|---|---|---|
| PlayMode.StartWorkout | mobile/src/screens/PlayModeScreen.js:81-99 | leaves transition and pause, loads `duration_seconds` or 60, starts the countdown; an "Up Next" timeout is scheduled exactly when the duration exceeds 15 s and another workout follows, at duration − 10 |
| PlayMode.Mount | mobile/src/screens/PlayModeScreen.js:58-75 | a non-empty play list starts on workout 0 with its full duration, nothing elapsed, in a valid session |
| PlayMode.WorkoutTick | mobile/src/screens/PlayModeScreen.js:101-127 | a workout second adds exactly 1 to the elapsed total; above 1 s it counts down, at 1 s or less it completes the class on the last workout or starts a 10 s transition towards the next index; the clock never goes negative |
| PlayMode.TransitionTick | mobile/src/screens/PlayModeScreen.js:150-164 | a transition second never changes the elapsed total; at 1 s or less the captured index + 1 becomes current with 0 left, and as written the transition flag and its interval stay |
| PlayMode.IndexEffect | mobile/src/screens/PlayModeScreen.js:167-171 | as written the index effect starts the workout only when the index is past 0 and no transition is on, and otherwise changes nothing |
| PlayMode.SkipNext | mobile/src/screens/PlayModeScreen.js:214-236 | on the last workout nothing changes; otherwise the countdown stops, the preview hides and the index advances by one |
| PlayMode.SkipPrevious | mobile/src/screens/PlayModeScreen.js:238-248 | at index 0 nothing changes; otherwise the countdown stops, the preview hides and the index goes back by one |
| PlayMode.TogglePause | mobile/src/screens/PlayModeScreen.js:250-260 | pausing stops the countdown, resuming restarts it; the clock and the index are kept |
| PlayMode.AddTime | mobile/src/screens/PlayModeScreen.js:177-188 | adds exactly the given seconds to the clock and changes nothing else |
| PlayMode.RestartBlock | mobile/src/screens/PlayModeScreen.js:190-208 | reloads the current workout's full duration and restarts its countdown, keeping the index, the elapsed total and the pause flag |
| PlayMode.FirePreview | mobile/src/screens/PlayModeScreen.js:93-98 | the due preview shows "Up Next" and is consumed; nothing else changes |
| PlayMode.Apply | mobile/src/screens/PlayModeScreen.js:464-527 | an event whose button is disabled (during a transition, at the ends of the list) or whose timer is not running changes nothing |
| PlayMode.RunAppend | mobile/src/screens/PlayModeScreen.js:58-171 | running two event sequences one after the other is running their concatenation |
| PlayMode.ApplyKeepsValid | mobile/src/screens/PlayModeScreen.js:37-52 | every event, in both variants, keeps the session valid: the index inside the non-empty play list, the transition flag exactly when the transition interval runs, aimed at the next index, and a completed class only on its last workout with nothing running |
| PlayMode.RunKeepsValid | mobile/src/screens/PlayModeScreen.js:37-52 | any sequence of events keeps the session valid |
| PlayMode.WorkoutRunsDown | mobile/src/screens/PlayModeScreen.js:101-148 | a workout with n seconds left ends after exactly n ticks, all counted; then the class completes or a 10 s transition to the next index begins |
| PlayMode.TransitionKeepsElapsed | mobile/src/screens/PlayModeScreen.js:150-164 | as written, once a transition starts no number of ticks changes the elapsed total |
| PlayMode.NextStartsFollowingWorkout | mobile/src/screens/PlayModeScreen.js:214-236 | Next moves exactly one workout forward and starts it unpaused at full duration with the preview hidden; on the last workout or in a transition it does nothing |
| PlayMode.PreviousGoesBack | mobile/src/screens/PlayModeScreen.js:238-248 | Previous past index 1 moves back one and starts that workout at full duration; at 0 or in a transition it does nothing |
| PlayMode.PauseTwiceResumes | mobile/src/screens/PlayModeScreen.js:250-260 | pausing and resuming a running workout gives back the same session, except that the resumed interval now sees the current elapsed total |
| PlayMode.RestartWhilePausedRuns | mobile/src/screens/PlayModeScreen.js:190-208 | restarting a paused workout runs the countdown while the pause flag stays set |
| PlayMode.TransitionExpiryStalls | mobile/src/screens/PlayModeScreen.js:150-171 | as written, the last transition second moves to the next index but leaves the session in transition with a stopped clock (stalled) |
| PlayMode.StalledForever | mobile/src/screens/PlayModeScreen.js:150-171 | as written, no sequence of events leaves the stalled state, changes the index or adds elapsed time |
| PlayMode.FirstTransitionStalls | mobile/src/screens/PlayModeScreen.js:136-171 | as written, every class of two or more workouts stalls on the second workout after the first workout and one transition |
| PlayMode.TransitionRunsOut | mobile/src/screens/PlayModeScreen.js:150-164 | as written, ten ticks of a fresh transition end stalled on the next index |
| PlayMode.TransitionCountsDown | mobile/src/screens/PlayModeScreen.js:150-164 | as written, a transition with n seconds left is stalled after n ticks, with the elapsed total unchanged |
| PlayMode.CorrectedExpiryStartsNext | mobile/src/screens/PlayModeScreen.js:150-171 | corrected, the last transition second starts the next workout at full duration |
| PlayMode.CorrectedTransitionStarts | mobile/src/screens/PlayModeScreen.js:150-171 | corrected, a fresh transition's ticks end with the next workout started |
| PlayMode.CorrectedRunsToEnd | mobile/src/screens/PlayModeScreen.js:136-171 | corrected, a class left to run from workout i completes and the elapsed total grows by exactly the durations of workouts i.. |
| PlayMode.CorrectedClassCompletes | mobile/src/screens/PlayModeScreen.js:285-299 | corrected, every class whose workouts last at least a second completes from mount; the elapsed total is the sum of the workout durations and the completion alert shows that sum |
| PlayMode.CompletionAlert | mobile/src/screens/PlayModeScreen.js:285-292 | as written, the alert shows the elapsed total the last `startTimer` saw; corrected, the session's elapsed total |
| PlayMode.AlertMissesLastWorkout | mobile/src/screens/PlayModeScreen.js:100-125 | as written, a last workout of d seconds run down completes the class with d more seconds counted, and the alert leaves those d seconds out |
| PlayMode.OneWorkoutAlertShowsZero | mobile/src/screens/PlayModeScreen.js:285-292 | as written, a one-workout class completes having counted its duration, and the alert reads "0:00" |
| PlayMode.SkipBackToFirstStalls | mobile/src/screens/PlayModeScreen.js:238-248 | as written, Previous from workout 1 stops the countdown on workout 0 and leaves the old seconds on the clock |
| PlayMode.CorrectedSkipBackRestarts | mobile/src/screens/PlayModeScreen.js:238-248 | corrected, Previous from workout 1 starts workout 0 from its full duration |
| PlayMode.FormatTimeReadsBack | mobile/src/screens/PlayModeScreen.js:336-340 | for non-negative seconds the `m:ss` text reads back as the same number of seconds, with exactly two second digits |
| PlayMode.TimerColorBands | mobile/src/screens/PlayModeScreen.js:342-346 | red exactly at 10 s or less, orange exactly from 11 to 30 s, white above; fewer seconds never give a less urgent colour |
| StoreFlags.Pending | mobile/src/store/classesSlice.js:100-103 | a list request starts loading and clears the error |
| StoreFlags.DetailPending | mobile/src/store/classesSlice.js:113-115 | a detail request starts loading and keeps the previous error |
| StoreFlags.Fulfilled | mobile/src/store/classesSlice.js:104-107 | success ends loading and leaves the error |
| StoreFlags.Rejected | mobile/src/store/classesSlice.js:108-111 | failure ends loading and stores the message |
| StoreFlags.RejectionMessage | mobile/src/store/classesSlice.js:14-17 | the server's error when it gives a non-empty one, the fallback otherwise |
| StoreFlags.RequestOutcomes | mobile/src/store/workoutsSlice.js:69-80 | a list request ends idle and error-free on success, idle with its message on failure, whatever came before |
| StoreFlags.QueryParams | mobile/src/store/classesSlice.js:9-11 | the query holds exactly the candidate filters whose value is present and non-empty, and never a pair with an empty value |
| StoreFlags.QueryParamsAppend | mobile/src/store/workoutsSlice.js:9-12 | the query of two groups of filters is the first group's query followed by the second's |
| ClassesStore.SetField | mobile/src/store/classesSlice.js:61-64 | the named builder field takes the value and every other field is kept |
| ClassesStore.SetFieldTwice | mobile/src/store/classesSlice.js:61-64 | the second write to a field wins, and writing back the old value restores the builder |
| ClassesStore.AddWorkout | mobile/src/store/classesSlice.js:65-78 | exactly one entry is appended, with the workout's id, its default duration, a 30 s transition and empty cues; earlier entries are untouched |
| ClassesStore.RemoveWorkout | mobile/src/store/classesSlice.js:79-81 | `splice(index, 1)`: the entry at the index is gone and the rest keep their order |
| ClassesStore.Reorder | mobile/src/store/classesSlice.js:82-86 | the entry moves from one index to the other, the list stays a permutation with the same length |
| ClassesStore.Clear | mobile/src/store/classesSlice.js:87-95 | the builder is empty: no workouts, no name, no type, no schedule, and a draft |
| ClassesStore.Reduce | mobile/src/store/classesSlice.js:59-134 | each action changes only its own part of the state: a fetched detail becomes the current class and ends loading, keeping the error; a rejected detail ends loading with its message; a created class is prepended to the list and the builder emptied |
| ClassesStore.ClearRestoresInitial | mobile/src/store/classesSlice.js:87-95 | clearing gives back the initial builder, and clearing twice is clearing once |
| ClassesStore.AddThenRemoveLast | mobile/src/store/classesSlice.js:65-81 | adding a workout and removing the last entry gives back the builder |
| ClassesStore.DetailPendingKeepsError | mobile/src/store/classesSlice.js:108-123 | an error on screen stays visible when a detail request starts |
| ClassesStore.ClassQuery | mobile/src/store/classesSlice.js:9-11 | `status` and `scheduled` are each sent exactly when present and non-empty, never with an empty value |
| ClassBuilder.LoadedEntry | mobile/src/screens/ClassBuilderScreen.js:68-87 | a saved row becomes an entry for the link's workout id, with the override or else the default duration, the saved transition when truthy and otherwise 30 s, and the saved cues when truthy and otherwise empty text |
| ClassBuilder.LoadClassData | mobile/src/screens/ClassBuilderScreen.js:68-87 | name, schedule and type come from the class, one entry per saved workout in order; the draft flag is not loaded |
| ClassBuilder.FilteredWorkouts | mobile/src/screens/ClassBuilderScreen.js:331-337 | the picker lists exactly the catalog workouts whose name holds the query ignoring case and that are not in the builder |
| ClassBuilder.PickerQuery | mobile/src/screens/ClassBuilderScreen.js:331-337 | an empty search lists every workout not yet added, and a listed name holds the query at some position |
| ClassBuilder.PickerExcludesAdded | mobile/src/screens/ClassBuilderScreen.js:331-337 | nothing already in the builder is listed |
| ClassBuilder.ToggleSelection | mobile/src/screens/ClassBuilderScreen.js:93-103 | a selected workout is removed by id, the other selected workouts staying in order; an unselected one is appended; other ids are selected after the toggle exactly when they were before |
| ClassBuilder.DeselectKeepsOrder | mobile/src/screens/ClassBuilderScreen.js:96-99 | deselecting a workout leaves exactly the workouts selected before and after it, in order |
| Lists.RemoveKeyAround | mobile/src/screens/ClassBuilderScreen.js:98 | filtering out the one element with a key leaves the elements around it, in order |
| ClassBuilder.ToggleSelectionTwice | mobile/src/screens/ClassBuilderScreen.js:93-103 | toggling an unselected workout twice gives back the selection |
| ClassBuilder.SelectionOrder | mobile/src/screens/ClassBuilderScreen.js:164-167 | the 1-based position of the first selected workout with that id, or none exactly when none is selected |
| ClassBuilder.SelectionOrderOfAppended | mobile/src/screens/ClassBuilderScreen.js:164-167 | a newly appended workout is numbered last |
| ClassBuilder.AddSelected | mobile/src/screens/ClassBuilderScreen.js:152-162 | every selected workout is appended, in selection order, after the existing entries |
| ClassBuilder.SplitWorkout | mobile/src/screens/ClassBuilderScreen.js:105-150 | the entry is replaced by a LEFT and a RIGHT copy in that order; the list grows by one and nothing else moves |
| ClassBuilder.SplitHalvesKeepSettings | mobile/src/screens/ClassBuilderScreen.js:105-150 | both halves keep the workout id, duration, transition and cues |
| ClassBuilder.MoveUp | mobile/src/screens/ClassBuilderScreen.js:184-188 | the first entry stays put; any other trades places with the one above |
| ClassBuilder.MoveDown | mobile/src/screens/ClassBuilderScreen.js:190-194 | the last entry stays put; any other trades places with the one below |
| ClassBuilder.MoveDownThenUp | mobile/src/screens/ClassBuilderScreen.js:184-194 | moving an entry down and back up restores the builder |
| ClassBuilder.UpdateDuration | mobile/src/screens/ClassBuilderScreen.js:196-208 | the entry gets `parseInt(text) \|\| 0`; every other entry is kept |
| ClassBuilder.UpdateDurationOfNumber | mobile/src/screens/ClassBuilderScreen.js:196-208 | a number typed as its own decimal text is stored as that number |
| ClassBuilder.UpdateCues | mobile/src/screens/ClassBuilderScreen.js:210-222 | only the entry at the index changes, and only its cues |
| ClassBuilder.TotalMinutes | mobile/src/screens/ClassBuilderScreen.js:343-345 | the header's minutes are the least whole number of minutes covering the total seconds |
| ClassBuilder.TotalAfterAdd | mobile/src/screens/ClassBuilderScreen.js:343-345 | adding a workout adds its default duration plus 30 s to the total |
| ClassBuilder.TotalAfterRemove | mobile/src/screens/ClassBuilderScreen.js:169-182 | removing an entry takes exactly its seconds off the total |
| ClassBuilder.TotalAfterMove | mobile/src/screens/ClassBuilderScreen.js:184-194 | reordering never changes the total |
| ClassBuilder.TotalAfterSplit | mobile/src/screens/ClassBuilderScreen.js:105-150 | a split entry is counted twice |
| ClassBuilder.TotalAfterUpdateDuration | mobile/src/screens/ClassBuilderScreen.js:196-208 | changing a duration changes the total by the difference |
| ClassBuilder.IsDuplicateName | mobile/src/screens/ClassBuilderScreen.js:263-289 | true exactly when another class than the one being edited has the same name, lower-cased and trimmed |
| ClassBuilder.DuplicateIgnoresCaseAndSpace | mobile/src/screens/ClassBuilderScreen.js:272-276 | changing the case of the name or adding leading white space does not change the verdict |
| ClassBuilder.EditingDoesNotClashWithItself | mobile/src/screens/ClassBuilderScreen.js:272-276 | a class being edited never clashes with itself |
| ClassBuilder.ToPayloadEntry | mobile/src/screens/ClassBuilderScreen.js:294-305 | the payload names the entry's workout id when truthy and otherwise the workout's id; the transition is the entry's when truthy, else 30, so never 0; the duration is the override or 0; the cues are the entry's or empty text |
| ClassBuilder.SaveClass | mobile/src/screens/ClassBuilderScreen.js:251-316 | blank name refused first, then an empty list, then a clashing name (skipped when the list could not be fetched); otherwise one payload entry per builder entry, in order |
| ClassDetail.PlayStep | mobile/src/screens/ClassDetailScreen.js:35-43 | a row plays for its override, else its default, else 60 s, never 0; its id is the row's when truthy, else `workout-<index>`; its name is the row's, else "Unnamed Workout"; description and cues are the row's, else empty text |
| ClassDetail.RowSeconds | mobile/src/screens/ClassDetailScreen.js:39 | the override when truthy, else the default when truthy, else 60; never 0 |
| ClassDetail.FallbackIdNamesIndex | mobile/src/screens/ClassDetailScreen.js:36 | a made-up id is `workout-` followed by text that reads back as the row's index, so rows without ids get distinct ids |
| ClassDetail.StartClass | mobile/src/screens/ClassDetailScreen.js:27-54 | refused exactly when the class has no workouts; otherwise one play step per class row, in order |
| ClassDetail.ShowStartButton | mobile/src/screens/ClassDetailScreen.js:163 | the button is shown exactly for a class that is not a draft and that the start handler accepts |
| ClassDetail.CardMinutes | mobile/src/screens/ClassDetailScreen.js:136 | with an override or a default, the least whole number of minutes covering the seconds Play Mode counts; with neither, 0 |
| ClassDetail.ShowTransitionBadge | mobile/src/screens/ClassDetailScreen.js:141 | the badge shows only for a truthy transition time, and then exactly when it is positive |
| ClassDetail.StartButtonStarts | mobile/src/screens/ClassDetailScreen.js:163 | whenever the Start button is shown, pressing it starts Play Mode |
| ClassDetail.CardMinutesCoverPlay | mobile/src/screens/ClassDetailScreen.js:136 | a card's minutes cover the seconds Play Mode counts, except a row with no durations, which shows 0 and plays 60 s |
| ClassDetail.DurationFromRows | mobile/src/screens/ClassDetailScreen.js:35-43 | Play Mode's length for the steps from i on is the sum of the rows' seconds |
| ClassDetail.StartedClassPlaysThrough | mobile/src/screens/ClassDetailScreen.js:27-54 | with the corrected transition and alert, a started class completes; the elapsed total is the sum of its rows' seconds and the alert shows that sum |
| ClassDetail.StartedClassStallsAsWritten | mobile/src/screens/ClassDetailScreen.js:27-54 | as written, a started class of two or more workouts stalls at the first hand-over, having counted only the first workout |
| WorkoutForm.InitialForm | mobile/src/screens/WorkoutBuilderScreen.js:40-55 | a new workout starts blank with difficulty all_levels; an edited one starts with its name, description and difficulty (else empty, empty, all_levels), its duration as rounded minutes (else empty), its equipment and tags joined by ", " (else empty) and its risk ids (else none) |
| WorkoutForm.NameProblem | mobile/src/screens/WorkoutBuilderScreen.js:74-78 | "required" exactly when the trimmed name is empty, "too short" exactly when it has one or two UTF-16 code units |
| WorkoutForm.AstralNamePasses | mobile/src/screens/WorkoutBuilderScreen.js:76 | a trimmed name of one emoji and one letter, two characters long, passes the three-unit check |
| WorkoutForm.CorrectedDurationIsStricter | mobile/src/screens/WorkoutBuilderScreen.js:80-82 | the corrected check refuses all the written one does, and what it accepts has a positive `parseInt` |
| WorkoutForm.DigitsAreNumeric | mobile/src/screens/WorkoutBuilderScreen.js:80-82 | a digit string is a number for `Number(...)` |
| WorkoutForm.PositiveMinutesAccepted | mobile/src/screens/WorkoutBuilderScreen.js:80-82 | both checks accept the decimal text of every positive number of minutes |
| WorkoutForm.BlankDurationPasses | mobile/src/screens/WorkoutBuilderScreen.js:80-82 | as written, " " passes the duration check although `parseInt` reads nothing; the corrected check refuses it |
| WorkoutForm.ValidateForm | mobile/src/screens/WorkoutBuilderScreen.js:71-86 | the form is valid exactly when the name and the duration checks both pass |
| WorkoutForm.ToggleRisk | mobile/src/screens/WorkoutBuilderScreen.js:88-94 | a selected risk is filtered out with the other ids kept in order, an unselected one appended |
| WorkoutForm.ToggleRiskTwice | mobile/src/screens/WorkoutBuilderScreen.js:88-94 | toggling a risk twice gives back the selection |
| WorkoutForm.ParseListItems | mobile/src/screens/WorkoutBuilderScreen.js:103-106 | every equipment item is non-empty, trimmed and comma-free |
| WorkoutForm.ParseTagsIsLoweredList | mobile/src/screens/WorkoutBuilderScreen.js:108-111 | the tags are the equipment-style list lower-cased; each is non-empty, trimmed and lower-case |
| WorkoutForm.EquipmentRoundTrip | mobile/src/screens/WorkoutBuilderScreen.js:47-49 | editing and saving untouched equipment gives back the list, for items that are non-empty, trimmed and comma-free |
| WorkoutForm.TagsRoundTrip | mobile/src/screens/WorkoutBuilderScreen.js:50-52 | editing and saving untouched tags gives back the tags, for tags that are non-empty, trimmed, lower-case and comma-free |
| WorkoutForm.DurationSeconds | mobile/src/screens/WorkoutBuilderScreen.js:116 | sixty times what `parseInt` reads, and nothing exactly when it reads nothing |
| WorkoutForm.SaveWorkout | mobile/src/screens/WorkoutBuilderScreen.js:96-121 | refused with the form's errors exactly when there are any; otherwise the trimmed name (3+ UTF-16 code units), the trimmed description or none exactly when it is blank, the duration in seconds, and the form's difficulty and selected risk ids |
| WorkoutForm.BlankDurationIsSaved | mobile/src/screens/WorkoutBuilderScreen.js:80-116 | as written, a well-named workout with a blank duration is saved without a duration; corrected, it is refused |
| WorkoutForm.EditedDurationRoundTrip | mobile/src/screens/WorkoutBuilderScreen.js:44-46 | an untouched duration of 30 s or more passes the check and is sent back within 30 s of the stored value, and exactly when it was whole minutes |
| WorkoutsStore.MergeFilters | mobile/src/store/workoutsSlice.js:59-61 | the keys in the patch take its values and the other keys are kept |
| WorkoutsStore.MergeLaws | mobile/src/store/workoutsSlice.js:59-61 | the empty patch changes nothing, a patch twice is a patch once, and two merges are one merge of the combined patch |
| WorkoutsStore.WorkoutQuery | mobile/src/store/workoutsSlice.js:9-12 | search, difficulty and status are each sent exactly when present and non-empty |
| WorkoutsStore.Reduce | mobile/src/store/workoutsSlice.js:59-96 | pending sets loading and clears the error, fulfilled replaces the list, rejected stores the message, each as a change of exactly those fields; clearCurrentWorkout touches only the current workout; create prepends one item and changes nothing else |
| WorkoutsStore.FetchRoundTrip | mobile/src/store/workoutsSlice.js:69-80 | a request ends with the new list and no error, or the old list and its message; a later success recovers |
| WorkoutsStore.CreatedWorkoutsLeadTheList | mobile/src/store/workoutsSlice.js:94-96 | after several creations the newest is first and the earlier list follows unchanged |
| AuthStore.InitialStateConsistent | mobile/src/store/authSlice.js:76-83 | the app starts signed out and loading, holding no user, no access token and no refresh token, and showing no error |
| AuthStore.Reduce | mobile/src/store/authSlice.js:85-131 | a confirmed token or a login signs that user in with its tokens; a rejected start signs out; a rejected login keeps the session and shows its message; logout clears user and tokens; never signed in without a user and a token |
| AuthStore.ReduceAllConsistent | mobile/src/store/authSlice.js:90-131 | no sequence of actions signs in without a user and a token |
| AuthStore.Initialize | mobile/src/store/authSlice.js:7-35 | no token: "No token found" and the store untouched; a failed check wipes both stored tokens |
| AuthStore.Login | mobile/src/store/authSlice.js:37-56 | a success stores both tokens and signs in that user; a failure leaves the store and reports the server's message or "Login failed" |
| AuthStore.Logout | mobile/src/store/authSlice.js:58-72 | whatever the server answers, the stored tokens are deleted |
| AuthStore.StartWithoutToken | mobile/src/store/authSlice.js:7-35 | a start with no stored token ends signed out, not loading and with no error shown |
| AuthStore.LoginThenLogout | mobile/src/store/authSlice.js:37-131 | login then logout ends signed out with nothing held or stored, even if the server's logout fails |
| AuthStore.LoginSurvivesRestart | mobile/src/store/authSlice.js:7-56 | a token stored by login is found at the next start and signs in the user the server confirms |
| AuthStore.FailedLoginKeepsSession | mobile/src/store/authSlice.js:108-123 | a failed login keeps the previous session and shows a message |
| ErrorHandler.Handle | backend/middleware/errorHandler.js:1-23 | 23505 gives 409, 23503 gives 400, a ValidationError gives 400 with its message; otherwise the status or 500 and the message or "Internal server error"; a stack only in development for the default case |
| ErrorHandler.DatabaseCodesTakePrecedence | backend/middleware/errorHandler.js:5-16 | a database code wins over the error's name and status, and never shows a stack |
| ErrorHandler.UnclassifiedIsServerError | backend/middleware/errorHandler.js:18-22 | an error of no special kind and with no status is a 500 with a non-empty message |
| WorkoutRoutes.Validate | backend/routes/workouts.js:198-215 | the first failing check's message: name (trimmed, 3+ UTF-16 code units), then duration (truthy, > 0), then difficulty (absent or one of four) |
| WorkoutRoutes.NormalizeTags | backend/routes/workouts.js:263-272 | never more tags than given; each stored tag non-empty, trimmed and lower-case |
| WorkoutRoutes.NormalizeTagsIdempotent | backend/routes/workouts.js:263-272 | normalising twice is normalising once |
| WorkoutRoutes.Create | backend/routes/workouts.js:181-297 | 400 with the first failing check's message, then 409 on a case-insensitive name clash, then failure on an unknown risk, nothing stored on any failure; otherwise 201 storing the trimmed name, the creator, pending status, the description or none, the given duration, the difficulty or all_levels, the equipment or none, the normalised tags and the given risks |
| WorkoutRoutes.Update | backend/routes/workouts.js:300-425 | 404 before any validation, then 400; success exactly when the name is free among the other workouts and every risk exists; the trimmed name, the description or none, the given duration, the difficulty or all_levels and the equipment or none are written; tags and risks replaced only when given; every other column, creator and approval status included, kept |
| WorkoutRoutes.Delete | backend/routes/workouts.js:428-482 | 404, then 409 when a class uses the workout; otherwise only that workout is removed |
| WorkoutRoutes.CreateKeepsNamesUnique | backend/routes/workouts.js:218-258 | creation keeps workout names unique ignoring case |
| WorkoutRoutes.UpdateKeepsNamesUnique | backend/routes/workouts.js:349-380 | update keeps workout names unique ignoring case |
| WorkoutRoutes.SameNameIsRefused | backend/routes/workouts.js:218-228 | creating the same name twice, in any case, gives 409 the second time |
| WorkoutRoutes.UpdateWithoutRelationsKeepsThem | backend/routes/workouts.js:383-410 | an update without tags or risks keeps the stored ones |
| WorkoutRoutes.UpdateWithoutColumnsResetsThem | backend/routes/workouts.js:362-380 | an update without description, equipment or difficulty clears the first two and resets the difficulty to all_levels, whatever was stored |
| WorkoutRoutes.DeleteKeepsLinksIntact | backend/routes/workouts.js:448-466 | deletion never leaves a class referring to a missing workout |
| WorkoutRoutes.SeverityRank | backend/routes/workouts.js:78-84 | high 1, medium 2, low 3, anything else 4 |
| WorkoutRoutes.BySeverityPermutes | backend/routes/workouts.js:73-86 | the severity order is a permutation of the risks |
| WorkoutRoutes.BySeveritySorted | backend/routes/workouts.js:73-86 | the severity order is sorted high, medium, low, other |
| ClassRoutes.TotalMinutes | backend/routes/classes.js:113-131 | the stored total is the least whole number of minutes covering Σ((override or default or 0) + (transition or 0)) |
| ClassRoutes.TotalOfAppend | backend/routes/classes.js:113-116 | seconds add up across lists, so the rounded total of a concatenation is at most the sum of the totals |
| ClassRoutes.FirstFailure | backend/routes/classes.js:139-155 | the first workout whose row insert fails (missing or unknown workout), with every earlier one succeeding |
| ClassRoutes.Links | backend/routes/classes.js:139-155 | one row per workout before the first failing insert, the i-th built from the i-th workout |
| ClassRoutes.LinksAreNumbered | backend/routes/classes.js:140-153 | with no failure the orders are exactly 1..n in the given order and a missing transition is stored as 0 |
| ClassRoutes.Create | backend/routes/classes.js:95-161 | a falsy name gives 400 and nothing is written; a null workouts list gives 500 with the TypeError's message and nothing written; otherwise the class with the owner, the rounded total and isDraft defaulting to true, and its numbered rows; 201 exactly when every row inserts |
| ClassRoutes.OrEmpty | backend/routes/classes.js:106 | a given workouts list is used as it is; an absent one defaults to no workouts |
| ClassRoutes.FailedInsertLeavesClass | backend/routes/classes.js:118-160 | a failing workout row fails the request but leaves the class and the rows before it |
| ClassRoutes.Patch | backend/routes/classes.js:182-191 | each given field (name, type, schedule, room, draft flag) replaces the stored one and every other column is kept |
| ClassRoutes.Update | backend/routes/classes.js:164-210 | 404, then 403 for any non-owner; the given fields replace the stored ones; rows are replaced only when workouts are given; as written the total is kept |
| ClassRoutes.StaleTotalAfterUpdate | backend/routes/classes.js:182-204 | as written, a class created empty and given a 10-minute workout by PUT still reports 0 minutes |
| ClassRoutes.CorrectedUpdateMatchesCreate | backend/routes/classes.js:113-204 | corrected, an update stores the total and the rows a creation with the same workouts stores |
| ClassRoutes.Delete | backend/routes/classes.js:213-235 | 404, then 403; success exactly for the owner, removing the class and its rows |
| ClassRoutes.OnlyOwnerWrites | backend/routes/classes.js:169-180 | whatever the role, a non-owner's PUT or DELETE changes nothing and gets 403 or 404 |
| ClassRoutes.Joined | backend/routes/classes.js:74-85 | the joined rows keep the class's order; when every row's workout exists, none is dropped |
| ClassRoutes.Detail | backend/routes/classes.js:47-92 | 404, then 403 for an instructor on another's class; otherwise the class and its rows in order |
| ClassRoutes.DetailAccess | backend/routes/classes.js:67-72 | an instructor reads exactly their own classes; managers and admins read all |
| ClassRoutes.List | backend/routes/classes.js:8-44 | exactly the user's classes passing the status filter (draft, final, else all) and the schedule filter (upcoming, past, else all) |
| ClassRoutes.ListFiltersPartition | backend/routes/classes.js:25-35 | drafts and finals partition the list; upcoming and past are disjoint and miss only unscheduled classes and those scheduled exactly now |
| SubmissionRoutes.Submit | backend/routes/submissions.js:9-54 | 400 without an id; 404 unless the user created the workout; otherwise a pending submission and the workout pending and no longer a draft, other workouts untouched |
| SubmissionRoutes.Approve | backend/routes/submissions.js:88-132 | reviewers only; 404 unless the submission and its workout exist; then both approved, with reviewer, notes and approver |
| SubmissionRoutes.Reject | backend/routes/submissions.js:135-183 | reviewers only; missing notes 400 before 404; then both rejected, the notes on both |
| SubmissionRoutes.List | backend/routes/submissions.js:57-85 | exactly the submissions with an existing workout, an instructor's limited to their own |
| SubmissionRoutes.ListScoping | backend/routes/submissions.js:73-76 | an instructor's listing is their own submissions and is contained in a reviewer's |
| SubmissionRoutes.WritesKeepStatusesKnown | backend/routes/submissions.js:26-171 | every workout and submission stays pending, approved or rejected |
| SubmissionRoutes.InstructorCannotReview | backend/routes/submissions.js:88-135 | an instructor's approve or reject gets the role check's reply and changes nothing |
| SubmissionRoutes.SubmitThenApprove | backend/routes/submissions.js:9-132 | a workout submitted by its creator and approved by a manager ends approved by that manager |
| SubmissionRoutes.RejectedCanBeResubmitted | backend/routes/submissions.js:9-183 | a rejected workout can be submitted again, becoming pending and keeping the feedback |
| FeaturedRoutes.Submit | backend/routes/featured.js:8-55 | 404, then 403 for a non-owner, then 400 for a draft; otherwise featured status pending and nothing else changes |
| FeaturedRoutes.PendingList | backend/routes/featured.js:58-81 | admins only; exactly the classes whose featured status is pending |
| FeaturedRoutes.Review | backend/routes/featured.js:84-107 | admins only; approved and featured exactly when approved, else rejected and not featured; an unknown id changes nothing yet is confirmed |
| FeaturedRoutes.ReviewKeepsFeaturedApproved | backend/routes/featured.js:93-101 | after a review every featured class is approved, if it was so before |
| FeaturedRoutes.ResubmitKeepsFeatured | backend/routes/featured.js:41-47 | resubmitting a featured class makes it pending while it stays featured |
| FeaturedRoutes.SubmitReviewRoundTrip | backend/routes/featured.js:8-107 | a submitted class shows in the pending list and, once approved, is featured and no longer pending |
| AuditLogger.ResourceType | backend/middleware/auditLogger.js:14 | the third '/'-piece of the path when non-empty, else "unknown"; never empty, never holds '/' |
| AuditLogger.ResourceTypeOfApiPath | backend/middleware/auditLogger.js:14 | `/api/<r>` and `/api/<r>/<rest>` are recorded under `<r>` |
| AuditLogger.ResourceTypeOfRouterPath | backend/middleware/auditLogger.js:14 | a router's own path `/` or `/<id>` is recorded under "unknown", and `/<id>/<action>` under `<action>` |
| AuditLogger.LoggedPath | backend/middleware/auditLogger.js:13 | as written, `req.path`, relative to the router's mount point; corrected, the mount point followed by that path |
| AuditLogger.Record | backend/middleware/auditLogger.js:13-14 | the record is the user, `<METHOD> <path>` and the resource type |
| AuditLogger.Handle | backend/middleware/auditLogger.js:3-40 | next is always called and the body passes unchanged; a record exactly when should-log holds, at the moment the variant decides, and the status is in [200, 400); the record names the path the variant logs |
| AuditLogger.AsWrittenNeverRecords | backend/server.js:70 | mounted before any route authenticates, the logger never records |
| AuditLogger.CreateIsRecordedOnlyWhenCorrected | backend/middleware/auditLogger.js:4-14 | a signed-in `POST` to the router at `/api/<r>` is recorded as `POST /api/<r>/` under `<r>` when corrected and not at all as written |
| AuditLogger.MountRelativeCreateIsUnknown | backend/middleware/auditLogger.js:13-14 | with only the timing fixed, a signed-in create on any router is recorded as `POST /` under "unknown" |
| AuditLogger.CorrectedRecordNamesResource | backend/middleware/auditLogger.js:13-14 | corrected, every record of a write to the router at `/api/<r>` names `<r>` and the full path |
| AuditLogger.CorrectedRecordsSuccessfulWrites | backend/middleware/auditLogger.js:4-10 | corrected, exactly the signed-in writes with status in [200, 400) are recorded; reads never |
| SaveFlow.EntrySeconds | mobile/src/screens/ClassBuilderScreen.js:294-305 | the server counts a builder entry as the header does, plus 30 s when the entry has no transition |
| SaveFlow.SavedClassTotalMatchesHeader | backend/routes/classes.js:113-131 | a class saved from the builder, every entry having a transition, is stored with the total the header shows |
| SaveFlow.MissingTransitionCountsOnServer | mobile/src/screens/ClassBuilderScreen.js:300 | an entry without a transition is stored 30 s longer than the header shows |
| SaveFlow.DurationlessPayloadRefused | backend/routes/workouts.js:204-208 | a workout payload without a duration is refused with 400 and nothing stored |
| SaveFlow.BlankDurationRefusedByServer | mobile/src/screens/WorkoutBuilderScreen.js:80-121 | the blank duration the form lets through is refused by the server with 400 |
| SaveFlow.CorrectedFormPassesServerChecks | mobile/src/screens/WorkoutBuilderScreen.js:71-121 | whatever the corrected form saves passes the server's name and duration checks |
| SaveFlow.FormTagsAreStoredAsSent | backend/routes/workouts.js:263-272 | the server's tag normalisation leaves the form's tags unchanged |
| Text.Trim | mobile/src/screens/WorkoutBuilderScreen.js:105 | the trimmed text has no white space at either end, and is empty exactly when the text is blank |
| Text.JsLength | backend/routes/workouts.js:198 | `.length` counts UTF-16 code units: between the number of characters and twice it, and equal to it exactly when no character lies outside the Basic Multilingual Plane |
| Text.AstralCountsTwice | backend/routes/workouts.js:198 | one emoji and one letter are two characters and three code units |
| Text.ToLower | mobile/src/screens/WorkoutBuilderScreen.js:110 | same length, lower-case, only ASCII letters changed |
| Text.LowerTrim | backend/routes/workouts.js:268 | trimmed and lower-case, empty exactly for blank text |
| Text.JoinSplit | mobile/src/screens/WorkoutBuilderScreen.js:103-106 | joining the pieces of a split gives back the text |
| Text.SplitJoin | mobile/src/screens/WorkoutBuilderScreen.js:47-49 | splitting the join of separator-free pieces gives back the pieces |
| Text.ParseIntOfIntToString | mobile/src/screens/ClassBuilderScreen.js:196-208 | `parseInt` of a number's decimal text is that number |
| Text.CeilMinutes | backend/routes/classes.js:131 | the least whole number of minutes covering the seconds |
| Text.RoundMinutes | mobile/src/screens/WorkoutBuilderScreen.js:45 | the whole minutes nearest the seconds, halves up |
| Lists.RemoveInsert | mobile/src/store/classesSlice.js:82-86 | removing an entry and inserting it back at the same place gives back the list |
| Lists.Move | mobile/src/store/classesSlice.js:82-86 | the moved entry sits at the target and the list keeps its length and its elements |
| Lists.SumMove | mobile/src/screens/ClassBuilderScreen.js:343-345 | moving an entry keeps the sum |

## Left out

- Rendering, styles, navigation, the theme and the other screens: presentation only.
- Real timers, haptics, video, keep-awake and the confirmation alerts. A tick, or a due preview, is an explicit event, and a confirmed dialog is its action taking effect. React's batching inside a tick is resolved in the order the handlers run: the completion handler's writes are final.
- The preview timeouts' real delays. A pending timeout is recorded with its delay and may fire at any point; the order in which several fire is not modelled.
- Date and time handling in the builder (date and time pickers, ISO strings) and in the class list. The builder's schedule is kept as an opaque string, and the backend's `scheduled_at` is a number of seconds. "Now" is a parameter.
- `parseInt` handles decimal digits only; hexadecimal prefixes and other radices are not modelled. `Number(...)` is modelled only as the test for NaN that the form uses.
- `toLowerCase` lowers ASCII letters only, and there is no Unicode case mapping.
- Authentication and the role middleware: `middleware/auth.js` is not part of this model. A route's signed-in user is a parameter. The reply of `authorize('admin', 'manager')` to other roles is a parameter, `denied`.
- SQL text, transactions and the connection pool. The tables are maps; ids the database assigns are parameters.
  - The workout routes run in a transaction, so a failure there leaves the tables as they were.
  - The class routes do not run in a transaction, so a failed row insert leaves what was written before it.
  - A class's rows are assumed to be removed with the class.
  - `sequence_order` ordering of the detail query is taken to be the stored order of the rows.
- The joined display fields (type names, workout names, counts, user names) and the `ORDER BY` of every list. Lists are modelled as sets of ids.
- The workout list and detail GET routes, the injury-risk list route, templates, settings, consent, auth and the Mariana sync: outside the modelled core.
- Email notifications, console logging and the audit record's asynchronous insert (its `details`, IP and user agent). A record is the value that would be inserted.
- WorkoutForm.SaveWorkout: its contract does not state that the equipment and tags are the parsed lists. `ParseListItems`, `ParseTagsIsLoweredList` and `EquipmentRoundTrip` state those properties for the parsers themselves.
- FeaturedRoutes.Review: `approved` is a boolean; a missing `approved`, which the route would store as a null `is_featured`, is modelled as false.
- ClassRoutes.List: the `status` and `scheduled` query values are taken as given strings; a repeated query key, which Express turns into an array, is not modelled.
- The class detail screen passes no transition time to Play Mode, which always uses its fixed 10-second transition; `ClassDetail.PlayStep` reflects this by carrying no transition field.
- ClassRoutes.Create: `isDraft` and `isTemplate` are optional booleans, so a null flag is modelled like an absent one and takes the destructuring default, whereas the route would pass the null on to the insert; the table's column constraints are not part of this model. A `workouts` value that is neither absent, null nor a list is not modelled, and neither is the error's stack.
- ClassRoutes.InsertError: the database schema is not part of this model. A row without a workout id is taken to fail with PostgreSQL's not-null violation (23502), which assumes `class_workouts.workout_id` is declared NOT NULL; the error handler answers it with a 500 like any unclassified error.
- AuditLogger: the route's `req.path` is taken as it is inside the router that answers. The path a request had before reaching the router, and nested routers, are not modelled.

## Findings

| source | as written | input that shows it | evidently intended | confidence | as-written member | corrected member |
|---|---|---|---|---|---|---|
| mobile/src/screens/PlayModeScreen.js:150-171 | when a transition runs out, the interval sets the next index but leaves `isTransition` true and keeps running, so the index effect never starts the next workout | any class of two workouts, each at least 1 s, after the first workout and 10 transition ticks | the transition ends and the next workout starts at full duration | high (not executed) | PlayMode.FirstTransitionStalls | PlayMode.CorrectedClassCompletes |
| mobile/src/screens/PlayModeScreen.js:238-248 | Previous from workout 1 stops the countdown, but the index effect skips index 0, so workout 0 is not restarted and the clock shows the old seconds | a running session on workout 1 and a press of Previous | workout 0 starts from its full duration | medium (not executed) | PlayMode.SkipBackToFirstStalls | PlayMode.CorrectedSkipBackRestarts |
| mobile/src/screens/WorkoutBuilderScreen.js:80-82 | the duration check refuses only empty text, text `Number` cannot read, and a `parseInt` of 0 or less; a NaN `parseInt` passes | the duration " " (`Number(" ")` is 0, `parseInt(" ")` is NaN): the form saves a workout with no duration, which the server then refuses | only a positive whole number of minutes passes | high (not executed) | WorkoutForm.BlankDurationPasses | WorkoutForm.CorrectedDurationIsStricter |
| backend/routes/classes.js:182-204 | PUT replaces a class's workouts but keeps the old `total_duration` | create a class with no workouts (total 0), then PUT one workout with a 600 s override: the total stays 0 instead of 10 | the total is recomputed from the new list as on creation | high (not executed) | ClassRoutes.StaleTotalAfterUpdate | ClassRoutes.CorrectedUpdateMatchesCreate |
| backend/server.js:70 | the audit logger is mounted ahead of the routers, whose `authenticate` sets `req.user`, and decides whether to log when it runs, so `req.user` is unset and nothing is ever recorded | a signed-in `POST /api/workouts` answered 201 | signed-in writes answered with a status in [200, 400) are recorded | medium (not executed) | AuditLogger.CreateIsRecordedOnlyWhenCorrected | AuditLogger.CorrectedRecordsSuccessfulWrites |
| backend/middleware/auditLogger.js:13-14 | the record's action and resource type are read from `req.path`, which inside a mounted router is relative to its mount point, so the resource type is the third piece of the router's own path | a signed-in `POST /api/workouts` answered 201, with the logging decision made at send time: it is recorded as `POST /` under "unknown" | the action holds the full path and the resource type is the router's resource, `workouts` | medium (not executed) | AuditLogger.MountRelativeCreateIsUnknown | AuditLogger.CorrectedRecordNamesResource |
| mobile/src/screens/PlayModeScreen.js:100-125 | the workout interval's closure calls `handleClassComplete`, whose alert formats the `totalElapsed` of the render that started the timer, so the last workout's seconds are missing from the "Total time" | a class of one 45 s workout, left to run: the alert reads "Total time: 0:00" | the alert shows the elapsed total, the sum of the workout durations | medium (not executed) | PlayMode.OneWorkoutAlertShowsZero | PlayMode.CorrectedClassCompletes |

=== FILE: audit_logger.dfy ===
/** The audit logger: a middleware that wraps `res.send` so that a successful write by a
    signed-in user leaves an audit record. The record's insert runs later and its failure is
    only logged; here a record is the value the wrapper would insert. */
module AuditLogger {
  import opened Wrappers
  import opened Text

  /** The methods that write. */
  const WriteMethods: seq<string> := ["POST", "PUT", "PATCH", "DELETE"]

  /** The parts of a request the logger reads. `baseUrl` is the path a router is mounted at
      and `path` is `req.path` inside that router, relative to it (`/`, `/<id>`, ...), as it
      still is when the reply is sent. `userAtMount` is `req.user` when the middleware runs
      and `userAtSend` is `req.user` when the reply is sent, after the route's own
      authentication. */
  datatype Request = Request(verb: string, baseUrl: string, path: string,
                             userAtMount: Option<string>, userAtSend: Option<string>)

  /** The audit row: who, `<METHOD> <path>`, and the resource type. */
  datatype AuditRecord = AuditRecord(userId: string, action: string, resourceType: string)

  /** `req.user && [...].includes(req.method)`, for the user seen at some moment. */
  predicate ShouldLog(user: Option<string>, verb: string) {
    user.Some? && verb in WriteMethods
  }

  /** Only replies with a status in [200, 400) are recorded. */
  predicate InWindow(status: int) {
    200 <= status < 400
  }

  /** `req.path.split('/')[2] || 'unknown'`: the third piece of the path, or "unknown" when
      there is none or it is empty. */
  function ResourceType(path: string): (r: string)
    ensures r != [] && '/' !in r
    ensures |Split(path, '/')| >= 3 && Split(path, '/')[2] != [] ==> r == Split(path, '/')[2]
  {
    var parts := Split(path, '/');
    if |parts| >= 3 && parts[2] != [] then parts[2] else "unknown"
  }

  /** A path of the form `/api/<resource>/<rest>` or `/api/<resource>` is recorded under
      `<resource>`. */
  lemma {:induction false} ResourceTypeOfApiPath(resource: string, rest: Option<string>)
    requires resource != [] && '/' !in resource
    ensures rest.None? ==> ResourceType("/api/" + resource) == resource
    ensures rest.Some? ==> ResourceType("/api/" + resource + "/" + rest.value) == resource
  {
    assert "/api/" == [] + ['/'] + "api" + ['/'];
    SplitNoSep("api", '/');
    SplitNoSep(resource, '/');
    SplitNoSep([], '/');
    if rest.None? {
      var p := "/api/" + resource;
      assert p == [] + ['/'] + ("api" + ['/'] + resource);
      SplitAppend([], "api" + ['/'] + resource, '/');
      SplitAppend("api", resource, '/');
      assert Split(p, '/') == [[], "api", resource];
    } else {
      var p := "/api/" + resource + "/" + rest.value;
      assert p == [] + ['/'] + ("api" + ['/'] + (resource + ['/'] + rest.value));
      SplitAppend([], "api" + ['/'] + (resource + ['/'] + rest.value), '/');
      SplitAppend("api", resource + ['/'] + rest.value, '/');
      SplitAppend(resource, rest.value, '/');
      assert Split(p, '/')[..3] == [[], "api", resource];
    }
  }

  /** Inside a router, the root path and a one-piece path such as `/<id>` are recorded under
      "unknown", and `/<id>/<action>` under `<action>`. */
  lemma {:induction false} ResourceTypeOfRouterPath(id: string, action: Option<string>)
    requires '/' !in id
    ensures action.None? ==> ResourceType("/" + id) == "unknown"
    ensures action.Some? && action.value != [] && '/' !in action.value ==>
              ResourceType("/" + id + "/" + action.value) == action.value
  {
    SplitNoSep([], '/');
    SplitNoSep(id, '/');
    if action.None? {
      assert "/" + id == [] + ['/'] + id;
      SplitAppend([], id, '/');
      assert Split("/" + id, '/') == [[], id];
    } else if action.value != [] && '/' !in action.value {
      var p := "/" + id + "/" + action.value;
      assert p == [] + ['/'] + (id + ['/'] + action.value);
      SplitNoSep(action.value, '/');
      SplitAppend([], id + ['/'] + action.value, '/');
      SplitAppend(id, action.value, '/');
      assert Split(p, '/') == [[], id, action.value];
    }
  }

  /** Which version of the middleware: whether the decision to wrap `send` is made when the
      reply is sent (as written, when the middleware runs), and whether the recorded path is
      the full one, `req.baseUrl + req.path` (as written, `req.path`). */
  datatype Variant = Variant(decideAtSend: bool, fullPath: bool)

  const AsWritten := Variant(false, false)
  /** The wrapping decision moved to send time, the path still as written. */
  const DecidedAtSend := Variant(true, false)
  const Corrected := Variant(true, true)

  /** The path the record names. */
  function LoggedPath(v: Variant, req: Request): (p: string)
    ensures !v.fullPath ==> p == req.path
    ensures v.fullPath ==> p == req.baseUrl + req.path
  {
    if v.fullPath then req.baseUrl + req.path else req.path
  }

  /** The record the wrapper writes for a reply, when it writes one. */
  function Record(user: string, verb: string, path: string): (a: AuditRecord)
    ensures a.userId == user && a.resourceType == ResourceType(path)
    ensures a.action == verb + " " + path
  {
    AuditRecord(user, verb + " " + path, ResourceType(path))
  }

  /** What happens to one request: `next()` is always called, the body reaches the original
      `send` unchanged, and at most one record is written. As written, whether to wrap `send`
      is decided when the middleware runs; decided at send time, the same test is made when
      the reply is sent. The record carries the user seen at send time. */
  function Handle<D>(v: Variant, req: Request, status: int, body: D): (r: (bool, D, Option<AuditRecord>))
    ensures r.0 && r.1 == body
    ensures !v.decideAtSend ==> (r.2.Some? <==> ShouldLog(req.userAtMount, req.verb) && req.userAtSend.Some? && InWindow(status))
    ensures v.decideAtSend ==> (r.2.Some? <==> ShouldLog(req.userAtSend, req.verb) && InWindow(status))
    ensures r.2.Some? ==> r.2.value == Record(req.userAtSend.value, req.verb, LoggedPath(v, req))
  {
    var wrapped := if v.decideAtSend then true else ShouldLog(req.userAtMount, req.verb);
    var logged := wrapped && ShouldLog(req.userAtSend, req.verb) && InWindow(status);
    (true, body, if logged then Some(Record(req.userAtSend.value, req.verb, LoggedPath(v, req))) else None)
  }

  /** Mounted ahead of the routers, the middleware runs before any route authenticates, so
      `req.user` is unset at that moment and no request is ever recorded. */
  lemma AsWrittenNeverRecords<D>(req: Request, status: int, body: D)
    requires req.userAtMount.None?
    ensures Handle(AsWritten, req, status, body).2.None?
  {
  }

  /** A signed-in user's successful `POST /api/<resource>` is recorded under `<resource>` by
      the corrected middleware and not at all as written. */
  lemma CreateIsRecordedOnlyWhenCorrected(user: string, resource: string)
    requires resource != [] && '/' !in resource
    ensures var req := Request("POST", "/api/" + resource, "/", None, Some(user));
      && Handle(AsWritten, req, 201, 0).2.None?
      && Handle(Corrected, req, 201, 0).2 == Some(AuditRecord(user, "POST /api/" + resource + "/", resource))
  {
    var req := Request("POST", "/api/" + resource, "/", None, Some(user));
    ResourceTypeOfApiPath(resource, Some([]));
    assert "/api/" + resource + "/" + [] == req.baseUrl + req.path;
    assert req.verb + " " + (req.baseUrl + req.path) == "POST /api/" + resource + "/";
    assert ShouldLog(req.userAtSend, req.verb) by {
      assert WriteMethods[0] == req.verb;
    }
  }

  /** With the wrapping decided at send time but the path as written, a signed-in create is
      recorded as `POST /` under "unknown", whichever router handled it. */
  lemma MountRelativeCreateIsUnknown(user: string, resource: string)
    ensures var req := Request("POST", "/api/" + resource, "/", None, Some(user));
      Handle(DecidedAtSend, req, 201, 0).2 == Some(AuditRecord(user, "POST /", "unknown"))
  {
    var req := Request("POST", "/api/" + resource, "/", None, Some(user));
    ResourceTypeOfRouterPath([], None);
    assert "/" + [] == req.path;
    assert req.verb + " " + req.path == "POST /";
    assert ShouldLog(req.userAtSend, req.verb) by {
      assert WriteMethods[0] == req.verb;
    }
  }

  /** Corrected, every recorded write to a route of `/api/<resource>` is recorded under
      `<resource>` with its full path, whatever the path inside the router. */
  lemma CorrectedRecordNamesResource<D>(req: Request, resource: string, rest: string, status: int, body: D)
    requires resource != [] && '/' !in resource
    requires req.baseUrl == "/api/" + resource && req.path == "/" + rest
    ensures var r := Handle(Corrected, req, status, body).2;
      r.Some? ==> r.value.resourceType == resource && r.value.action == req.verb + " /api/" + resource + "/" + rest
  {
    ResourceTypeOfApiPath(resource, Some(rest));
    assert req.baseUrl + req.path == "/api/" + resource + "/" + rest;
  }

  /** Corrected, exactly the signed-in writes that succeed or redirect are recorded, and reads,
      anonymous requests and failures are not. */
  lemma CorrectedRecordsSuccessfulWrites<D>(req: Request, status: int, body: D)
    ensures Handle(Corrected, req, status, body).2.Some? <==>
              req.userAtSend.Some? && req.verb in WriteMethods && 200 <= status < 400
    ensures req.verb == "GET" ==> Handle(Corrected, req, status, body).2.None?
  {
  }
}

=== FILE: auth_store.dfy ===
/** The auth slice of the mobile store together with its three request thunks. The device's
    secure token store is a value the thunks read and return; the `/auth/me`, `/auth/login`
    and `/auth/logout` replies are parameters. */
module AuthStore {
  import opened Wrappers
  import StoreFlags

  datatype User = User(id: string, email: string, role: string)

  datatype State = State(
    user: Option<User>,
    accessToken: Option<string>,
    refreshToken: Option<string>,
    isAuthenticated: bool,
    isLoading: bool,
    error: Option<string>)

  /** Before the stored tokens are checked the app is loading and signed out. */
  const InitialState := State(None, None, None, false, true, None)

  /** The tokens kept in the device's secure store. */
  datatype Stored = Stored(accessToken: Option<string>, refreshToken: Option<string>)

  datatype Action =
    | InitializePending
    | InitializeFulfilled(user: User, accessToken: string, refreshToken: Option<string>)
    | InitializeRejected(message: string)
    | LoginPending
    | LoginFulfilled(user: User, accessToken: string, refreshToken: Option<string>)
    | LoginRejected(message: string)
    | LogoutFulfilled
    | ClearError

  /** Signed in means a user and an access token are held. */
  predicate Consistent(s: State) {
    s.isAuthenticated ==> s.user.Some? && s.accessToken.Some?
  }

  /** The app starts signed out, holding no user and no token, with no error, and loading. */
  lemma InitialStateConsistent()
    ensures Consistent(InitialState) && !InitialState.isAuthenticated && InitialState.isLoading
    ensures InitialState.user.None? && InitialState.accessToken.None? && InitialState.refreshToken.None?
    ensures InitialState.error.None?
  {
  }

  /** The slice reducer. */
  function Reduce(s: State, a: Action): (r: State)
    ensures Consistent(s) ==> Consistent(r)
    ensures a.InitializePending? ==> r == s.(isLoading := true)
    ensures a.InitializeFulfilled? || a.LoginFulfilled? ==>
              r == State(Some(a.user), Some(a.accessToken), a.refreshToken, true, false, None)
    ensures a.InitializeRejected? ==> r == s.(isLoading := false, isAuthenticated := false)
    ensures a.LoginPending? ==> r == s.(isLoading := true, error := None)
    ensures a.LoginRejected? ==> r == s.(isLoading := false, error := Some(a.message))
    ensures a.LogoutFulfilled? ==>
              !r.isAuthenticated && r.user.None? && r.accessToken.None? && r.refreshToken.None?
              && r.error.None? && r.isLoading == s.isLoading
    ensures a.ClearError? ==> r == s.(error := None)
  {
    match a
    case InitializePending => s.(isLoading := true)
    case InitializeFulfilled(u, at, rt) => State(Some(u), Some(at), rt, true, false, None)
    case InitializeRejected(_) => s.(isLoading := false, isAuthenticated := false)
    case LoginPending => s.(isLoading := true, error := None)
    case LoginFulfilled(u, at, rt) => State(Some(u), Some(at), rt, true, false, None)
    case LoginRejected(m) => s.(isLoading := false, error := Some(m))
    case LogoutFulfilled => s.(user := None, accessToken := None, refreshToken := None, isAuthenticated := false, error := None)
    case ClearError => s.(error := None)
  }

  /** The state after each action in turn. */
  function ReduceAll(s: State, actions: seq<Action>): State
    decreases |actions|
  {
    if |actions| == 0 then s else ReduceAll(Reduce(s, actions[0]), actions[1..])
  }

  /** No sequence of actions signs the app in without a user and a token. */
  lemma {:induction false} ReduceAllConsistent(s: State, actions: seq<Action>)
    requires Consistent(s)
    ensures Consistent(ReduceAll(s, actions))
    decreases |actions|
  {
    if |actions| > 0 {
      ReduceAllConsistent(Reduce(s, actions[0]), actions[1..]);
    }
  }

  /** `initializeAuth`: without a stored access token it is rejected with "No token found"
      and the store is left alone; with one, the `/auth/me` reply decides, and a failed reply
      also wipes both stored tokens. */
  function Initialize(stored: Stored, me: Result<User, Option<string>>): (r: (Action, Stored))
    ensures !TruthyStr(stored.accessToken) ==> r == (InitializeRejected("No token found"), stored)
    ensures TruthyStr(stored.accessToken) && me.Ok? ==>
              r.0 == InitializeFulfilled(me.value, stored.accessToken.value, stored.refreshToken) && r.1 == stored
    ensures TruthyStr(stored.accessToken) && me.Err? ==>
              r.0 == InitializeRejected(StoreFlags.RejectionMessage(me.error, "Authentication failed"))
              && r.1 == Stored(None, None)
  {
    if !TruthyStr(stored.accessToken) then (InitializeRejected("No token found"), stored)
    else match me
      case Ok(u) => (InitializeFulfilled(u, stored.accessToken.value, stored.refreshToken), stored)
      case Err(e) => (InitializeRejected(StoreFlags.RejectionMessage(e, "Authentication failed")), Stored(None, None))
  }

  /** The reply of `/auth/login`: the user and both tokens, or the server's error. */
  datatype LoginReply = LoginReply(user: User, accessToken: string, refreshToken: Option<string>)

  /** `login`: a successful reply is stored on the device and signed in; a failure leaves the
      store alone and reports the server's message or "Login failed". */
  function Login(stored: Stored, reply: Result<LoginReply, Option<string>>): (r: (Action, Stored))
    ensures reply.Ok? ==> r.1 == Stored(Some(reply.value.accessToken), reply.value.refreshToken)
    ensures reply.Ok? ==> r.0.LoginFulfilled? && r.0.user == reply.value.user
    ensures reply.Err? ==> r == (LoginRejected(StoreFlags.RejectionMessage(reply.error, "Login failed")), stored)
  {
    match reply
    case Ok(l) => (LoginFulfilled(l.user, l.accessToken, l.refreshToken), Stored(Some(l.accessToken), l.refreshToken))
    case Err(e) => (LoginRejected(StoreFlags.RejectionMessage(e, "Login failed")), stored)
  }

  /** `logout`: whatever the server answers, the stored tokens are deleted and the slice is
      signed out. */
  function Logout(stored: Stored, serverOk: bool): (r: (Action, Stored))
    ensures r == (LogoutFulfilled, Stored(None, None))
  {
    (LogoutFulfilled, Stored(None, None))
  }

  /** Starting the app with no stored token ends signed out and no longer loading, with no
      error shown: the rejection's message is not stored. */
  lemma StartWithoutToken(stored: Stored, me: Result<User, Option<string>>)
    requires !TruthyStr(stored.accessToken)
    ensures var (a, st) := Initialize(stored, me);
      var r := Reduce(Reduce(InitialState, InitializePending), a);
      !r.isAuthenticated && !r.isLoading && r.error.None? && st == stored
  {
  }

  /** A successful login followed by a logout leaves the slice signed out with nothing held
      and nothing stored on the device, even when the server's logout fails. */
  lemma LoginThenLogout(s: State, stored: Stored, reply: LoginReply, serverOk: bool)
    ensures var (a1, st1) := Login(stored, Ok(reply));
      var s1 := Reduce(Reduce(s, LoginPending), a1);
      var (a2, st2) := Logout(st1, serverOk);
      var s2 := Reduce(s1, a2);
      && s1.isAuthenticated && s1.user == Some(reply.user) && s1.accessToken == Some(reply.accessToken)
      && st1.accessToken == Some(reply.accessToken)
      && !s2.isAuthenticated && s2.user.None? && s2.accessToken.None? && s2.refreshToken.None?
      && st2 == Stored(None, None)
  {
  }

  /** A token stored by a login is found again at the next start: when `/auth/me` accepts it,
      the app starts signed in as that user with that token. */
  lemma LoginSurvivesRestart(stored: Stored, reply: LoginReply, me: User)
    requires reply.accessToken != ""
    ensures var (_, st) := Login(stored, Ok(reply));
      var (a, _) := Initialize(st, Ok(me));
      var r := Reduce(Reduce(InitialState, InitializePending), a);
      r.isAuthenticated && r.accessToken == Some(reply.accessToken) && r.user == Some(me)
      && r.refreshToken == reply.refreshToken
  {
  }

  /** A failed login keeps whatever session was held and shows the message. */
  lemma FailedLoginKeepsSession(s: State, stored: Stored, e: Option<string>)
    ensures var (a, st) := Login(stored, Err(e));
      var r := Reduce(Reduce(s, LoginPending), a);
      r.isAuthenticated == s.isAuthenticated && r.user == s.user && r.accessToken == s.accessToken
      && st == stored && r.error.Some? && !r.isLoading
  {
  }
}

=== FILE: class_builder.dfy ===
/** The class builder screen: loading a saved class into the builder, the workout picker with
    its multi-selection, the per-entry edits (split into sides, move, duration, cues), the
    running total, and the checks and payload of saving. */
module ClassBuilder {
  import opened Wrappers
  import opened Text
  import Lists
  import opened ClassesStore

  // ---------------------------------------------------------------------------
  // Loading a saved class (edit and duplicate modes)
  // ---------------------------------------------------------------------------

  /** The builder entry made from a saved class row: the link's workout id (else the row id),
      the override (else the default duration), the transition (else 30 seconds), and the cues
      (else empty). */
  function LoadedEntry(w: ClassWorkoutRow): (e: BuilderEntry)
    ensures e.workoutId == StrOrOpt(w.workoutId, w.id)
    ensures e.workout.Some? && e.workout.value.id == e.workoutId
    ensures e.workout.value.workoutName == w.workoutName
    ensures TruthyInt(w.durationOverride) ==> e.durationOverride == w.durationOverride
    ensures !TruthyInt(w.durationOverride) ==> e.durationOverride == w.defaultDuration
    ensures TruthyInt(e.transitionTime)
    ensures TruthyInt(w.transitionTime) ==> e.transitionTime == w.transitionTime
    ensures !TruthyInt(w.transitionTime) ==> e.transitionTime == Some(30)
    ensures TruthyStr(w.instructorCues) ==> e.instructorCues == w.instructorCues
    ensures !TruthyStr(w.instructorCues) ==> e.instructorCues == Some("")
  {
    var id := StrOrOpt(w.workoutId, w.id);
    BuilderEntry(
      id,
      Some(WorkoutInfo(id, None, w.workoutName, w.workoutDescription, w.defaultDuration)),
      IntOrOpt(w.durationOverride, w.defaultDuration),
      Some(IntOr(w.transitionTime, 30)),
      Some(StrOr(w.instructorCues, "")),
      None)
  }

  /** `loadClassData`: name, schedule and type from the class, one entry per saved workout in
      order (none when the class has no list); the draft flag is not loaded. */
  function LoadClassData(b: Builder, c: ClassRecord): (r: Builder)
    ensures r.name == c.name && r.scheduledAt == c.scheduledAt && r.classTypeId == c.classTypeId
    ensures r.isDraft == b.isDraft
    ensures c.workouts.None? ==> r.workouts == []
    ensures c.workouts.Some? ==> |r.workouts| == |c.workouts.value|
    ensures c.workouts.Some? ==> forall i :: 0 <= i < |r.workouts| ==> r.workouts[i] == LoadedEntry(c.workouts.value[i])
  {
    var ws := match c.workouts
      case None => []
      case Some(rows) => seq(|rows|, i requires 0 <= i < |rows| => LoadedEntry(rows[i]));
    var b1 := SetField(b, NameField(c.name));
    var b2 := SetField(b1, ScheduledAtField(c.scheduledAt));
    var b3 := SetField(b2, ClassTypeField(c.classTypeId));
    SetField(b3, WorkoutsField(ws))
  }

  // ---------------------------------------------------------------------------
  // The picker
  // ---------------------------------------------------------------------------

  /** The name the picker searches: `workout_name`, else `name`, else empty. */
  function PickerName(w: WorkoutInfo): string {
    StrOr(w.workoutName, StrOr(w.name, ""))
  }

  /** Some entry of the builder is for this workout id. */
  predicate InBuilder(ws: seq<BuilderEntry>, id: Option<string>) {
    exists i :: 0 <= i < |ws| && ws[i].workoutId == id
  }

  /** The picker shows a catalog workout when its name holds the query, ignoring case, and it is
      not yet in the builder. */
  predicate Listed(w: WorkoutInfo, query: string, ws: seq<BuilderEntry>) {
    Contains(ToLower(PickerName(w)), ToLower(query)) && !InBuilder(ws, w.id)
  }

  /** `filteredWorkouts`: the catalog workouts the picker lists, in catalog order. */
  function FilteredWorkouts(all: seq<WorkoutInfo>, query: string, ws: seq<BuilderEntry>): (r: seq<WorkoutInfo>)
    ensures |r| <= |all|
    ensures forall w :: w in r <==> w in all && Listed(w, query, ws)
  {
    Lists.Filter(all, w =>
      Contains(ToLower(PickerName(w)), ToLower(query))
      && !Lists.Some_(ws, w.id, (e: BuilderEntry) => e.workoutId))
  }

  /** With an empty search every catalog workout not yet in the builder is listed, and a listed
      workout's name holds the query at some position. */
  lemma PickerQuery(all: seq<WorkoutInfo>, query: string, ws: seq<BuilderEntry>, w: WorkoutInfo)
    ensures query == "" && w in all && !InBuilder(ws, w.id) ==> w in FilteredWorkouts(all, query, ws)
    ensures w in FilteredWorkouts(all, query, ws) ==>
              exists i :: OccursAt(ToLower(PickerName(w)), ToLower(query), i)
  {
    ContainsIff(ToLower(PickerName(w)), ToLower(query));
    if query == "" {
      assert OccursAt(ToLower(PickerName(w)), ToLower(query), 0);
    }
  }

  /** Adding the listed workouts never lists them again: nothing listed is already in the
      builder. */
  lemma PickerExcludesAdded(all: seq<WorkoutInfo>, query: string, ws: seq<BuilderEntry>, i: nat)
    requires i < |ws|
    ensures forall w :: w in FilteredWorkouts(all, query, ws) ==> w.id != ws[i].workoutId
  {
  }

  /** `handleToggleWorkoutSelection`: drop the workout from the selection if one with its id is
      selected, otherwise append it. */
  function ToggleSelection(sel: seq<WorkoutInfo>, w: WorkoutInfo): (r: seq<WorkoutInfo>)
    ensures Lists.HasKey(sel, w.id, (x: WorkoutInfo) => x.id) ==>
              !Lists.HasKey(r, w.id, (x: WorkoutInfo) => x.id) && |r| < |sel|
    ensures !Lists.HasKey(sel, w.id, (x: WorkoutInfo) => x.id) ==> r == sel + [w]
    ensures Lists.HasKey(sel, w.id, (x: WorkoutInfo) => x.id) ==>
              r == Lists.RemoveKey(sel, w.id, (x: WorkoutInfo) => x.id)
    ensures forall y :: y in r && y.id != w.id <==> y in sel && y.id != w.id
  {
    Lists.Toggle(sel, w, (x: WorkoutInfo) => x.id)
  }

  /** Deselecting a workout keeps the workouts selected before it and after it, in the same
      order. */
  lemma DeselectKeepsOrder(before: seq<WorkoutInfo>, w: WorkoutInfo, after: seq<WorkoutInfo>)
    requires forall i :: 0 <= i < |before| ==> before[i].id != w.id
    requires forall i :: 0 <= i < |after| ==> after[i].id != w.id
    ensures ToggleSelection(before + [w] + after, w) == before + after
  {
    var sel := before + [w] + after;
    assert Lists.HasKey(sel, w.id, (x: WorkoutInfo) => x.id) by { assert sel[|before|] == w; }
    Lists.RemoveKeyAround(before, w, after, (x: WorkoutInfo) => x.id);
  }

  /** Selecting a workout and toggling it again gives back the selection. */
  lemma ToggleSelectionTwice(sel: seq<WorkoutInfo>, w: WorkoutInfo)
    requires !Lists.HasKey(sel, w.id, (x: WorkoutInfo) => x.id)
    ensures ToggleSelection(ToggleSelection(sel, w), w) == sel
  {
    Lists.ToggleTwiceAbsent(sel, w, (x: WorkoutInfo) => x.id);
  }

  /** `getWorkoutSelectionOrder`: the 1-based position of the first selected workout with this
      id, or none. */
  function SelectionOrder(sel: seq<WorkoutInfo>, id: Option<string>): (r: Option<nat>)
    ensures r.Some? ==> 1 <= r.value <= |sel| && sel[r.value - 1].id == id
    ensures r.Some? ==> forall j :: 0 <= j < r.value - 1 ==> sel[j].id != id
    ensures r.None? <==> forall j :: 0 <= j < |sel| ==> sel[j].id != id
  {
    match Lists.FindIndex(sel, id, (x: WorkoutInfo) => x.id)
    case None => None
    case Some(i) => Some(i + 1)
  }

  /** The workout just appended to a selection is numbered last. */
  lemma SelectionOrderOfAppended(sel: seq<WorkoutInfo>, w: WorkoutInfo)
    requires forall j :: 0 <= j < |sel| ==> sel[j].id != w.id
    ensures SelectionOrder(ToggleSelection(sel, w), w.id) == Some(|sel| + 1)
  {
    assert !Lists.HasKey(sel, w.id, (x: WorkoutInfo) => x.id);
    var r := sel + [w];
    assert r[|sel|].id == w.id;
    assert forall j :: 0 <= j < |sel| ==> r[j].id != w.id;
  }

  /** `handleDoneSelectingWorkouts`: add every selected workout, in selection order. */
  function AddSelected(b: Builder, sel: seq<WorkoutInfo>): (r: Builder)
    ensures |r.workouts| == |b.workouts| + |sel|
    ensures r.workouts[..|b.workouts|] == b.workouts
    ensures forall i :: 0 <= i < |sel| ==> r.workouts[|b.workouts| + i] == NewEntry(sel[i])
    ensures r.(workouts := b.workouts) == b
    decreases |sel|
  {
    if |sel| == 0 then b
    else
      var r := AddSelected(AddWorkout(b, sel[0]), sel[1..]);
      assert forall i :: 1 <= i < |sel| ==> sel[1..][i - 1] == sel[i];
      r
  }

  // ---------------------------------------------------------------------------
  // Entry edits
  // ---------------------------------------------------------------------------

  /** The name a split starts from: the workout's `workout_name`, else its `name`, else the
      entry's own `workoutName`, else "Workout". */
  function SplitBaseName(e: BuilderEntry): (n: string)
    ensures n != ""
  {
    var fromInfo := match e.workout
      case None => None
      case Some(w) => StrOrOpt(w.workoutName, w.name);
    StrOr(fromInfo, StrOr(e.workoutName, "Workout"))
  }

  /** A copy of the entry whose workout carries a new `workout_name`. */
  function Renamed(e: BuilderEntry, name: string): (r: BuilderEntry)
    ensures r.workout.Some? && r.workout.value.workoutName == Some(name)
    ensures r.(workout := e.workout) == e
  {
    var base := match e.workout
      case None => WorkoutInfo(None, None, None, None, None)
      case Some(w) => w;
    e.(workout := Some(base.(workoutName := Some(name))))
  }

  /** `handleSplitWorkout(index)`, confirmed: the entry is replaced by a LEFT and a RIGHT copy,
      in that order. */
  function SplitWorkout(b: Builder, index: int): (r: Builder)
    requires 0 <= index < |b.workouts|
    ensures |r.workouts| == |b.workouts| + 1
    ensures r.workouts[..index] == b.workouts[..index]
    ensures r.workouts[index + 2..] == b.workouts[index + 1..]
    ensures var n := SplitBaseName(b.workouts[index]);
      && r.workouts[index] == Renamed(b.workouts[index], n + " - LEFT")
      && r.workouts[index + 1] == Renamed(b.workouts[index], n + " - RIGHT")
    ensures r.(workouts := b.workouts) == b
  {
    var ws := b.workouts;
    var e := ws[index];
    var n := SplitBaseName(e);
    var r := b.(workouts := ws[..index] + [Renamed(e, n + " - LEFT"), Renamed(e, n + " - RIGHT")] + ws[index + 1..]);
    assert r.workouts[index + 2..] == ws[index + 1..];
    r
  }

  /** Both halves of a split keep the entry's workout id, duration, transition and cues. */
  lemma SplitHalvesKeepSettings(b: Builder, index: int)
    requires 0 <= index < |b.workouts|
    ensures var e := b.workouts[index];
      forall h :: h in SplitWorkout(b, index).workouts[index..index + 2] ==>
        h.workoutId == e.workoutId && h.durationOverride == e.durationOverride
        && h.transitionTime == e.transitionTime && h.instructorCues == e.instructorCues
  {
    var r := SplitWorkout(b, index);
    assert r.workouts[index..index + 2] == [r.workouts[index], r.workouts[index + 1]];
  }

  /** `handleMoveWorkoutUp(index)`: at the first entry nothing happens; otherwise the entry
      trades places with the one above it. */
  function MoveUp(b: Builder, index: int): (r: Builder)
    requires 0 <= index < |b.workouts|
    ensures index == 0 ==> r == b
    ensures index > 0 ==> r.workouts == b.workouts[index - 1 := b.workouts[index]][index := b.workouts[index - 1]]
    ensures r.(workouts := b.workouts) == b
  {
    if index > 0 then
      Lists.MoveUpSwaps(b.workouts, index);
      Reorder(b, index, index - 1)
    else b
  }

  /** `handleMoveWorkoutDown(index)`: at the last entry nothing happens; otherwise the entry
      trades places with the one below it. */
  function MoveDown(b: Builder, index: int): (r: Builder)
    requires 0 <= index < |b.workouts|
    ensures index == |b.workouts| - 1 ==> r == b
    ensures index < |b.workouts| - 1 ==> r.workouts == b.workouts[index := b.workouts[index + 1]][index + 1 := b.workouts[index]]
    ensures r.(workouts := b.workouts) == b
  {
    if index < |b.workouts| - 1 then
      Lists.MoveDownSwaps(b.workouts, index);
      Reorder(b, index, index + 1)
    else b
  }

  /** Moving an entry down and then back up gives back the builder. */
  lemma MoveDownThenUp(b: Builder, index: int)
    requires 0 <= index < |b.workouts| - 1
    ensures MoveUp(MoveDown(b, index), index + 1) == b
  {
    var down := MoveDown(b, index);
    SwapTwice(b.workouts, index);
  }

  /** Swapping two neighbours twice gives back the list. */
  lemma SwapTwice<T>(xs: seq<T>, i: int)
    requires 0 <= i < |xs| - 1
    ensures var ys := xs[i := xs[i + 1]][i + 1 := xs[i]];
      ys[i := ys[i + 1]][i + 1 := ys[i]] == xs
  {
  }

  /** `handleUpdateWorkoutDuration(index, text)`: the entry at `index` gets `parseInt(text) || 0`;
      every other entry is kept. */
  function UpdateDuration(b: Builder, index: int, text: string): (r: Builder)
    ensures |r.workouts| == |b.workouts|
    ensures forall i :: 0 <= i < |b.workouts| && i != index ==> r.workouts[i] == b.workouts[i]
    ensures 0 <= index < |b.workouts| ==>
              r.workouts[index] == b.workouts[index].(durationOverride := Some(ParseIntOrZero(text)))
    ensures r.(workouts := b.workouts) == b
  {
    var ws := b.workouts;
    b.(workouts := seq(|ws|, i requires 0 <= i < |ws| =>
      if i == index then ws[i].(durationOverride := Some(ParseIntOrZero(text))) else ws[i]))
  }

  /** A duration typed as a number's own decimal text is stored as that number. */
  lemma UpdateDurationOfNumber(b: Builder, index: int, n: int)
    requires 0 <= index < |b.workouts|
    ensures UpdateDuration(b, index, IntToString(n)).workouts[index].durationOverride == Some(n)
  {
    ParseIntOfIntToString(n);
  }

  /** `handleUpdateWorkoutCues(index, cues)`: only the entry at `index` changes. */
  function UpdateCues(b: Builder, index: int, cues: string): (r: Builder)
    ensures |r.workouts| == |b.workouts|
    ensures forall i :: 0 <= i < |b.workouts| && i != index ==> r.workouts[i] == b.workouts[i]
    ensures 0 <= index < |b.workouts| ==> r.workouts[index] == b.workouts[index].(instructorCues := Some(cues))
    ensures r.(workouts := b.workouts) == b
  {
    var ws := b.workouts;
    b.(workouts := seq(|ws|, i requires 0 <= i < |ws| =>
      if i == index then ws[i].(instructorCues := Some(cues)) else ws[i]))
  }

  // ---------------------------------------------------------------------------
  // Total duration
  // ---------------------------------------------------------------------------

  /** One entry's seconds in the total: `(durationOverride || 0) + (transitionTime || 0)`. */
  function Contribution(e: BuilderEntry): int {
    IntOr(e.durationOverride, 0) + IntOr(e.transitionTime, 0)
  }

  /** `totalDuration`: the seconds of all entries. */
  function TotalDuration(ws: seq<BuilderEntry>): int {
    Lists.SumOf(ws, Contribution)
  }

  /** The header's "N min total": the total rounded up to whole minutes. */
  function TotalMinutes(ws: seq<BuilderEntry>): (m: int)
    ensures 60 * (m - 1) < TotalDuration(ws) <= 60 * m
  {
    CeilMinutes(TotalDuration(ws))
  }

  /** Adding a workout adds its default duration and a 30-second transition to the total. */
  lemma TotalAfterAdd(b: Builder, w: WorkoutInfo)
    ensures TotalDuration(AddWorkout(b, w).workouts) == TotalDuration(b.workouts) + IntOr(w.defaultDuration, 0) + 30
  {
    Lists.SumAppend(b.workouts, [NewEntry(w)], Contribution);
    assert Lists.SumOf([NewEntry(w)], Contribution) == Contribution(NewEntry(w)) by {
      assert [NewEntry(w)][..0] == [];
    }
  }

  /** Removing an entry takes exactly its contribution off the total. */
  lemma TotalAfterRemove(b: Builder, index: int)
    requires 0 <= index < |b.workouts|
    ensures TotalDuration(RemoveWorkout(b, index).workouts) == TotalDuration(b.workouts) - Contribution(b.workouts[index])
  {
    Lists.SumRemoveAt(b.workouts, index, Contribution);
  }

  /** Reordering never changes the total. */
  lemma TotalAfterMove(b: Builder, fromIndex: int, toIndex: int)
    requires 0 <= fromIndex < |b.workouts| && 0 <= toIndex < |b.workouts|
    ensures TotalDuration(Reorder(b, fromIndex, toIndex).workouts) == TotalDuration(b.workouts)
  {
    Lists.SumMove(b.workouts, fromIndex, toIndex, Contribution);
  }

  /** Splitting an entry counts it twice. */
  lemma TotalAfterSplit(b: Builder, index: int)
    requires 0 <= index < |b.workouts|
    ensures TotalDuration(SplitWorkout(b, index).workouts) == TotalDuration(b.workouts) + Contribution(b.workouts[index])
  {
    var ws := b.workouts;
    var e := ws[index];
    var r := SplitWorkout(b, index).workouts;
    var n := SplitBaseName(e);
    var pair := [Renamed(e, n + " - LEFT"), Renamed(e, n + " - RIGHT")];
    assert r == ws[..index] + pair + ws[index + 1..];
    assert ws == ws[..index] + [e] + ws[index + 1..];
    Lists.SumAppend(ws[..index] + pair, ws[index + 1..], Contribution);
    Lists.SumAppend(ws[..index], pair, Contribution);
    Lists.SumAppend(ws[..index] + [e], ws[index + 1..], Contribution);
    Lists.SumAppend(ws[..index], [e], Contribution);
    assert Lists.SumOf([e], Contribution) == Contribution(e) by { assert [e][..0] == []; }
    assert Lists.SumOf(pair, Contribution) == 2 * Contribution(e) by {
      assert pair[..1] == [pair[0]];
      assert [pair[0]][..0] == [];
    }
  }

  /** Setting an entry's duration changes the total by the difference. */
  lemma TotalAfterUpdateDuration(b: Builder, index: int, text: string)
    requires 0 <= index < |b.workouts|
    ensures TotalDuration(UpdateDuration(b, index, text).workouts)
            == TotalDuration(b.workouts) - IntOr(b.workouts[index].durationOverride, 0) + ParseIntOrZero(text)
  {
    var ws := b.workouts;
    var r := UpdateDuration(b, index, text).workouts;
    Lists.SumRemoveAt(ws, index, Contribution);
    Lists.SumRemoveAt(r, index, Contribution);
    assert Lists.RemoveAt(r, index) == Lists.RemoveAt(ws, index);
  }

  // ---------------------------------------------------------------------------
  // Saving
  // ---------------------------------------------------------------------------

  /** A name as the duplicate check compares it: lower-cased, then trimmed. */
  function NormalName(s: string): string {
    Trim(ToLower(s))
  }

  /** Another class than the one being edited has the same name, ignoring case and surrounding
      white space. */
  predicate ClashesWith(c: ClassItem, name: string, editingId: Option<string>) {
    NormalName(c.name) == NormalName(name) && Some(c.id) != editingId
  }

  /** The duplicate-name check over the instructor's classes. */
  function IsDuplicateName(existing: seq<ClassItem>, name: string, editingId: Option<string>): (d: bool)
    ensures d <==> exists i :: 0 <= i < |existing| && ClashesWith(existing[i], name, editingId)
  {
    Lists.Some_(existing, true, (c: ClassItem) => ClashesWith(c, name, editingId))
  }

  /** The check does not see case or leading white space in the name typed. */
  lemma DuplicateIgnoresCaseAndSpace(existing: seq<ClassItem>, name: string, editingId: Option<string>, c: char)
    requires IsSpace(c)
    ensures IsDuplicateName(existing, ToLower(name), editingId) == IsDuplicateName(existing, name, editingId)
    ensures IsDuplicateName(existing, [c] + name, editingId) == IsDuplicateName(existing, name, editingId)
  {
    ToLowerIsLower(name);
    ToLowerOfLower(ToLower(name));
    assert ToLower([c] + name) == [LowerChar(c)] + ToLower(name);
    TrimLeadingSpace(LowerChar(c), ToLower(name));
    assert NormalName([c] + name) == NormalName(name);
    assert NormalName(ToLower(name)) == NormalName(name);
  }

  /** A class being edited never clashes with itself. */
  lemma EditingDoesNotClashWithItself(c: ClassItem, editingId: Option<string>)
    requires editingId == Some(c.id)
    ensures !IsDuplicateName([c], c.name, editingId)
  {
  }

  /** One workout of the save payload. */
  datatype PayloadEntry = PayloadEntry(
    workoutId: Option<string>,
    durationOverride: int,
    transitionTime: int,
    instructorCues: string)

  /** The body sent to create or update the class. */
  datatype ClassPayload = ClassPayload(
    name: string,
    classTypeId: Option<string>,
    scheduledAt: Option<string>,
    isDraft: bool,
    workouts: seq<PayloadEntry>)

  /** `workoutId || workout?.id`, `durationOverride || 0`, `transitionTime || 30`,
      `instructorCues || ''`. */
  function ToPayloadEntry(e: BuilderEntry): (p: PayloadEntry)
    ensures p.transitionTime != 0
    ensures TruthyInt(e.transitionTime) ==> p.transitionTime == e.transitionTime.value
    ensures !TruthyInt(e.transitionTime) ==> p.transitionTime == 30
    ensures TruthyInt(e.durationOverride) ==> p.durationOverride == e.durationOverride.value
    ensures !TruthyInt(e.durationOverride) ==> p.durationOverride == 0
    ensures TruthyStr(e.workoutId) ==> p.workoutId == e.workoutId
    ensures !TruthyStr(e.workoutId) ==> p.workoutId == if e.workout.Some? then e.workout.value.id else None
    ensures TruthyStr(e.instructorCues) ==> p.instructorCues == e.instructorCues.value
    ensures !TruthyStr(e.instructorCues) ==> p.instructorCues == ""
  {
    var infoId := match e.workout
      case None => None
      case Some(w) => w.id;
    PayloadEntry(StrOrOpt(e.workoutId, infoId), IntOr(e.durationOverride, 0),
                 IntOr(e.transitionTime, 30), StrOr(e.instructorCues, ""))
  }

  datatype SaveError = NameRequired | NoWorkouts | DuplicateName

  /** The payload entries of the builder's entries, one each, in order. */
  function PayloadEntries(ws: seq<BuilderEntry>): (r: seq<PayloadEntry>)
    ensures |r| == |ws| && forall i :: 0 <= i < |ws| ==> r[i] == ToPayloadEntry(ws[i])
  {
    seq(|ws|, i requires 0 <= i < |ws| => ToPayloadEntry(ws[i]))
  }

  /** `handleSaveClass(isDraft)` up to the request: a blank name is refused first, then an empty
      list, then a name clashing with another of the instructor's classes. `existing` is the
      fetched list, or none when fetching it failed, in which case the save goes ahead. */
  function SaveClass(b: Builder, isDraft: bool, existing: Option<seq<ClassItem>>, editingId: Option<string>)
    : (r: Result<ClassPayload, SaveError>)
    ensures r.Ok? <==> !IsBlank(b.name) && |b.workouts| > 0
                       && !(existing.Some? && IsDuplicateName(existing.value, b.name, editingId))
    ensures r == Err(NameRequired) <==> IsBlank(b.name)
    ensures r == Err(NoWorkouts) <==> !IsBlank(b.name) && |b.workouts| == 0
    ensures r.Ok? ==> r.value.name == b.name && r.value.isDraft == isDraft
                      && r.value.classTypeId == b.classTypeId && r.value.scheduledAt == b.scheduledAt
    ensures r.Ok? ==> |r.value.workouts| == |b.workouts|
    ensures r.Ok? ==> forall i :: 0 <= i < |b.workouts| ==> r.value.workouts[i] == ToPayloadEntry(b.workouts[i])
  {
    if Trim(b.name) == "" then Err(NameRequired)
    else if |b.workouts| == 0 then Err(NoWorkouts)
    else if existing.Some? && IsDuplicateName(existing.value, b.name, editingId) then Err(DuplicateName)
    else Ok(ClassPayload(b.name, b.classTypeId, b.scheduledAt, isDraft, PayloadEntries(b.workouts)))
  }
}

=== FILE: class_detail.dfy ===
/** The class detail screen: the per-workout figures it shows, when it offers "Start Class",
    and the play list it hands to Play Mode. */
module ClassDetail {
  import opened Wrappers
  import opened Text
  import Lists
  import opened ClassesStore
  import PlayMode

  /** The seconds Play Mode gives a class workout: its override, else the workout's default,
      else one minute. */
  function RowSeconds(w: ClassWorkoutRow): (s: int)
    ensures s != 0
    ensures TruthyInt(w.durationOverride) ==> s == w.durationOverride.value
    ensures !TruthyInt(w.durationOverride) && TruthyInt(w.defaultDuration) ==> s == w.defaultDuration.value
    ensures !TruthyInt(w.durationOverride) && !TruthyInt(w.defaultDuration) ==> s == 60
  {
    IntOr(w.durationOverride, IntOr(w.defaultDuration, 60))
  }

  /** The play-list entry for the class workout at `index`: a missing id becomes
      `workout-<index>`, a missing name "Unnamed Workout", and a missing description or cues
      the empty text. The transition time is not carried over. */
  function PlayStep(w: ClassWorkoutRow, index: nat): (s: PlayMode.Step)
    ensures s.id != "" && s.name != ""
    ensures TruthyStr(w.id) ==> s.id == w.id.value
    ensures !TruthyStr(w.id) ==> s.id == "workout-" + IntToString(index)
    ensures TruthyStr(w.workoutName) ==> s.name == w.workoutName.value
    ensures !TruthyStr(w.workoutName) ==> s.name == "Unnamed Workout"
    ensures s.description == Some(if TruthyStr(w.workoutDescription) then w.workoutDescription.value else "")
    ensures s.coachingCues == Some(if TruthyStr(w.instructorCues) then w.instructorCues.value else "")
    ensures s.durationSeconds == Some(RowSeconds(w))
  {
    PlayMode.Step(
      StrOr(w.id, "workout-" + IntToString(index)),
      StrOr(w.workoutName, "Unnamed Workout"),
      Some(StrOr(w.workoutDescription, "")),
      Some(RowSeconds(w)),
      Some(StrOr(w.instructorCues, "")))
  }

  /** A made-up id names its position: the text after `workout-` reads back as the index, so
      two rows without ids never share one. */
  lemma FallbackIdNamesIndex(w: ClassWorkoutRow, index: nat)
    requires !TruthyStr(w.id)
    ensures var id := PlayStep(w, index).id;
      |id| > 8 && id[..8] == "workout-" && ParseInt(id[8..]) == Some(index)
  {
    var id := PlayStep(w, index).id;
    ParseIntOfIntToString(index);
    assert id[8..] == IntToString(index);
  }

  datatype StartError = NoWorkouts

  /** `handleStartClass`: refused when the class has no workouts, otherwise the play list,
      one entry per class workout in the class's order. */
  function StartClass(c: ClassRecord): (r: Result<seq<PlayMode.Step>, StartError>)
    ensures r.Err? <==> c.workouts.None? || |c.workouts.value| == 0
    ensures r.Ok? ==> |r.value| == |c.workouts.value|
    ensures r.Ok? ==> forall i :: 0 <= i < |r.value| ==>
              r.value[i] == PlayStep(c.workouts.value[i], i)
              && PlayMode.Duration(r.value, i) == RowSeconds(c.workouts.value[i])
  {
    match c.workouts
    case None => Err(NoWorkouts)
    case Some(rows) =>
      if |rows| == 0 then Err(NoWorkouts)
      else Ok(seq(|rows|, i requires 0 <= i < |rows| => PlayStep(rows[i], i)))
  }

  /** The "Start Class" button is shown for a published class with workouts. */
  predicate ShowStartButton(c: ClassRecord): (b: bool)
    ensures b ==> StartClass(c).Ok?
    ensures b <==> !c.isDraft && StartClass(c).Ok?
  {
    !c.isDraft && c.workouts.Some? && |c.workouts.value| > 0
  }

  /** Whenever the button is shown, pressing it starts Play Mode; the handler itself does
      not look at the draft flag, so hiding the button is what keeps drafts from playing. */
  lemma StartButtonStarts(c: ClassRecord)
    ensures ShowStartButton(c) ==> StartClass(c).Ok?
    ensures c.isDraft ==> !ShowStartButton(c)
    ensures c.isDraft && c.workouts.Some? && |c.workouts.value| > 0 ==> StartClass(c).Ok?
  {
  }

  /** The minutes shown on a workout card: the override or the default, rounded up, or 0. */
  function CardMinutes(w: ClassWorkoutRow): (m: int)
    ensures TruthyInt(w.durationOverride) || TruthyInt(w.defaultDuration) ==>
              60 * (m - 1) < RowSeconds(w) <= 60 * m
    ensures !TruthyInt(w.durationOverride) && !TruthyInt(w.defaultDuration) ==> m == 0
  {
    CeilMinutes(IntOr(w.durationOverride, IntOr(w.defaultDuration, 0)))
  }

  /** The card's minutes bound the seconds Play Mode will count down, except for a workout
      with neither an override nor a default, which shows 0 minutes and plays one minute. */
  lemma CardMinutesCoverPlay(w: ClassWorkoutRow)
    ensures TruthyInt(w.durationOverride) || TruthyInt(w.defaultDuration) ==>
              60 * (CardMinutes(w) - 1) < RowSeconds(w) <= 60 * CardMinutes(w)
    ensures !TruthyInt(w.durationOverride) && !TruthyInt(w.defaultDuration) ==>
              CardMinutes(w) == 0 && RowSeconds(w) == 60
  {
  }

  /** The transition badge on a card: a transition time that is present and positive. */
  predicate ShowTransitionBadge(w: ClassWorkoutRow): (b: bool)
    ensures b ==> TruthyInt(w.transitionTime)
    ensures TruthyInt(w.transitionTime) ==> (b <==> w.transitionTime.value > 0)
  {
    w.transitionTime.Some? && w.transitionTime.value > 0
  }

  /** Play Mode's length for the steps from `i` on is the sum of the class rows' seconds. */
  lemma {:induction false} DurationFromRows(steps: seq<PlayMode.Step>, rows: seq<ClassWorkoutRow>, i: nat)
    requires |steps| == |rows| && i <= |rows|
    requires forall j :: 0 <= j < |rows| ==> PlayMode.Duration(steps, j) == RowSeconds(rows[j])
    ensures PlayMode.DurationFrom(steps, i) == Lists.SumOf(rows[i..], RowSeconds)
    decreases |rows| - i
  {
    if i < |rows| {
      DurationFromRows(steps, rows, i + 1);
      Lists.SumAppend([rows[i]], rows[i + 1..], RowSeconds);
      assert [rows[i]] + rows[i + 1..] == rows[i..];
      assert [rows[i]][..0] == [];
    } else {
      assert rows[i..] == [];
    }
  }

  /** A started class, played with the transition hand-over and the completion alert
      corrected, runs to completion, counts exactly the seconds of its workouts and shows that
      total in its alert. */
  lemma StartedClassPlaysThrough(c: ClassRecord)
    requires StartClass(c).Ok?
    requires forall i :: 0 <= i < |c.workouts.value| ==> RowSeconds(c.workouts.value[i]) >= 1
    ensures var steps := StartClass(c).value;
      var r := PlayMode.Run(PlayMode.Corrected, PlayMode.Mount(steps), PlayMode.Ticks(PlayMode.ClassTicks(steps, 0)));
      && r.completed && r.totalElapsed == Lists.SumOf(c.workouts.value, RowSeconds)
      && PlayMode.CompletionAlert(PlayMode.Corrected, r) == Lists.SumOf(c.workouts.value, RowSeconds)
  {
    var steps := StartClass(c).value;
    var rows := c.workouts.value;
    PlayMode.CorrectedClassCompletes(steps);
    DurationFromRows(steps, rows, 0);
    assert rows[0..] == rows;
  }

  /** As written, a started class with two or more workouts stalls at the first hand-over,
      having counted only the first workout. */
  lemma StartedClassStallsAsWritten(c: ClassRecord)
    requires StartClass(c).Ok? && |c.workouts.value| >= 2
    requires RowSeconds(c.workouts.value[0]) >= 1
    ensures var steps := StartClass(c).value;
      var r := PlayMode.Run(PlayMode.AsWritten, PlayMode.Mount(steps),
                            PlayMode.Ticks(RowSeconds(c.workouts.value[0]) + PlayMode.TransitionSeconds));
      PlayMode.Stalled(r) && r.currentIndex == 1 && r.totalElapsed == RowSeconds(c.workouts.value[0])
  {
    PlayMode.FirstTransitionStalls(StartClass(c).value);
  }
}

=== FILE: class_routes.dfy ===
/** The class routes: listing with filters, the detail access rule, creation with its total
    duration and numbered workouts, update and delete behind the existence and owner checks.
    These routes run without a transaction, so a failing workout insert leaves what was
    written before it; the failure goes to the error handler. */
module ClassRoutes {
  import opened Wrappers
  import opened Text
  import Lists
  import opened Database
  import ErrorHandler

  /** One workout of a create or update body. */
  datatype WorkoutInput = WorkoutInput(
    workoutId: Option<string>,
    durationOverride: Option<int>,
    defaultDuration: Option<int>,
    transitionTime: Option<int>,
    instructorCues: Option<string>)

  /** The body of POST; absent fields are `None`. The workout list tells an absent list, which
      the destructuring default makes empty, from a null one, which it leaves null. */
  datatype CreateBody = CreateBody(
    name: Option<string>,
    classTypeId: Option<string>,
    scheduledAt: Option<int>,
    room: Option<string>,
    isDraft: Option<bool>,
    isTemplate: Option<bool>,
    workouts: Field<seq<WorkoutInput>>)

  /** The body of PUT; a `None` field is left as stored. */
  datatype UpdateBody = UpdateBody(
    name: Option<string>,
    classTypeId: Option<string>,
    scheduledAt: Option<int>,
    room: Option<string>,
    isDraft: Option<bool>,
    workouts: Option<seq<WorkoutInput>>)

  // ---------------------------------------------------------------------------
  // Total duration and workout rows
  // ---------------------------------------------------------------------------

  /** What one workout adds to the total, in seconds. */
  function Seconds(w: WorkoutInput): int {
    IntOr(w.durationOverride, IntOr(w.defaultDuration, 0)) + IntOr(w.transitionTime, 0)
  }

  /** `Math.ceil(totalDuration / 60)`: the class length in whole minutes, rounded up. */
  function TotalMinutes(ws: seq<WorkoutInput>): (m: int)
    ensures 60 * (m - 1) < Lists.SumOf(ws, Seconds) <= 60 * m
  {
    CeilMinutes(Lists.SumOf(ws, Seconds))
  }

  /** Appending workouts adds their seconds before rounding, so minutes are never lost. */
  lemma TotalOfAppend(a: seq<WorkoutInput>, b: seq<WorkoutInput>)
    ensures TotalMinutes(a + b) <= TotalMinutes(a) + TotalMinutes(b)
    ensures Lists.SumOf(a + b, Seconds) == Lists.SumOf(a, Seconds) + Lists.SumOf(b, Seconds)
  {
    Lists.SumAppend(a, b, Seconds);
  }

  /** The `class_workouts` row for the `i`-th workout (0-based). */
  function Link(w: WorkoutInput, i: int): LinkRow
    requires w.workoutId.Some?
  {
    LinkRow(w.workoutId.value, i + 1, w.durationOverride, IntOr(w.transitionTime, 0), w.instructorCues)
  }

  /** PostgreSQL's not-null violation, which the error handler does not single out. The
      schema is not part of this model: `class_workouts.workout_id` is taken to be NOT NULL. */
  const NotNullViolation := "23502"
  const NotNullMessage := "null value in column \"workout_id\" violates not-null constraint"
  const ForeignKeyMessage := "insert or update on table \"class_workouts\" violates foreign key constraint"

  /** The workout row can be inserted: it names a workout that exists. */
  predicate Inserts(db: Db, w: WorkoutInput) {
    w.workoutId.Some? && w.workoutId.value in db.workouts
  }

  /** Why the insert of a workout row fails: no workout id (not-null) or an unknown one
      (foreign key). */
  function InsertError(db: Db, w: WorkoutInput): (r: Option<ErrorHandler.Error>)
    ensures r.None? <==> Inserts(db, w)
  {
    if w.workoutId.None? then Some(ErrorHandler.DbError(NotNullViolation, NotNullMessage))
    else if w.workoutId.value !in db.workouts then Some(ErrorHandler.DbError(ErrorHandler.ForeignKeyViolation, ForeignKeyMessage))
    else None
  }

  /** The index of the first workout whose insert fails, if any. */
  function FirstFailure(db: Db, ws: seq<WorkoutInput>): (k: Option<nat>)
    ensures k.Some? ==> k.value < |ws| && !Inserts(db, ws[k.value])
    ensures k.Some? ==> forall j :: 0 <= j < k.value ==> Inserts(db, ws[j])
    ensures k.None? ==> forall j :: 0 <= j < |ws| ==> Inserts(db, ws[j])
    decreases |ws|
  {
    if |ws| == 0 then None
    else if !Inserts(db, ws[0]) then Some(0)
    else match FirstFailure(db, ws[1..])
      case None => None
      case Some(k) => Some(k + 1)
  }

  /** The rows the insert loop writes for `ws` before the first failure, numbered from 1. */
  function Links(db: Db, ws: seq<WorkoutInput>): (r: seq<LinkRow>)
    ensures |r| == match FirstFailure(db, ws) case None => |ws| case Some(k) => k
    ensures forall i :: 0 <= i < |r| ==> ws[i].workoutId.Some? && r[i] == Link(ws[i], i)
  {
    var n := match FirstFailure(db, ws) case None => |ws| case Some(k) => k;
    seq(n, i requires 0 <= i < n => Link(ws[i], i))
  }

  /** The stored numbering is exactly 1, 2, ..., n in the order given, and a missing
      transition time is stored as 0. */
  lemma LinksAreNumbered(db: Db, ws: seq<WorkoutInput>)
    requires FirstFailure(db, ws).None?
    ensures |Links(db, ws)| == |ws|
    ensures forall i :: 0 <= i < |ws| ==> Links(db, ws)[i].sequenceOrder == i + 1
    ensures forall i :: 0 <= i < |ws| ==> Links(db, ws)[i].workoutId == ws[i].workoutId.value
    ensures forall i :: 0 <= i < |ws| && !TruthyInt(ws[i].transitionTime) ==> Links(db, ws)[i].transitionTime == 0
  {
  }

  /** A reply for an error passed to `next`. */
  function ErrorReply<T>(err: ErrorHandler.Error, development: bool): Reply<T> {
    var e := ErrorHandler.Handle(err, development);
    Failure(e.status, StrOr(e.error, ""))
  }

  // ---------------------------------------------------------------------------
  // Routes
  // ---------------------------------------------------------------------------

  /** The TypeError `workouts.forEach` throws on a null list. */
  const NullListMessage := "Cannot read properties of null (reading 'forEach')"
  const NullListError := ErrorHandler.Error(None, Some("TypeError"), Some(NullListMessage), None, None)

  /** POST /api/classes with `freshId` the id the database assigns. A missing name is refused
      first; a null workout list then throws before anything is written, and the error handler
      answers 500. */
  function Create(db: Db, user: User, body: CreateBody, freshId: string, development: bool): (r: (Reply<ClassRow>, Db))
    requires freshId !in db.classes
    ensures !TruthyStr(body.name) ==> r == (Failure(400, "Class name required"), db)
    ensures TruthyStr(body.name) && body.workouts.Null? ==> r == (Failure(500, NullListMessage), db)
    ensures TruthyStr(body.name) && !body.workouts.Null? ==>
              && freshId in r.1.classes && freshId in r.1.links
              && r.1.classes[freshId].totalDuration == TotalMinutes(OrEmpty(body.workouts))
              && r.1.classes[freshId].instructorId == user.id
              && r.1.links[freshId] == Links(db, OrEmpty(body.workouts))
              && r.1.workouts == db.workouts
    ensures r.0.Success? <==> TruthyStr(body.name) && !body.workouts.Null? && FirstFailure(db, OrEmpty(body.workouts)).None?
    ensures r.0.Success? ==> r.0.status == 201 && r.0.value.isDraft == OrTrue(body.isDraft)
  {
    if !TruthyStr(body.name) then (Failure(400, "Class name required"), db)
    else if body.workouts.Null? then (ErrorReply(NullListError, development), db)
    else
      var ws := OrEmpty(body.workouts);
      var row := ClassRow(body.name.value, body.classTypeId, user.id, body.scheduledAt, body.room,
                          TotalMinutes(ws), OrTrue(body.isDraft),
                          match body.isTemplate case None => false case Some(t) => t,
                          None, false, None);
      var db1 := db.(classes := db.classes[freshId := row], links := db.links[freshId := Links(db, ws)]);
      match FirstFailure(db, ws)
      case None => (Success(201, row), db1)
      case Some(k) => (ErrorReply(InsertError(db, ws[k]).value, development), db1)
  }

  /** `workouts = []` as a default; a null list has no workouts to read. */
  function OrEmpty(ws: Field<seq<WorkoutInput>>): (r: seq<WorkoutInput>)
    ensures ws.Given? ==> r == ws.value
    ensures !ws.Given? ==> r == []
  {
    match ws case Given(xs) => xs case _ => []
  }

  /** `isDraft = true` as a default. */
  function OrTrue(b: Option<bool>): bool {
    match b case None => true case Some(x) => x
  }

  /** A workout given with no id or an unknown id fails the request, yet the class row and
      the workouts before it stay written. */
  lemma FailedInsertLeavesClass(db: Db, user: User, body: CreateBody, freshId: string, development: bool)
    requires freshId !in db.classes && TruthyStr(body.name) && !body.workouts.Null?
    requires FirstFailure(db, OrEmpty(body.workouts)).Some?
    ensures var (reply, db1) := Create(db, user, body, freshId, development);
      && reply.Failure? && freshId in db1.classes
      && |db1.links[freshId]| == FirstFailure(db, OrEmpty(body.workouts)).value
  {
  }

  /** Which version of the update route. */
  datatype Variant = AsWritten | Corrected

  /** `COALESCE($n, column)`: each given field replaces the stored one; owner, total and
      featuring are kept. */
  function Patch(c: ClassRow, body: UpdateBody): (r: ClassRow)
    ensures r.name == (if body.name.Some? then body.name.value else c.name)
    ensures r.isDraft == (if body.isDraft.Some? then body.isDraft.value else c.isDraft)
    ensures r.scheduledAt == (if body.scheduledAt.Some? then body.scheduledAt else c.scheduledAt)
    ensures r.classTypeId == (if body.classTypeId.Some? then body.classTypeId else c.classTypeId)
    ensures r.room == (if body.room.Some? then body.room else c.room)
    ensures r.instructorId == c.instructorId && r.totalDuration == c.totalDuration
    ensures r.isTemplate == c.isTemplate && r.featuredStatus == c.featuredStatus && r.isFeatured == c.isFeatured
    ensures r == c.(name := r.name, classTypeId := r.classTypeId, scheduledAt := r.scheduledAt,
                    room := r.room, isDraft := r.isDraft)
  {
    c.(name := if body.name.Some? then body.name.value else c.name,
       classTypeId := if body.classTypeId.Some? then body.classTypeId else c.classTypeId,
       scheduledAt := if body.scheduledAt.Some? then body.scheduledAt else c.scheduledAt,
       room := if body.room.Some? then body.room else c.room,
       isDraft := if body.isDraft.Some? then body.isDraft.value else c.isDraft)
  }

  /** The stored total after the workouts are replaced by `ws`. */
  function NewTotal(v: Variant, c: ClassRow, ws: seq<WorkoutInput>): (t: int)
    ensures v.AsWritten? ==> t == c.totalDuration
    ensures v.Corrected? ==> 60 * (t - 1) < Lists.SumOf(ws, Seconds) <= 60 * t
  {
    if v.Corrected? then TotalMinutes(ws) else c.totalDuration
  }

  /** PUT /api/classes/:id. Missing class first (404), then another instructor's class (403);
      the given fields replace the stored ones, and a given workout list replaces the stored
      rows. As written the total duration is left as it was; corrected, it is recomputed
      from the new list as on creation. */
  function Update(v: Variant, db: Db, user: User, id: string, body: UpdateBody, development: bool): (r: (Reply<ClassRow>, Db))
    ensures id !in db.classes ==> r == (Failure(404, "Class not found"), db)
    ensures id in db.classes && db.classes[id].instructorId != user.id ==> r == (Failure(403, "Access denied"), db)
    ensures id in db.classes && db.classes[id].instructorId == user.id && body.workouts.None? ==>
              r == (Success(200, Patch(db.classes[id], body)), db.(classes := db.classes[id := Patch(db.classes[id], body)]))
    ensures id in db.classes && db.classes[id].instructorId == user.id && body.workouts.Some? ==>
              r.1 == db.(classes := db.classes[id := Patch(db.classes[id], body).(totalDuration := NewTotal(v, db.classes[id], body.workouts.value))],
                         links := db.links[id := Links(db, body.workouts.value)])
    ensures r.0.Success? <==> (id in db.classes && db.classes[id].instructorId == user.id
                               && (body.workouts.None? || FirstFailure(db, body.workouts.value).None?))
  {
    if id !in db.classes then (Failure(404, "Class not found"), db)
    else if db.classes[id].instructorId != user.id then (Failure(403, "Access denied"), db)
    else
      var row := Patch(db.classes[id], body);
      match body.workouts
      case None => (Success(200, row), db.(classes := db.classes[id := row]))
      case Some(ws) =>
        var row' := row.(totalDuration := NewTotal(v, db.classes[id], ws));
        var db1 := db.(classes := db.classes[id := row'], links := db.links[id := Links(db, ws)]);
        match FirstFailure(db, ws)
        case None => (Success(200, row'), db1)
        case Some(k) => (ErrorReply(InsertError(db, ws[k]).value, development), db1)
  }

  /** As written, replacing a class's workouts leaves its total duration as it was: a class
      created empty and then given a ten-minute workout still reports 0 minutes, while
      creating it with that workout reports 10. */
  lemma StaleTotalAfterUpdate(db: Db, user: User, id: string, w: WorkoutInput, development: bool)
    requires w.workoutId.Some? && w.workoutId.value in db.workouts
    requires w.durationOverride == Some(600) && w.transitionTime.None?
    requires id !in db.classes
    ensures var body := CreateBody(Some("Class"), None, None, None, None, None, Undefined);
      var db1 := Create(db, user, body, id, development).1;
      var db2 := Update(AsWritten, db1, user, id, UpdateBody(None, None, None, None, None, Some([w])), development).1;
      && db1.classes[id].totalDuration == 0
      && db2.classes[id].totalDuration == 0
      && TotalMinutes([w]) == 10
  {
    assert Lists.SumOf([w], Seconds) == 600 by {
      assert [w][..0] == [];
    }
    assert Lists.SumOf([], Seconds) == 0;
  }

  /** Corrected, a class's stored total always matches its workout list as creation computes
      it: after an update with workouts, the total is the one a fresh creation with the same
      workouts would store. */
  lemma CorrectedUpdateMatchesCreate(db: Db, user: User, id: string, body: UpdateBody, freshId: string,
                                     create: CreateBody, development: bool)
    requires id in db.classes && db.classes[id].instructorId == user.id && body.workouts.Some?
    requires freshId !in db.classes && TruthyStr(create.name) && create.workouts == Given(body.workouts.value)
    ensures Update(Corrected, db, user, id, body, development).1.classes[id].totalDuration
         == Create(db, user, create, freshId, development).1.classes[freshId].totalDuration
    ensures Update(Corrected, db, user, id, body, development).1.links[id]
         == Create(db, user, create, freshId, development).1.links[freshId]
  {
  }

  /** DELETE /api/classes/:id: 404 before 403; on success the class and its rows are gone. */
  function Delete(db: Db, user: User, id: string): (r: (Reply<string>, Db))
    ensures id !in db.classes ==> r == (Failure(404, "Class not found"), db)
    ensures id in db.classes && db.classes[id].instructorId != user.id ==> r == (Failure(403, "Access denied"), db)
    ensures r.0.Success? <==> id in db.classes && db.classes[id].instructorId == user.id
    ensures r.0.Success? ==> r.1 == db.(classes := db.classes - {id}, links := db.links - {id})
  {
    if id !in db.classes then (Failure(404, "Class not found"), db)
    else if db.classes[id].instructorId != user.id then (Failure(403, "Access denied"), db)
    else (Success(200, "Class deleted successfully"), db.(classes := db.classes - {id}, links := db.links - {id}))
  }

  /** Only the owner changes or removes a class, whatever the role: for anyone else the
      tables are untouched. */
  lemma OnlyOwnerWrites(v: Variant, db: Db, user: User, id: string, body: UpdateBody, development: bool)
    requires id !in db.classes || db.classes[id].instructorId != user.id
    ensures Update(v, db, user, id, body, development).1 == db
    ensures Delete(db, user, id).1 == db
    ensures Update(v, db, user, id, body, development).0.status in {403, 404}
  {
  }

  // ---------------------------------------------------------------------------
  // Reading
  // ---------------------------------------------------------------------------

  /** The detail access rule: instructors see only their own classes; other roles see all. */
  predicate MaySee(user: User, c: ClassRow) {
    !(user.role == Instructor && c.instructorId != user.id)
  }

  /** A class row joined with its workout. */
  datatype DetailRow = DetailRow(link: LinkRow, workout: WorkoutRow)

  /** `JOIN workouts`: the class's rows whose workout exists, in sequence order. */
  function Joined(db: Db, links: seq<LinkRow>): (r: seq<DetailRow>)
    ensures |r| <= |links|
    ensures (forall i :: 0 <= i < |links| ==> links[i].workoutId in db.workouts) ==>
              |r| == |links| && forall i :: 0 <= i < |r| ==> r[i].link == links[i]
    decreases |links|
  {
    if |links| == 0 then []
    else
      var rest := Joined(db, links[1..]);
      if links[0].workoutId in db.workouts then [DetailRow(links[0], db.workouts[links[0].workoutId])] + rest
      else rest
  }

  /** GET /api/classes/:id. */
  function Detail(db: Db, user: User, id: string): (r: Reply<(ClassRow, seq<DetailRow>)>)
    ensures id !in db.classes ==> r == Failure(404, "Class not found")
    ensures id in db.classes && !MaySee(user, db.classes[id]) ==> r == Failure(403, "Access denied")
    ensures r.Success? <==> id in db.classes && MaySee(user, db.classes[id])
    ensures r.Success? ==> r.value.0 == db.classes[id]
    ensures r.Success? && LinksIntact(db) && id in db.links ==>
              |r.value.1| == |db.links[id]| && forall i :: 0 <= i < |r.value.1| ==> r.value.1[i].link == db.links[id][i]
  {
    if id !in db.classes then Failure(404, "Class not found")
    else if !MaySee(user, db.classes[id]) then Failure(403, "Access denied")
    else Success(200, (db.classes[id], Joined(db, if id in db.links then db.links[id] else [])))
  }

  /** An instructor reads exactly their own classes; managers and admins read every class. */
  lemma DetailAccess(db: Db, user: User, id: string)
    requires id in db.classes
    ensures user.role == Instructor ==> (Detail(db, user, id).Success? <==> db.classes[id].instructorId == user.id)
    ensures user.role != Instructor ==> Detail(db, user, id).Success?
  {
  }

  /** The `status` filter: drafts, final classes, or (for any other value) all. */
  predicate StatusMatches(status: string, c: ClassRow) {
    if status == "draft" then c.isDraft
    else if status == "final" then !c.isDraft
    else true
  }

  /** The `scheduled` filter against the current time; an unscheduled class is neither
      upcoming nor past. */
  predicate ScheduleMatches(scheduled: string, c: ClassRow, now: int) {
    if scheduled == "upcoming" then c.scheduledAt.Some? && c.scheduledAt.value > now
    else if scheduled == "past" then c.scheduledAt.Some? && c.scheduledAt.value < now
    else true
  }

  /** GET /api/classes: the signed-in instructor's classes that pass both filters (each
      defaulting to 'all'). The order is left out. */
  function List(db: Db, user: User, status: Option<string>, scheduled: Option<string>, now: int): (r: set<string>)
    ensures forall id :: id in r <==>
              id in db.classes && db.classes[id].instructorId == user.id
              && StatusMatches(StrOr(status, "all"), db.classes[id])
              && ScheduleMatches(StrOr(scheduled, "all"), db.classes[id], now)
  {
    set id | id in db.classes && db.classes[id].instructorId == user.id
             && StatusMatches(StrOr(status, "all"), db.classes[id])
             && ScheduleMatches(StrOr(scheduled, "all"), db.classes[id], now)
  }

  /** Drafts and final classes split the unfiltered list; upcoming and past classes are
      disjoint and leave out the unscheduled ones and any class scheduled exactly now. */
  lemma ListFiltersPartition(db: Db, user: User, now: int)
    ensures List(db, user, Some("draft"), None, now) + List(db, user, Some("final"), None, now) == List(db, user, None, None, now)
    ensures List(db, user, Some("draft"), None, now) !! List(db, user, Some("final"), None, now)
    ensures List(db, user, None, Some("upcoming"), now) !! List(db, user, None, Some("past"), now)
    ensures forall id :: (id in List(db, user, None, None, now) && db.classes[id].scheduledAt.Some?
                          && db.classes[id].scheduledAt.value != now) ==>
              id in List(db, user, None, Some("upcoming"), now) + List(db, user, None, Some("past"), now)
  {
  }
}

=== FILE: classes_store.dfy ===
/** The classes slice of the store: the class list and detail with their request flags, and
    the class builder that the builder screen edits (name, type, schedule, the workout list,
    draft flag). */
module ClassesStore {
  import opened Wrappers
  import Lists
  import StoreFlags

  /** A workout as the builder keeps it: a catalog workout, or the shape rebuilt from a saved
      class row. */
  datatype WorkoutInfo = WorkoutInfo(
    id: Option<string>,
    name: Option<string>,
    workoutName: Option<string>,
    description: Option<string>,
    defaultDuration: Option<int>)

  /** One workout placed in the class being built. */
  datatype BuilderEntry = BuilderEntry(
    workoutId: Option<string>,
    workout: Option<WorkoutInfo>,
    durationOverride: Option<int>,
    transitionTime: Option<int>,
    instructorCues: Option<string>,
    workoutName: Option<string>)

  datatype Builder = Builder(
    name: string,
    classTypeId: Option<string>,
    scheduledAt: Option<string>,
    workouts: seq<BuilderEntry>,
    isDraft: bool)

  /** The builder of the initial state, of `clearBuilder`, and after a class is created. */
  const EmptyBuilder := Builder("", None, None, [], true)

  /** A class workout row as the detail endpoint returns it (the link row joined with the
      workout's name, description and default duration). */
  datatype ClassWorkoutRow = ClassWorkoutRow(
    id: Option<string>,
    workoutId: Option<string>,
    workoutName: Option<string>,
    workoutDescription: Option<string>,
    defaultDuration: Option<int>,
    durationOverride: Option<int>,
    transitionTime: Option<int>,
    instructorCues: Option<string>)

  /** A class as the detail endpoint returns it. */
  datatype ClassRecord = ClassRecord(
    id: string,
    name: string,
    classTypeId: Option<string>,
    scheduledAt: Option<string>,
    isDraft: bool,
    workouts: Option<seq<ClassWorkoutRow>>)

  /** A class as the list endpoint returns it. */
  datatype ClassItem = ClassItem(id: string, name: string)

  datatype State = State(
    items: seq<ClassItem>,
    currentClass: Option<ClassRecord>,
    flags: StoreFlags.Flags,
    builder: Builder)

  const InitialState := State([], None, StoreFlags.Flags(false, None), EmptyBuilder)

  /** `setBuilderField({ field, value })` for each field the screens set. */
  datatype BuilderField =
    | NameField(name: string)
    | ClassTypeField(classTypeId: Option<string>)
    | ScheduledAtField(scheduledAt: Option<string>)
    | WorkoutsField(workouts: seq<BuilderEntry>)
    | IsDraftField(isDraft: bool)

  datatype Action =
    | SetBuilderField(field: BuilderField)
    | AddWorkoutToBuilder(workout: WorkoutInfo)
    | RemoveWorkoutFromBuilder(index: int)
    | ReorderBuilderWorkouts(fromIndex: int, toIndex: int)
    | ClearBuilder
    | FetchClassesPending
    | FetchClassesFulfilled(classes: seq<ClassItem>)
    | FetchClassesRejected(message: string)
    | FetchDetailPending
    | FetchDetailFulfilled(detail: ClassRecord)
    | FetchDetailRejected(message: string)
    | CreateClassFulfilled(created: ClassItem)

  // ---------------------------------------------------------------------------
  // Builder reducers
  // ---------------------------------------------------------------------------

  /** `setBuilderField`: the named field takes the value and every other field is kept. */
  function SetField(b: Builder, f: BuilderField): (r: Builder)
    ensures f.NameField? ==> r.name == f.name && r.(name := b.name) == b
    ensures f.ClassTypeField? ==> r.classTypeId == f.classTypeId && r.(classTypeId := b.classTypeId) == b
    ensures f.ScheduledAtField? ==> r.scheduledAt == f.scheduledAt && r.(scheduledAt := b.scheduledAt) == b
    ensures f.WorkoutsField? ==> r.workouts == f.workouts && r.(workouts := b.workouts) == b
    ensures f.IsDraftField? ==> r.isDraft == f.isDraft && r.(isDraft := b.isDraft) == b
  {
    match f
    case NameField(n) => b.(name := n)
    case ClassTypeField(t) => b.(classTypeId := t)
    case ScheduledAtField(at) => b.(scheduledAt := at)
    case WorkoutsField(ws) => b.(workouts := ws)
    case IsDraftField(d) => b.(isDraft := d)
  }

  /** Setting the same field twice keeps only the second value, and setting it back to what it
      was restores the builder. */
  lemma SetFieldTwice(b: Builder, f: BuilderField, g: BuilderField)
    requires SameField(f, g)
    ensures SetField(SetField(b, f), g) == SetField(b, g)
  {
  }

  /** Both set the same builder field. */
  predicate SameField(f: BuilderField, g: BuilderField) {
    && f.NameField? == g.NameField?
    && f.ClassTypeField? == g.ClassTypeField?
    && f.ScheduledAtField? == g.ScheduledAtField?
    && f.WorkoutsField? == g.WorkoutsField?
    && f.IsDraftField? == g.IsDraftField?
  }

  /** The entry `addWorkoutToBuilder` makes for a workout. */
  function NewEntry(w: WorkoutInfo): BuilderEntry {
    BuilderEntry(w.id, Some(w), w.defaultDuration, Some(30), Some(""), None)
  }

  /** `addWorkoutToBuilder`: exactly one entry appended, for the workout's id, with its default
      duration, a 30-second transition and empty cues. */
  function AddWorkout(b: Builder, w: WorkoutInfo): (r: Builder)
    ensures |r.workouts| == |b.workouts| + 1 && r.workouts[..|b.workouts|] == b.workouts
    ensures var e := r.workouts[|b.workouts|];
      e.workoutId == w.id && e.workout == Some(w) && e.durationOverride == w.defaultDuration
      && e.transitionTime == Some(30) && e.instructorCues == Some("")
    ensures r.(workouts := b.workouts) == b
  {
    b.(workouts := b.workouts + [NewEntry(w)])
  }

  /** `removeWorkoutFromBuilder(index)`: `splice(index, 1)`. */
  function RemoveWorkout(b: Builder, index: int): (r: Builder)
    ensures 0 <= index < |b.workouts| ==> |r.workouts| == |b.workouts| - 1
    ensures 0 <= index < |b.workouts| ==> r.workouts == b.workouts[..index] + b.workouts[index + 1..]
    ensures index >= |b.workouts| ==> r == b
    ensures r.(workouts := b.workouts) == b
  {
    b.(workouts := Lists.RemoveAt(b.workouts, index))
  }

  /** `reorderBuilderWorkouts({ fromIndex, toIndex })`: take the entry out at `fromIndex` and put
      it back in at `toIndex`. The list must hold an entry at `fromIndex` (negative indices count
      from the end). */
  function Reorder(b: Builder, fromIndex: int, toIndex: int): (r: Builder)
    requires Lists.SpliceStart(|b.workouts|, fromIndex) < |b.workouts|
    ensures |r.workouts| == |b.workouts|
    ensures multiset(r.workouts) == multiset(b.workouts)
    ensures 0 <= fromIndex && 0 <= toIndex < |b.workouts| ==>
              r.workouts[toIndex] == b.workouts[fromIndex]
              && Lists.RemoveAt(r.workouts, toIndex) == Lists.RemoveAt(b.workouts, fromIndex)
    ensures r.(workouts := b.workouts) == b
  {
    var ws := b.workouts;
    var k := Lists.SpliceStart(|ws|, fromIndex);
    var moved := ws[k];
    var rest := Lists.RemoveAt(ws, k);
    assert multiset(rest) + multiset{moved} == multiset(ws);
    var r := b.(workouts := Lists.InsertAt(rest, toIndex, moved));
    if 0 <= fromIndex && 0 <= toIndex < |ws| then
      Lists.RemoveInsert(rest, toIndex, moved);
      r
    else r
  }

  /** `clearBuilder`. */
  function Clear(b: Builder): (r: Builder)
    ensures r.workouts == [] && r.name == "" && r.isDraft
    ensures r.classTypeId.None? && r.scheduledAt.None?
  {
    EmptyBuilder
  }

  // ---------------------------------------------------------------------------
  // The slice reducer
  // ---------------------------------------------------------------------------

  /** The action is one the reducer can apply: a reorder needs an entry at its `fromIndex`. */
  predicate Applicable(s: State, a: Action) {
    a.ReorderBuilderWorkouts? ==> Lists.SpliceStart(|s.builder.workouts|, a.fromIndex) < |s.builder.workouts|
  }

  function Reduce(s: State, a: Action): (r: State)
    requires Applicable(s, a)
    ensures a.SetBuilderField? || a.AddWorkoutToBuilder? || a.RemoveWorkoutFromBuilder?
            || a.ReorderBuilderWorkouts? || a.ClearBuilder?
            ==> r.(builder := s.builder) == s
    ensures a.FetchClassesPending? || a.FetchClassesFulfilled? || a.FetchClassesRejected?
            ==> r.builder == s.builder && r.currentClass == s.currentClass
    ensures a.FetchClassesPending? ==> r.flags.loading && r.flags.error.None? && r.items == s.items
    ensures a.FetchClassesFulfilled? ==> r.items == a.classes && !r.flags.loading && r.flags.error == s.flags.error
    ensures a.FetchClassesRejected? ==> r.items == s.items && !r.flags.loading && r.flags.error == Some(a.message)
    ensures a.FetchDetailPending? ==> r == s.(flags := r.flags) && r.flags.loading && r.flags.error == s.flags.error
    ensures a.FetchDetailFulfilled? ==>
              r == s.(currentClass := Some(a.detail), flags := StoreFlags.Flags(false, s.flags.error))
    ensures a.FetchDetailRejected? ==> r == s.(flags := StoreFlags.Flags(false, Some(a.message)))
    ensures a.CreateClassFulfilled? ==> r == s.(items := [a.created] + s.items, builder := EmptyBuilder)
  {
    match a
    case SetBuilderField(f) => s.(builder := SetField(s.builder, f))
    case AddWorkoutToBuilder(w) => s.(builder := AddWorkout(s.builder, w))
    case RemoveWorkoutFromBuilder(i) => s.(builder := RemoveWorkout(s.builder, i))
    case ReorderBuilderWorkouts(from, to) => s.(builder := Reorder(s.builder, from, to))
    case ClearBuilder => s.(builder := Clear(s.builder))
    case FetchClassesPending => s.(flags := StoreFlags.Pending(s.flags))
    case FetchClassesFulfilled(cs) => s.(items := cs, flags := StoreFlags.Fulfilled(s.flags))
    case FetchClassesRejected(m) => s.(flags := StoreFlags.Rejected(s.flags, m))
    case FetchDetailPending => s.(flags := StoreFlags.DetailPending(s.flags))
    case FetchDetailFulfilled(c) => s.(currentClass := Some(c), flags := StoreFlags.Fulfilled(s.flags))
    case FetchDetailRejected(m) => s.(flags := StoreFlags.Rejected(s.flags, m))
    case CreateClassFulfilled(c) => s.(items := [c] + s.items, builder := EmptyBuilder)
  }

  /** Whatever was built, clearing gives back the builder of the initial state, and clearing
      twice is clearing once. */
  lemma ClearRestoresInitial(s: State)
    ensures Reduce(s, ClearBuilder).builder == InitialState.builder
    ensures Reduce(Reduce(s, ClearBuilder), ClearBuilder) == Reduce(s, ClearBuilder)
  {
  }

  /** Adding a workout and then removing the last entry gives back the builder. */
  lemma AddThenRemoveLast(s: State, w: WorkoutInfo)
    ensures Reduce(Reduce(s, AddWorkoutToBuilder(w)), RemoveWorkoutFromBuilder(|s.builder.workouts|)) == s
  {
    var ws := s.builder.workouts;
    assert (ws + [NewEntry(w)])[..|ws|] == ws;
  }

  /** A detail request that fails after a list request failed shows the list's error until the
      detail's own error replaces it: the detail's pending case does not clear it. */
  lemma DetailPendingKeepsError(s: State, m: string)
    requires s.flags.error == Some(m)
    ensures Reduce(s, FetchDetailPending).flags.error == Some(m)
  {
  }

  /** `fetchClasses(filters)` query: `status`, then `scheduled`, each only when truthy. */
  function ClassQuery(status: Option<string>, scheduled: Option<string>): (r: seq<(string, string)>)
    ensures ("status", "") !in r && ("scheduled", "") !in r
    ensures forall v :: ("status", v) in r <==> status == Some(v) && v != ""
    ensures forall v :: ("scheduled", v) in r <==> scheduled == Some(v) && v != ""
    ensures |r| <= 2
  {
    StoreFlags.QueryParams([("status", status), ("scheduled", scheduled)])
  }
}

=== FILE: database.dfy ===
/** The backend's tables as maps from id to row, the signed-in user a route sees, and the reply
    a route sends. Ids are generated by the database; a route that inserts a row is given the
    new id. */
module Database {
  import opened Wrappers

  datatype Role = Instructor | Manager | Admin

  /** `req.user` as the routes read it. */
  datatype User = User(id: string, role: Role)

  /** What a route sends: a status with a row or summary, or a status with an error message. */
  datatype Reply<+T> = Success(status: int, value: T) | Failure(status: int, error: string)

  datatype WorkoutRow = WorkoutRow(
    name: string,
    description: Option<string>,
    defaultDuration: int,
    difficulty: string,
    equipment: seq<string>,
    createdBy: string,
    approvalStatus: string,
    isSubmissionDraft: bool,
    approvedBy: Option<string>,
    approvalNotes: Option<string>,
    tags: seq<string>,
    injuryRiskIds: seq<string>)

  /** A class; `scheduledAt` is a point in time, in seconds. */
  datatype ClassRow = ClassRow(
    name: string,
    classTypeId: Option<string>,
    instructorId: string,
    scheduledAt: Option<int>,
    room: Option<string>,
    totalDuration: int,
    isDraft: bool,
    isTemplate: bool,
    featuredStatus: Option<string>,
    isFeatured: bool,
    featuredReviewedBy: Option<string>)

  /** A `class_workouts` row; a class's rows are kept in `sequence_order`. */
  datatype LinkRow = LinkRow(
    workoutId: string,
    sequenceOrder: int,
    durationOverride: Option<int>,
    transitionTime: int,
    instructorCues: Option<string>)

  datatype SubmissionRow = SubmissionRow(
    workoutId: string,
    submittedBy: string,
    status: string,
    submissionNotes: Option<string>,
    reviewedBy: Option<string>,
    reviewNotes: Option<string>)

  datatype Db = Db(
    workouts: map<string, WorkoutRow>,
    injuryRisks: set<string>,
    classes: map<string, ClassRow>,
    links: map<string, seq<LinkRow>>,
    submissions: map<string, SubmissionRow>)

  /** Some class lists the workout. */
  predicate UsedInClass(db: Db, workoutId: string) {
    exists cid, i :: cid in db.links && 0 <= i < |db.links[cid]| && db.links[cid][i].workoutId == workoutId
  }

  /** Every class workout refers to a stored workout (the foreign key). */
  predicate LinksIntact(db: Db) {
    forall cid, i :: cid in db.links && 0 <= i < |db.links[cid]| ==> db.links[cid][i].workoutId in db.workouts
  }
}

=== FILE: error_handler.dfy ===
/** The Express error handler: how an error passed to `next` becomes a status and a body. */
module ErrorHandler {
  import opened Wrappers

  /** The fields of a thrown error the handler reads; the database driver sets `code`. */
  datatype Error = Error(
    code: Option<string>,
    name: Option<string>,
    message: Option<string>,
    statusCode: Option<int>,
    stack: Option<string>)

  /** The reply: status, the body's `error` (absent when the message is), and `stack`. */
  datatype ErrorReply = ErrorReply(status: int, error: Option<string>, stack: Option<string>)

  const UniqueViolation := "23505"
  const ForeignKeyViolation := "23503"

  /** A database error as the driver throws it: a code and the server's message. */
  function DbError(code: string, message: string): Error {
    Error(Some(code), Some("error"), Some(message), None, None)
  }

  /** `errorHandler(err)`, with `development` standing for `NODE_ENV === 'development'`. */
  function Handle(err: Error, development: bool): (r: ErrorReply)
    ensures err.code == Some(UniqueViolation) ==> r == ErrorReply(409, Some("Resource already exists"), None)
    ensures err.code == Some(ForeignKeyViolation) ==> r == ErrorReply(400, Some("Referenced resource not found"), None)
    ensures (err.code != Some(UniqueViolation) && err.code != Some(ForeignKeyViolation)
             && err.name == Some("ValidationError")) ==> r == ErrorReply(400, err.message, None)
    ensures !IsSpecial(err) ==> r.status == IntOr(err.statusCode, 500)
    ensures !IsSpecial(err) ==> r.error == Some(StrOr(err.message, "Internal server error"))
    ensures r.stack.Some? <==> !IsSpecial(err) && development && err.stack.Some?
  {
    if err.code == Some(UniqueViolation) then ErrorReply(409, Some("Resource already exists"), None)
    else if err.code == Some(ForeignKeyViolation) then ErrorReply(400, Some("Referenced resource not found"), None)
    else if err.name == Some("ValidationError") then ErrorReply(400, err.message, None)
    else ErrorReply(IntOr(err.statusCode, 500), Some(StrOr(err.message, "Internal server error")),
                    if development then err.stack else None)
  }

  /** Handled by one of the three special cases. */
  predicate IsSpecial(err: Error) {
    err.code == Some(UniqueViolation) || err.code == Some(ForeignKeyViolation) || err.name == Some("ValidationError")
  }

  /** The database codes win over the error's name, status and message, and the special
      cases never show a stack; outside development no stack is ever shown. */
  lemma DatabaseCodesTakePrecedence(err: Error, name: Option<string>, statusCode: Option<int>, development: bool)
    requires err.code == Some(UniqueViolation) || err.code == Some(ForeignKeyViolation)
    ensures Handle(err.(name := name, statusCode := statusCode), development) == Handle(err, false)
    ensures Handle(err, development).status in {400, 409}
    ensures Handle(err, false).stack.None?
  {
  }

  /** An error without a status, code or validation name is a 500 with a message. */
  lemma UnclassifiedIsServerError(err: Error, development: bool)
    requires !IsSpecial(err) && !TruthyInt(err.statusCode)
    ensures Handle(err, development).status == 500 && Handle(err, development).error.Some?
    ensures Handle(err, development).error.value != ""
  {
  }
}

=== FILE: featured_routes.dfy ===
/** Featured classes: an instructor puts one of their final classes up for featuring, and an
    admin lists the pending ones and approves or rejects each. */
module FeaturedRoutes {
  import opened Wrappers
  import opened Database

  /** POST /api/featured/classes/:id/submit: missing class (404), then another instructor's
      class (403), then a draft (400), in that order; otherwise the class becomes pending. The
      check is on ownership alone, whatever the role. */
  function Submit(db: Db, user: User, id: string): (r: (Reply<string>, Db))
    ensures id !in db.classes ==> r == (Failure(404, "Class not found"), db)
    ensures id in db.classes && db.classes[id].instructorId != user.id ==> r == (Failure(403, "Access denied"), db)
    ensures id in db.classes && db.classes[id].instructorId == user.id && db.classes[id].isDraft ==>
              r == (Failure(400, "Cannot submit draft classes"), db)
    ensures r.0.Success? <==> (id in db.classes && db.classes[id].instructorId == user.id && !db.classes[id].isDraft)
    ensures r.0.Success? ==> r.1 == db.(classes := db.classes[id := db.classes[id].(featuredStatus := Some("pending"))])
  {
    if id !in db.classes then (Failure(404, "Class not found"), db)
    else if db.classes[id].instructorId != user.id then (Failure(403, "Access denied"), db)
    else if db.classes[id].isDraft then (Failure(400, "Cannot submit draft classes"), db)
    else (Success(200, "Class submitted for featured review"),
          db.(classes := db.classes[id := db.classes[id].(featuredStatus := Some("pending"))]))
  }

  /** GET /api/featured/pending: admins only; the classes awaiting review. The order and the
      joined fields are left out. */
  function PendingList(db: Db, user: User): (r: Reply<set<string>>)
    ensures user.role != Admin ==> r == Failure(403, "Admin access required")
    ensures user.role == Admin ==> r.Success? && forall id :: id in r.value <==>
              id in db.classes && db.classes[id].featuredStatus == Some("pending")
  {
    if user.role != Admin then Failure(403, "Admin access required")
    else Success(200, set id | id in db.classes && db.classes[id].featuredStatus == Some("pending"))
  }

  /** PATCH /api/featured/classes/:id/review: admins only. The class becomes approved and
      featured exactly when `approved` is true, rejected and not featured otherwise. There is
      no check that the class exists or is pending: an unknown id changes nothing and still
      gets the confirmation, and an already reviewed class is reviewed again. */
  function Review(db: Db, user: User, id: string, approved: bool): (r: (Reply<string>, Db))
    ensures user.role != Admin ==> r == (Failure(403, "Admin access required"), db)
    ensures user.role == Admin ==> r.0 == Success(200, if approved then "Class approved" else "Class rejected")
    ensures user.role == Admin && id !in db.classes ==> r.1 == db
    ensures user.role == Admin && id in db.classes ==>
              && r.1.classes.Keys == db.classes.Keys
              && r.1.classes[id].isFeatured == approved
              && r.1.classes[id].featuredStatus == Some(if approved then "approved" else "rejected")
              && r.1.classes[id].featuredReviewedBy == Some(user.id)
              && (forall c :: c in db.classes && c != id ==> r.1.classes[c] == db.classes[c])
  {
    if user.role != Admin then (Failure(403, "Admin access required"), db)
    else
      var message := if approved then "Class approved" else "Class rejected";
      if id !in db.classes then (Success(200, message), db)
      else
        var c := db.classes[id];
        (Success(200, message),
         db.(classes := db.classes[id := c.(featuredStatus := Some(if approved then "approved" else "rejected"),
                                            isFeatured := approved, featuredReviewedBy := Some(user.id))]))
  }

  /** Every featured class has the status "approved". */
  predicate FeaturedMeansApproved(db: Db) {
    forall id :: id in db.classes && db.classes[id].isFeatured ==> db.classes[id].featuredStatus == Some("approved")
  }

  /** A review never leaves a featured class in any state but approved. */
  lemma ReviewKeepsFeaturedApproved(db: Db, user: User, id: string, approved: bool)
    requires FeaturedMeansApproved(db)
    ensures FeaturedMeansApproved(Review(db, user, id, approved).1)
  {
  }

  /** A featured class can be put up again: its status goes back to pending while it stays
      featured, so "featured" and "approved" part ways until the next review. */
  lemma ResubmitKeepsFeatured(db: Db, user: User, id: string)
    requires id in db.classes && db.classes[id].instructorId == user.id && !db.classes[id].isDraft
    requires db.classes[id].isFeatured
    ensures var db1 := Submit(db, user, id).1;
      db1.classes[id].isFeatured && db1.classes[id].featuredStatus == Some("pending")
      && !FeaturedMeansApproved(db1)
  {
  }

  /** The round trip: an owner submits a final class, it shows in the admin's pending list, and
      once approved it is featured and no longer pending. */
  lemma SubmitReviewRoundTrip(db: Db, owner: User, admin: User, id: string)
    requires id in db.classes && db.classes[id].instructorId == owner.id && !db.classes[id].isDraft
    requires admin.role == Admin
    ensures var db1 := Submit(db, owner, id).1;
      var db2 := Review(db1, admin, id, true).1;
      && id in PendingList(db1, admin).value
      && id !in PendingList(db2, admin).value
      && db2.classes[id].isFeatured
  {
  }
}

=== FILE: lists.dfy ===
/** The list edits the application performs with `Array.prototype` methods:
    `splice` removal and insertion, the remove-then-insert move, `filter`, `some`,
    `findIndex`, and the add-or-remove toggle used for multi-selection. */
module Lists {
  import opened Wrappers

  // ---------------------------------------------------------------------------
  // splice
  // ---------------------------------------------------------------------------

  /** Where `splice(start, ...)` begins on a list of length `len`: a negative start counts
      from the end, and the result is clamped to `[0, len]`. */
  function SpliceStart(len: nat, start: int): (k: nat)
    ensures k <= len
    ensures 0 <= start <= len ==> k == start
    ensures start > len ==> k == len
    ensures start < 0 ==> k == if len + start < 0 then 0 else len + start
  {
    if start < 0 then (if len + start < 0 then 0 else len + start)
    else if start > len then len
    else start
  }

  /** `xs.splice(start, 1)`: drop the element at the splice start, if there is one. */
  function RemoveAt<T>(xs: seq<T>, start: int): (r: seq<T>)
    ensures 0 <= start < |xs| ==> |r| == |xs| - 1
    ensures 0 <= start < |xs| ==> forall i :: 0 <= i < start ==> r[i] == xs[i]
    ensures 0 <= start < |xs| ==> forall i :: start <= i < |r| ==> r[i] == xs[i + 1]
    ensures 0 <= start < |xs| ==> multiset(r) + multiset{xs[start]} == multiset(xs)
    ensures start >= |xs| ==> r == xs
  {
    var k := SpliceStart(|xs|, start);
    if k < |xs| then
      assert xs == xs[..k] + [xs[k]] + xs[k + 1..];
      xs[..k] + xs[k + 1..]
    else xs
  }

  /** `xs.splice(start, 0, x)`: insert `x` at the splice start. */
  function InsertAt<T>(xs: seq<T>, start: int, x: T): (r: seq<T>)
    ensures |r| == |xs| + 1
    ensures 0 <= start <= |xs| ==> r[start] == x
    ensures 0 <= start <= |xs| ==> forall i :: 0 <= i < start ==> r[i] == xs[i]
    ensures 0 <= start <= |xs| ==> forall i :: start < i < |r| ==> r[i] == xs[i - 1]
    ensures multiset(r) == multiset(xs) + multiset{x}
  {
    var k := SpliceStart(|xs|, start);
    assert xs == xs[..k] + xs[k..];
    xs[..k] + [x] + xs[k..]
  }

  /** Inserting at a position and removing at that same position restores the list. */
  lemma RemoveInsert<T>(xs: seq<T>, k: int, x: T)
    requires 0 <= k <= |xs|
    ensures RemoveAt(InsertAt(xs, k, x), k) == xs
  {
  }

  /** `const [moved] = xs.splice(from, 1); xs.splice(to, 0, moved)`, for in-range indices. */
  function Move<T>(xs: seq<T>, from: int, to: int): (r: seq<T>)
    requires 0 <= from < |xs| && 0 <= to < |xs|
    ensures |r| == |xs|
    ensures r[to] == xs[from]
    ensures multiset(r) == multiset(xs)
    ensures RemoveAt(r, to) == RemoveAt(xs, from)
  {
    var ys := RemoveAt(xs, from);
    RemoveInsert(ys, to, xs[from]);
    InsertAt(ys, to, xs[from])
  }

  /** Moving an element one place towards the front swaps it with its neighbour. */
  lemma MoveUpSwaps<T>(xs: seq<T>, i: int)
    requires 0 < i < |xs|
    ensures Move(xs, i, i - 1) == xs[i - 1 := xs[i]][i := xs[i - 1]]
  {
    var r := Move(xs, i, i - 1);
    var s := xs[i - 1 := xs[i]][i := xs[i - 1]];
    forall j | 0 <= j < |xs| ensures r[j] == s[j] {
      if j > i {
        assert r[j] == RemoveAt(r, i - 1)[j - 1] == RemoveAt(xs, i)[j - 1];
      } else if j == i {
        assert r[j] == RemoveAt(r, i - 1)[i - 1] == RemoveAt(xs, i)[i - 1];
      } else if j < i - 1 {
        assert r[j] == RemoveAt(r, i - 1)[j] == RemoveAt(xs, i)[j];
      }
    }
  }

  /** Moving an element one place towards the back swaps it with its neighbour. */
  lemma MoveDownSwaps<T>(xs: seq<T>, i: int)
    requires 0 <= i < |xs| - 1
    ensures Move(xs, i, i + 1) == xs[i := xs[i + 1]][i + 1 := xs[i]]
  {
    var r := Move(xs, i, i + 1);
    var s := xs[i := xs[i + 1]][i + 1 := xs[i]];
    forall j | 0 <= j < |xs| ensures r[j] == s[j] {
      if j > i + 1 {
        assert r[j] == RemoveAt(r, i + 1)[j - 1] == RemoveAt(xs, i)[j - 1];
      } else if j == i {
        assert r[j] == RemoveAt(r, i + 1)[i] == RemoveAt(xs, i)[i];
      } else if j < i {
        assert r[j] == RemoveAt(r, i + 1)[j] == RemoveAt(xs, i)[j];
      }
    }
  }

  // ---------------------------------------------------------------------------
  // filter, some, findIndex
  // ---------------------------------------------------------------------------

  /** `xs.filter(p)`. */
  function Filter<T(!new)>(xs: seq<T>, p: T -> bool): (r: seq<T>)
    ensures |r| <= |xs|
    ensures forall y :: y in r <==> y in xs && p(y)
    ensures forall i :: 0 <= i < |r| ==> p(r[i])
  {
    if |xs| == 0 then []
    else
      var rest := Filter(xs[..|xs| - 1], p);
      assert xs == xs[..|xs| - 1] + [xs[|xs| - 1]];
      if p(xs[|xs| - 1]) then rest + [xs[|xs| - 1]] else rest
  }

  lemma {:induction false} FilterAppend<T(!new)>(xs: seq<T>, ys: seq<T>, p: T -> bool)
    ensures Filter(xs + ys, p) == Filter(xs, p) + Filter(ys, p)
    decreases |ys|
  {
    if |ys| == 0 {
      assert xs + ys == xs;
    } else {
      var zs := xs + ys;
      assert zs[..|zs| - 1] == xs + ys[..|ys| - 1];
      FilterAppend(xs, ys[..|ys| - 1], p);
    }
  }

  /** A filter that keeps every element keeps the list. */
  lemma {:induction false} FilterAll<T(!new)>(xs: seq<T>, p: T -> bool)
    requires forall i :: 0 <= i < |xs| ==> p(xs[i])
    ensures Filter(xs, p) == xs
    decreases |xs|
  {
    if |xs| > 0 {
      FilterAll(xs[..|xs| - 1], p);
      assert xs == xs[..|xs| - 1] + [xs[|xs| - 1]];
    }
  }

  /** `xs.map(f)`. */
  function Map<A, B>(xs: seq<A>, f: A -> B): (r: seq<B>)
    ensures |r| == |xs| && forall i :: 0 <= i < |xs| ==> r[i] == f(xs[i])
  {
    seq(|xs|, i requires 0 <= i < |xs| => f(xs[i]))
  }

  /** Mapping then filtering is filtering then mapping, when the filter on the mapped value
      decides the same as another filter on the original. */
  lemma {:induction false} FilterMapCommute<A(!new), B(!new)>(xs: seq<A>, f: A -> B, p: B -> bool, q: A -> bool)
    requires forall x :: p(f(x)) == q(x)
    ensures Filter(Map(xs, f), p) == Map(Filter(xs, q), f)
    decreases |xs|
  {
    if |xs| > 0 {
      var n := |xs| - 1;
      FilterMapCommute(xs[..n], f, p, q);
      assert Map(xs, f)[..n] == Map(xs[..n], f);
      if q(xs[n]) {
        assert Map(Filter(xs, q), f) == Map(Filter(xs[..n], q), f) + [f(xs[n])];
      }
    }
  }

  /** Some element of `xs` has key `k`. */
  predicate HasKey<T, K(==)>(xs: seq<T>, k: K, key: T -> K) {
    exists i :: 0 <= i < |xs| && key(xs[i]) == k
  }

  /** `xs.some(y => key(y) === k)`, computed element by element. */
  function Some_<T, K(==)>(xs: seq<T>, k: K, key: T -> K): (b: bool)
    ensures b <==> HasKey(xs, k, key)
  {
    if |xs| == 0 then false
    else if key(xs[0]) == k then true
    else
      var b := Some_(xs[1..], k, key);
      assert HasKey(xs[1..], k, key) ==> HasKey(xs, k, key);
      assert HasKey(xs, k, key) && key(xs[0]) != k ==> HasKey(xs[1..], k, key);
      b
  }

  /** `xs.findIndex(y => key(y) === k)`: the first position holding key `k`. */
  function FindIndex<T, K(==)>(xs: seq<T>, k: K, key: T -> K): (r: Option<nat>)
    ensures r.Some? ==> r.value < |xs| && key(xs[r.value]) == k
    ensures r.Some? ==> forall j :: 0 <= j < r.value ==> key(xs[j]) != k
    ensures r.None? <==> !HasKey(xs, k, key)
  {
    if |xs| == 0 then None
    else if key(xs[0]) == k then Some(0)
    else
      match FindIndex(xs[1..], k, key)
      case None => None
      case Some(i) => Some(i + 1)
  }

  /** `xs.filter(y => key(y) !== k)`. */
  function RemoveKey<T(!new), K(==)>(xs: seq<T>, k: K, key: T -> K): seq<T> {
    Filter(xs, y => key(y) != k)
  }

  /** The multi-select toggle: drop every element sharing `x`'s key if there is one,
      otherwise append `x`. */
  function Toggle<T(!new), K(==)>(xs: seq<T>, x: T, key: T -> K): (r: seq<T>)
    ensures HasKey(xs, key(x), key) ==> !HasKey(r, key(x), key) && |r| < |xs|
    ensures !HasKey(xs, key(x), key) ==> r == xs + [x]
    ensures forall y :: y in r && key(y) != key(x) <==> y in xs && key(y) != key(x)
  {
    if Some_(xs, key(x), key) then
      var r := RemoveKey(xs, key(x), key);
      assert !HasKey(r, key(x), key) by {
        forall i | 0 <= i < |r| ensures key(r[i]) != key(x) {
          assert r[i] in r;
        }
      }
      RemoveKeyShorter(xs, key(x), key);
      r
    else xs + [x]
  }

  lemma {:induction false} RemoveKeyShorter<T(!new), K>(xs: seq<T>, k: K, key: T -> K)
    requires HasKey(xs, k, key)
    ensures |RemoveKey(xs, k, key)| < |xs|
    decreases |xs|
  {
    var p := (y: T) => key(y) != k;
    var n := |xs| - 1;
    assert xs == xs[..n] + [xs[n]];
    if key(xs[n]) != k {
      assert HasKey(xs[..n], k, key) by {
        var i :| 0 <= i < |xs| && key(xs[i]) == k;
        assert xs[..n][i] == xs[i];
      }
      RemoveKeyShorter(xs[..n], k, key);
    }
  }

  /** Toggling an element whose key is absent, and then toggling it again, restores the list. */
  lemma ToggleTwiceAbsent<T(!new), K>(xs: seq<T>, x: T, key: T -> K)
    requires !HasKey(xs, key(x), key)
    ensures Toggle(Toggle(xs, x, key), x, key) == xs
  {
    var p := (y: T) => key(y) != key(x);
    assert HasKey(xs + [x], key(x), key) by { assert (xs + [x])[|xs|] == x; }
    FilterAppend(xs, [x], p);
    FilterAll(xs, p);
    assert Filter([x], p) == [] by { assert [x][..0] == []; }
  }

  /** Removing the one element with key `key(x)` leaves the elements around it in order. */
  lemma RemoveKeyAround<T(!new), K>(xs: seq<T>, x: T, ys: seq<T>, key: T -> K)
    requires forall i :: 0 <= i < |xs| ==> key(xs[i]) != key(x)
    requires forall i :: 0 <= i < |ys| ==> key(ys[i]) != key(x)
    ensures RemoveKey(xs + [x] + ys, key(x), key) == xs + ys
  {
    var p := (y: T) => key(y) != key(x);
    FilterAppend(xs + [x], ys, p);
    FilterAppend(xs, [x], p);
    FilterAll(xs, p);
    FilterAll(ys, p);
    assert Filter([x], p) == [] by { assert [x][..0] == []; }
  }

  /** Toggling an element whose key is present, and then toggling it again, leaves the other
      elements in order and `x` once, at the end. */
  lemma ToggleTwicePresent<T(!new), K>(xs: seq<T>, x: T, key: T -> K)
    requires HasKey(xs, key(x), key)
    ensures Toggle(Toggle(xs, x, key), x, key) == RemoveKey(xs, key(x), key) + [x]
  {
  }

  // ---------------------------------------------------------------------------
  // Sums
  // ---------------------------------------------------------------------------

  /** The sum of `f` over the elements of `xs` (`reduce((sum, y) => sum + f(y), 0)`). */
  function SumOf<T>(xs: seq<T>, f: T -> int): int {
    if |xs| == 0 then 0 else SumOf(xs[..|xs| - 1], f) + f(xs[|xs| - 1])
  }

  lemma {:induction false} SumAppend<T>(xs: seq<T>, ys: seq<T>, f: T -> int)
    ensures SumOf(xs + ys, f) == SumOf(xs, f) + SumOf(ys, f)
    decreases |ys|
  {
    if |ys| == 0 {
      assert xs + ys == xs;
    } else {
      var zs := xs + ys;
      assert zs[..|zs| - 1] == xs + ys[..|ys| - 1];
      SumAppend(xs, ys[..|ys| - 1], f);
    }
  }

  lemma SumRemoveAt<T>(xs: seq<T>, k: int, f: T -> int)
    requires 0 <= k < |xs|
    ensures SumOf(RemoveAt(xs, k), f) == SumOf(xs, f) - f(xs[k])
  {
    RemoveAtSlices(xs, k);
    SumSplit(xs, k, f);
    SumAppend(xs[..k], xs[k + 1..], f);
  }

  lemma SumInsertAt<T>(xs: seq<T>, k: int, x: T, f: T -> int)
    requires 0 <= k <= |xs|
    ensures SumOf(InsertAt(xs, k, x), f) == SumOf(xs, f) + f(x)
  {
    InsertAtSlices(xs, k, x);
    SumAround(xs[..k], x, xs[k..], f);
    SumCut(xs, k, f);
  }

  lemma RemoveAtSlices<T>(xs: seq<T>, k: int)
    requires 0 <= k < |xs|
    ensures RemoveAt(xs, k) == xs[..k] + xs[k + 1..]
  {
    assert SpliceStart(|xs|, k) == k;
  }

  lemma InsertAtSlices<T>(xs: seq<T>, k: int, x: T)
    requires 0 <= k <= |xs|
    ensures InsertAt(xs, k, x) == xs[..k] + [x] + xs[k..]
  {
    assert SpliceStart(|xs|, k) == k;
  }

  lemma SumAround<T>(a: seq<T>, x: T, b: seq<T>, f: T -> int)
    ensures SumOf(a + [x] + b, f) == SumOf(a, f) + f(x) + SumOf(b, f)
  {
    SumAppend(a + [x], b, f);
    SumAppend(a, [x], f);
    assert SumOf([x], f) == f(x) by { assert [x][..0] == []; }
  }

  /** The sum of a list is the sums of its two sides of `k` and the element at `k`. */
  lemma SumSplit<T>(xs: seq<T>, k: int, f: T -> int)
    requires 0 <= k < |xs|
    ensures SumOf(xs, f) == SumOf(xs[..k], f) + f(xs[k]) + SumOf(xs[k + 1..], f)
  {
    assert xs == xs[..k] + [xs[k]] + xs[k + 1..];
    SumAround(xs[..k], xs[k], xs[k + 1..], f);
  }

  lemma SumCut<T>(xs: seq<T>, k: int, f: T -> int)
    requires 0 <= k <= |xs|
    ensures SumOf(xs, f) == SumOf(xs[..k], f) + SumOf(xs[k..], f)
  {
    assert xs == xs[..k] + xs[k..];
    SumAppend(xs[..k], xs[k..], f);
  }

  lemma SumMove<T>(xs: seq<T>, from: int, to: int, f: T -> int)
    requires 0 <= from < |xs| && 0 <= to < |xs|
    ensures SumOf(Move(xs, from, to), f) == SumOf(xs, f)
  {
    SumRemoveAt(xs, from, f);
    SumInsertAt(RemoveAt(xs, from), to, xs[from], f);
  }
}

=== FILE: play_mode.dfy ===
/** Play Mode: the guided delivery of a class, one workout after another, with a countdown
    per workout, a fixed-length transition between workouts, an "Up Next" preview, and the
    instructor's controls (add time, restart, previous, pause, next).

    The screen's React state is one `Session` record. Every handler is one atomic step on it,
    and a running interval or a pending timeout is part of the state (`timer`, `previews`)
    so that its firing is an explicit event. The effect that watches `currentIndex` runs
    after every step that changed the index.

    Two variants of the machine are modelled. `AsWritten` follows the screen's code. In
    `Corrected`, a finished transition stops its interval, leaves the transition state, and
    lets the index effect start the next workout, and that effect also restarts the first
    workout after skipping back to it. */
module PlayMode {
  import opened Wrappers
  import opened Text
  import Lists

  /** One entry of the play list the screen receives. */
  datatype Step = Step(
    id: string,
    name: string,
    description: Option<string>,
    durationSeconds: Option<int>,
    coachingCues: Option<string>)

  /** The `transitionTime` state: initialised to 10 seconds and never changed. */
  const TransitionSeconds: int := 10

  /** The interval held in `timerRef`: none, the workout countdown, or the transition countdown
      whose closure captured `currentIndex + 1` as the index to move to. */
  datatype Timer = Stopped | WorkoutTimer | TransitionTimer(target: int)

  datatype Session = Session(
    steps: seq<Step>,
    currentIndex: int,
    isPaused: bool,
    timeRemaining: int,
    totalElapsed: int,
    showUpNext: bool,
    isTransition: bool,
    completed: bool,
    timer: Timer,
    /** Delays, in seconds, of the "Up Next" timeouts scheduled and not yet fired. */
    previews: seq<int>,
    /** `totalElapsed` as the render that last called `startTimer` saw it: the workout
        interval's closure, and the completion alert it leads to, read this value. */
    captured: int)

  /** What happens to the session: a second of the running interval, a pending preview
      timeout firing, or a press of one of the controls (confirmation dialogs confirmed). */
  datatype Event =
    | Tick
    | PreviewDue(k: nat)
    | AddTimePressed(seconds: int)
    | RestartPressed
    | PreviousPressed
    | PausePressed
    | NextPressed

  datatype Variant = AsWritten | Corrected

  /** `workouts[i]?.duration_seconds || 60`. */
  function Duration(steps: seq<Step>, i: int): (d: int)
    ensures d != 0
    ensures 0 <= i < |steps| && TruthyInt(steps[i].durationSeconds) ==> d == steps[i].durationSeconds.value
  {
    if 0 <= i < |steps| then IntOr(steps[i].durationSeconds, 60) else 60
  }

  predicate IsLast(s: Session) {
    s.currentIndex == |s.steps| - 1
  }

  /** `nextWorkout` is defined. */
  predicate HasNext(s: Session) {
    0 <= s.currentIndex + 1 < |s.steps|
  }

  /** The session before the mount effect runs. */
  function Initial(steps: seq<Step>): Session {
    Session(steps, 0, false, 0, 0, false, false, false, Stopped, [], 0)
  }

  /** The sessions the machine can reach: a non-empty play list, the index inside it, the
      transition flag exactly when the transition interval runs, that interval aimed at the
      next index or (once expired) the current one, and a completed class only on its last
      workout with nothing running. */
  predicate Valid(s: Session) {
    && |s.steps| > 0
    && 0 <= s.currentIndex < |s.steps|
    && (s.isTransition <==> s.timer.TransitionTimer?)
    && (s.timer.TransitionTimer? ==>
          s.timer.target < |s.steps|
          && (s.timer.target == s.currentIndex + 1 || s.timer.target == s.currentIndex))
    && (s.completed ==> s.timer == Stopped && IsLast(s))
  }

  // ---------------------------------------------------------------------------
  // Handlers
  // ---------------------------------------------------------------------------

  /** `startWorkout`: leave transition and pause, load the current workout's duration, start the
      countdown, and schedule the preview 10 seconds before the end when the workout is longer
      than 15 seconds and another follows. */
  function StartWorkout(s: Session): (r: Session)
    ensures !r.isTransition && !r.isPaused && r.timer == WorkoutTimer
    ensures r.timeRemaining == Duration(s.steps, s.currentIndex)
    ensures r.steps == s.steps && r.currentIndex == s.currentIndex
    ensures r.totalElapsed == s.totalElapsed && r.showUpNext == s.showUpNext
    ensures r.completed == s.completed && r.captured == s.totalElapsed
    ensures |r.previews| >= |s.previews| && r.previews[..|s.previews|] == s.previews
    ensures |r.previews| == |s.previews| + 1 <==> r.timeRemaining > 15 && HasNext(s)
    ensures |r.previews| == |s.previews| + 1 ==> r.previews[|s.previews|] == r.timeRemaining - 10 > 5
    ensures |r.previews| <= |s.previews| + 1
  {
    var d := Duration(s.steps, s.currentIndex);
    s.(isTransition := false, isPaused := false, timeRemaining := d, timer := WorkoutTimer, captured := s.totalElapsed,
       previews := if d > 15 && HasNext(s) then s.previews + [d - 10] else s.previews)
  }

  /** The mount effect: start the first workout when there is one. */
  function Mount(steps: seq<Step>): (r: Session)
    ensures |steps| > 0 ==> Valid(r) && r.timer == WorkoutTimer && r.currentIndex == 0
    ensures |steps| > 0 ==> r.timeRemaining == Duration(steps, 0) && r.totalElapsed == 0
    ensures |steps| == 0 ==> r.timer == Stopped
  {
    if |steps| > 0 then StartWorkout(Initial(steps)) else Initial(steps)
  }

  /** `startTransition`: enter the transition with the fixed length and start its interval. */
  function StartTransition(s: Session): Session {
    s.(isTransition := true, timeRemaining := TransitionSeconds,
       timer := TransitionTimer(s.currentIndex + 1))
  }

  /** `handleWorkoutComplete`: stop the countdown and hide the preview, then finish the class on
      the last workout or start the transition otherwise. */
  function CompleteWorkout(s: Session): Session {
    var t := s.(timer := Stopped, showUpNext := false);
    if IsLast(s) then t.(completed := true) else StartTransition(t)
  }

  /** One second of the workout countdown: count down, or at one second or less complete the
      workout; the elapsed total grows on every such second. */
  function WorkoutTick(s: Session): (r: Session)
    ensures r.totalElapsed == s.totalElapsed + 1
    ensures r.currentIndex == s.currentIndex && r.steps == s.steps
    ensures s.timeRemaining > 1 ==> r == s.(timeRemaining := s.timeRemaining - 1, totalElapsed := r.totalElapsed)
    ensures s.timeRemaining <= 1 && IsLast(s) ==>
              r.completed && r.timer == Stopped && r.timeRemaining == 0 && !r.showUpNext
    ensures s.timeRemaining <= 1 && !IsLast(s) ==>
              r.isTransition && r.timeRemaining == TransitionSeconds && !r.showUpNext
              && r.timer == TransitionTimer(s.currentIndex + 1)
    ensures r.timeRemaining >= 0
  {
    var t := s.(totalElapsed := s.totalElapsed + 1);
    if s.timeRemaining <= 1 then CompleteWorkout(t.(timeRemaining := 0))
    else t.(timeRemaining := s.timeRemaining - 1)
  }

  /** One second of the transition countdown. At one second or less the captured index becomes
      current; as written the transition flag and the interval stay, and the corrected variant
      clears both. */
  function TransitionTick(v: Variant, s: Session, target: int): (r: Session)
    ensures r.totalElapsed == s.totalElapsed && r.steps == s.steps && r.completed == s.completed
    ensures s.timeRemaining > 1 ==> r == s.(timeRemaining := s.timeRemaining - 1)
    ensures s.timeRemaining <= 1 ==> r.currentIndex == target && r.timeRemaining == 0
    ensures s.timeRemaining <= 1 && v == AsWritten ==> r.isTransition == s.isTransition && r.timer == s.timer
    ensures s.timeRemaining <= 1 && v == Corrected ==> !r.isTransition && r.timer == Stopped
  {
    if s.timeRemaining <= 1 then
      if v == AsWritten then s.(currentIndex := target, timeRemaining := 0)
      else s.(currentIndex := target, timeRemaining := 0, isTransition := false, timer := Stopped)
    else s.(timeRemaining := s.timeRemaining - 1)
  }

  /** The effect on `currentIndex`: as written it starts the workout only past the first index
      and outside a transition; corrected, only the transition blocks it. */
  function IndexEffect(v: Variant, s: Session): (r: Session)
    ensures v == AsWritten ==> (r == StartWorkout(s) <== s.currentIndex > 0 && !s.isTransition)
    ensures v == AsWritten && !(s.currentIndex > 0 && !s.isTransition) ==> r == s
    ensures v == Corrected ==> r == if s.isTransition then s else StartWorkout(s)
  {
    if (v == AsWritten ==> s.currentIndex > 0) && !s.isTransition then StartWorkout(s) else s
  }

  /** `skipToNext`, confirmed: stop, hide the preview, advance. */
  function SkipNext(s: Session): (r: Session)
    ensures IsLast(s) ==> r == s
    ensures !IsLast(s) ==> r.currentIndex == s.currentIndex + 1 && !r.showUpNext && r.timer == Stopped
  {
    if IsLast(s) then s else s.(timer := Stopped, showUpNext := false, currentIndex := s.currentIndex + 1)
  }

  /** `skipToPrevious`: stop, hide the preview, go back. */
  function SkipPrevious(s: Session): (r: Session)
    ensures s.currentIndex == 0 ==> r == s
    ensures s.currentIndex != 0 ==> r.currentIndex == s.currentIndex - 1 && !r.showUpNext && r.timer == Stopped
  {
    if s.currentIndex == 0 then s
    else s.(timer := Stopped, showUpNext := false, currentIndex := s.currentIndex - 1)
  }

  /** `togglePause`: restart the countdown when paused, stop it otherwise. */
  function TogglePause(s: Session): (r: Session)
    ensures r.isPaused == !s.isPaused
    ensures r.timer == if s.isPaused then WorkoutTimer else Stopped
    ensures r.timeRemaining == s.timeRemaining && r.currentIndex == s.currentIndex
    ensures r.captured == if s.isPaused then s.totalElapsed else s.captured
  {
    if s.isPaused then s.(timer := WorkoutTimer, isPaused := false, captured := s.totalElapsed)
    else s.(timer := Stopped, isPaused := true)
  }

  /** `addTime(seconds)`. */
  function AddTime(s: Session, seconds: int): (r: Session)
    ensures r.timeRemaining - s.timeRemaining == seconds
    ensures r.(timeRemaining := s.timeRemaining) == s
  {
    s.(timeRemaining := s.timeRemaining + seconds)
  }

  /** `restartBlock`, confirmed: reload the duration, hide the preview, restart the countdown.
      The pause flag is not touched. */
  function RestartBlock(s: Session): (r: Session)
    ensures r.timeRemaining == Duration(s.steps, s.currentIndex) && !r.showUpNext
    ensures r.timer == WorkoutTimer && r.isPaused == s.isPaused
    ensures r.currentIndex == s.currentIndex && r.totalElapsed == s.totalElapsed
    ensures r.captured == s.totalElapsed
  {
    s.(timeRemaining := Duration(s.steps, s.currentIndex), showUpNext := false, timer := WorkoutTimer,
       captured := s.totalElapsed)
  }

  /** The preview timeout: show "Up Next". */
  function FirePreview(s: Session, k: nat): (r: Session)
    requires k < |s.previews|
    ensures r.showUpNext && |r.previews| == |s.previews| - 1
    ensures r.(showUpNext := s.showUpNext, previews := s.previews) == s
  {
    s.(showUpNext := true, previews := Lists.RemoveAt(s.previews, k))
  }

  // ---------------------------------------------------------------------------
  // The machine
  // ---------------------------------------------------------------------------

  /** The controls are disabled during a transition, and the "Class Complete" alert, which
      cannot be dismissed except by leaving the screen, covers them once the class is done. */
  predicate ControlsLive(s: Session) {
    !s.isTransition && !s.completed
  }

  /** Whether the event can happen: a tick needs a running interval, a preview a pending
      timeout, and a press an enabled button (the time buttons add 15, 30 or 60 seconds). */
  predicate Enabled(s: Session, e: Event) {
    match e
    case Tick => s.timer != Stopped
    case PreviewDue(k) => k < |s.previews|
    case AddTimePressed(n) => ControlsLive(s) && (n == 15 || n == 30 || n == 60)
    case RestartPressed => ControlsLive(s)
    case PreviousPressed => ControlsLive(s) && s.currentIndex != 0
    case PausePressed => ControlsLive(s)
    case NextPressed => ControlsLive(s) && !IsLast(s)
  }

  /** The handler an enabled event runs. */
  function Handle(v: Variant, s: Session, e: Event): Session
    requires Enabled(s, e)
  {
    match e
    case Tick =>
      (match s.timer
       case WorkoutTimer => WorkoutTick(s)
       case TransitionTimer(t) => TransitionTick(v, s, t))
    case PreviewDue(k) => FirePreview(s, k)
    case AddTimePressed(n) => AddTime(s, n)
    case RestartPressed => RestartBlock(s)
    case PreviousPressed => SkipPrevious(s)
    case PausePressed => TogglePause(s)
    case NextPressed => SkipNext(s)
  }

  /** One step: the handler, then the index effect if the index changed. A disabled event
      changes nothing. */
  function Apply(v: Variant, s: Session, e: Event): (r: Session)
    ensures !Enabled(s, e) ==> r == s
    ensures r.steps == s.steps
  {
    if !Enabled(s, e) then s
    else
      var t := Handle(v, s, e);
      if t.currentIndex != s.currentIndex then IndexEffect(v, t) else t
  }

  function Run(v: Variant, s: Session, es: seq<Event>): Session
    decreases |es|
  {
    if |es| == 0 then s else Run(v, Apply(v, s, es[0]), es[1..])
  }

  lemma {:induction false} RunAppend(v: Variant, s: Session, a: seq<Event>, b: seq<Event>)
    ensures Run(v, s, a + b) == Run(v, Run(v, s, a), b)
    decreases |a|
  {
    if |a| == 0 {
      assert a + b == b;
    } else {
      assert (a + b)[1..] == a[1..] + b;
      RunAppend(v, Apply(v, s, a[0]), a[1..], b);
    }
  }

  function Ticks(n: nat): (es: seq<Event>)
    ensures |es| == n && forall i :: 0 <= i < n ==> es[i] == Tick
  {
    seq(n, _ => Tick)
  }

  // ---------------------------------------------------------------------------
  // Invariant
  // ---------------------------------------------------------------------------

  /** Every step keeps the session valid, in both variants. */
  lemma ApplyKeepsValid(v: Variant, s: Session, e: Event)
    requires Valid(s)
    ensures Valid(Apply(v, s, e))
  {
    if Enabled(s, e) {
      var t := Handle(v, s, e);
      if t.currentIndex != s.currentIndex {
        assert Valid(t.(timer := Stopped, isTransition := false)) || t.isTransition;
      }
    }
  }

  lemma {:induction false} RunKeepsValid(v: Variant, s: Session, es: seq<Event>)
    requires Valid(s)
    ensures Valid(Run(v, s, es))
    decreases |es|
  {
    if |es| > 0 {
      ApplyKeepsValid(v, s, es[0]);
      RunKeepsValid(v, Apply(v, s, es[0]), es[1..]);
    }
  }

  // ---------------------------------------------------------------------------
  // Countdowns
  // ---------------------------------------------------------------------------

  /** A running workout with `n` seconds left ends after exactly `n` ticks, each of which
      counted towards the elapsed total: the class completes on the last workout, and a
      transition of the fixed length towards the next index starts otherwise. */
  lemma {:induction false} WorkoutRunsDown(v: Variant, s: Session, n: nat)
    requires s.timer == WorkoutTimer && s.timeRemaining == n >= 1
    ensures var r := Run(v, s, Ticks(n));
      && r.steps == s.steps
      && r.totalElapsed == s.totalElapsed + n
      && r.currentIndex == s.currentIndex && r.captured == s.captured
      && (IsLast(s) ==> r.completed && r.timer == Stopped && r.timeRemaining == 0)
      && (!IsLast(s) ==> r.isTransition && r.timeRemaining == TransitionSeconds
                         && r.timer == TransitionTimer(s.currentIndex + 1))
    decreases n
  {
    var s1 := Apply(v, s, Tick);
    assert Ticks(n)[1..] == Ticks(n - 1);
    if n == 1 {
      assert Run(v, s1, []) == s1;
    } else {
      WorkoutRunsDown(v, s1, n - 1);
    }
  }

  /** As written, once a transition has started the elapsed total never changes again under
      ticks: transition seconds do not count, and the next workout never starts. */
  lemma {:induction false} TransitionKeepsElapsed(s: Session, n: nat)
    requires Valid(s) && s.isTransition
    ensures Run(AsWritten, s, Ticks(n)).totalElapsed == s.totalElapsed
    decreases n
  {
    if n > 0 {
      assert Ticks(n)[1..] == Ticks(n - 1);
      ApplyKeepsValid(AsWritten, s, Tick);
      TransitionKeepsElapsed(Apply(AsWritten, s, Tick), n - 1);
    }
  }

  // ---------------------------------------------------------------------------
  // Controls
  // ---------------------------------------------------------------------------

  /** Next moves exactly one workout forward, hides the preview and starts that workout unpaused
      from its full duration; on the last workout or during a transition it does nothing. */
  lemma NextStartsFollowingWorkout(v: Variant, s: Session)
    requires Valid(s)
    ensures IsLast(s) || !ControlsLive(s) ==> Apply(v, s, NextPressed) == s
    ensures !IsLast(s) && ControlsLive(s) ==>
      var r := Apply(v, s, NextPressed);
      && r.currentIndex == s.currentIndex + 1
      && !r.showUpNext && !r.isPaused && !r.isTransition
      && r.timer == WorkoutTimer && r.timeRemaining == Duration(s.steps, s.currentIndex + 1)
      && r.totalElapsed == s.totalElapsed
  {
  }

  /** Previous moves exactly one workout back and hides the preview; past the first index it
      starts that workout from its full duration; at index 0 or during a transition it does
      nothing. */
  lemma PreviousGoesBack(v: Variant, s: Session)
    requires Valid(s)
    ensures s.currentIndex == 0 || !ControlsLive(s) ==> Apply(v, s, PreviousPressed) == s
    ensures s.currentIndex > 1 && ControlsLive(s) ==>
      var r := Apply(v, s, PreviousPressed);
      && r.currentIndex == s.currentIndex - 1
      && !r.showUpNext && !r.isPaused && r.timer == WorkoutTimer
      && r.timeRemaining == Duration(s.steps, s.currentIndex - 1)
  {
  }

  /** Pausing and resuming a running, unpaused workout gives back the same session, except that
      the new interval captures the elapsed total of the moment it is made. */
  lemma PauseTwiceResumes(v: Variant, s: Session)
    requires Valid(s) && ControlsLive(s) && s.timer == WorkoutTimer && !s.isPaused
    ensures Apply(v, s, PausePressed).timer == Stopped
    ensures Apply(v, Apply(v, s, PausePressed), PausePressed) == s.(captured := s.totalElapsed)
  {
  }

  /** Restarting a paused workout starts its countdown while the pause flag stays set, so the
      screen still shows PAUSED over a running timer. */
  lemma RestartWhilePausedRuns(v: Variant, s: Session)
    requires Valid(s) && ControlsLive(s) && s.isPaused
    ensures Apply(v, s, RestartPressed).timer == WorkoutTimer
    ensures Apply(v, s, RestartPressed).isPaused
  {
  }

  // ---------------------------------------------------------------------------
  // The transition as written, and corrected
  // ---------------------------------------------------------------------------

  /** A transition that has run out: flag still set, its interval re-applying the index it
      already moved to, and nothing left on the clock. */
  predicate Stalled(s: Session) {
    s.isTransition && s.timer == TransitionTimer(s.currentIndex) && s.timeRemaining == 0
  }

  /** As written, the last second of a transition moves to the next index but leaves the
      transition running, so the index effect does not start the workout. */
  lemma TransitionExpiryStalls(s: Session)
    requires Valid(s) && s.isTransition && s.timeRemaining <= 1
    ensures Stalled(Apply(AsWritten, s, Tick))
    ensures Apply(AsWritten, s, Tick).currentIndex == s.timer.target
  {
  }

  /** As written, a stalled session stays stalled whatever happens next: every control is
      disabled, the interval keeps moving to the index it is already on, and neither the
      index nor the elapsed total ever changes again. */
  lemma {:induction false} StalledForever(s: Session, es: seq<Event>)
    requires Stalled(s)
    ensures var r := Run(AsWritten, s, es);
      Stalled(r) && r.currentIndex == s.currentIndex && r.totalElapsed == s.totalElapsed
    decreases |es|
  {
    if |es| > 0 {
      StalledForever(Apply(AsWritten, s, es[0]), es[1..]);
    }
  }

  /** Corrected, the last second of a transition starts the next workout from its full
      duration. */
  lemma CorrectedExpiryStartsNext(s: Session)
    requires Valid(s) && s.isTransition && s.timeRemaining <= 1
    requires s.timer == TransitionTimer(s.currentIndex + 1)
    ensures var r := Apply(Corrected, s, Tick);
      && r.currentIndex == s.currentIndex + 1 && !r.isTransition && !r.isPaused
      && r.timer == WorkoutTimer && r.timeRemaining == Duration(s.steps, s.currentIndex + 1)
      && r.totalElapsed == s.totalElapsed
  {
  }

  /** Any class of two or more workouts whose first workout lasts at least a second, as
      written: after the first workout and the ten-second transition the session sits on the
      second workout for good (see `StalledForever`), never counting a second of it. */
  lemma FirstTransitionStalls(steps: seq<Step>)
    requires |steps| >= 2 && Duration(steps, 0) >= 1
    ensures var r := Run(AsWritten, Mount(steps), Ticks(Duration(steps, 0) + TransitionSeconds));
      Stalled(r) && r.currentIndex == 1 && r.totalElapsed == Duration(steps, 0)
  {
    var d := Duration(steps, 0);
    var s0 := Mount(steps);
    WorkoutRunsDown(AsWritten, s0, d);
    var s1 := Run(AsWritten, s0, Ticks(d));
    RunKeepsValid(AsWritten, s0, Ticks(d));
    TransitionRunsOut(s1);
    assert Ticks(d + TransitionSeconds) == Ticks(d) + Ticks(TransitionSeconds);
    RunAppend(AsWritten, s0, Ticks(d), Ticks(TransitionSeconds));
  }

  /** As written, the ten ticks of a fresh transition end in the stalled state on the next
      index. */
  lemma TransitionRunsOut(s: Session)
    requires Valid(s) && s.isTransition && s.timeRemaining == TransitionSeconds
    requires s.timer == TransitionTimer(s.currentIndex + 1)
    ensures var r := Run(AsWritten, s, Ticks(TransitionSeconds));
      Stalled(r) && r.currentIndex == s.currentIndex + 1 && r.totalElapsed == s.totalElapsed
  {
    TransitionCountsDown(s, TransitionSeconds);
  }

  lemma {:induction false} TransitionCountsDown(s: Session, n: nat)
    requires Valid(s) && s.isTransition && s.timeRemaining == n >= 1
    requires s.timer == TransitionTimer(s.currentIndex + 1)
    ensures var r := Run(AsWritten, s, Ticks(n));
      Stalled(r) && r.currentIndex == s.currentIndex + 1 && r.totalElapsed == s.totalElapsed
    decreases n
  {
    var s1 := Apply(AsWritten, s, Tick);
    assert Ticks(n)[1..] == Ticks(n - 1);
    if n == 1 {
      assert Run(AsWritten, s1, []) == s1;
    } else {
      TransitionCountsDown(s1, n - 1);
    }
  }

  /** Skipping back to the first workout, as written, stops the countdown and does not restart
      it: the clock keeps the seconds left of the workout that was playing. */
  lemma SkipBackToFirstStalls(s: Session)
    requires Valid(s) && ControlsLive(s) && s.currentIndex == 1
    ensures var r := Apply(AsWritten, s, PreviousPressed);
      r.currentIndex == 0 && r.timer == Stopped && r.timeRemaining == s.timeRemaining
      && r.isPaused == s.isPaused
  {
  }

  /** Corrected, skipping back to the first workout starts it from its full duration. */
  lemma CorrectedSkipBackRestarts(s: Session)
    requires Valid(s) && ControlsLive(s) && s.currentIndex == 1
    ensures var r := Apply(Corrected, s, PreviousPressed);
      r.currentIndex == 0 && r.timer == WorkoutTimer && !r.isPaused
      && r.timeRemaining == Duration(s.steps, 0)
  {
  }

  // ---------------------------------------------------------------------------
  // The corrected machine delivers the whole class
  // ---------------------------------------------------------------------------

  /** Ticks from the start of workout `i` to the end of the class: each workout's seconds, with
      a transition between consecutive workouts. */
  function ClassTicks(steps: seq<Step>, i: nat): nat
    requires forall j :: 0 <= j < |steps| ==> Duration(steps, j) >= 1
    decreases |steps| - i
  {
    if i >= |steps| then 0
    else if i == |steps| - 1 then Duration(steps, i)
    else Duration(steps, i) + TransitionSeconds + ClassTicks(steps, i + 1)
  }

  /** The seconds of workouts `i..` together. */
  function DurationFrom(steps: seq<Step>, i: nat): int
    decreases |steps| - i
  {
    if i >= |steps| then 0 else Duration(steps, i) + DurationFrom(steps, i + 1)
  }

  /** A started workout at a session whose index is `i`. */
  predicate StartedAt(s: Session, i: nat) {
    Valid(s) && s.currentIndex == i && s.timer == WorkoutTimer && !s.isTransition && !s.completed
    && s.timeRemaining == Duration(s.steps, i)
  }

  /** Corrected, a class whose workouts all last at least a second, left to run from the start
      of workout `i`, completes, and its elapsed total grows by exactly the workouts' seconds
      from `i` on: transitions count nothing. */
  lemma {:induction false} CorrectedRunsToEnd(s: Session, i: nat)
    requires StartedAt(s, i)
    requires forall j :: 0 <= j < |s.steps| ==> Duration(s.steps, j) >= 1
    ensures var r := Run(Corrected, s, Ticks(ClassTicks(s.steps, i)));
      r.completed && r.totalElapsed == s.totalElapsed + DurationFrom(s.steps, i)
    decreases |s.steps| - i
  {
    var steps := s.steps;
    var d := Duration(steps, i);
    WorkoutRunsDown(Corrected, s, d);
    var s1 := Run(Corrected, s, Ticks(d));
    if i == |steps| - 1 {
      assert DurationFrom(steps, i + 1) == 0;
    } else {
      RunKeepsValid(Corrected, s, Ticks(d));
      assert s1.steps == steps && !s1.completed;
      var s2 := Run(Corrected, s1, Ticks(TransitionSeconds));
      CorrectedTransitionStarts(s1, TransitionSeconds);
      var rest := ClassTicks(steps, i + 1);
      CorrectedRunsToEnd(s2, i + 1);
      assert Ticks(ClassTicks(steps, i)) == Ticks(d) + Ticks(TransitionSeconds) + Ticks(rest);
      RunAppend(Corrected, s, Ticks(d) + Ticks(TransitionSeconds), Ticks(rest));
      RunAppend(Corrected, s, Ticks(d), Ticks(TransitionSeconds));
    }
  }

  /** Corrected, a fresh transition's ticks end with the next workout started. */
  lemma {:induction false} CorrectedTransitionStarts(s: Session, n: nat)
    requires Valid(s) && s.isTransition && s.timeRemaining == n >= 1 && !s.completed
    requires s.timer == TransitionTimer(s.currentIndex + 1)
    ensures var r := Run(Corrected, s, Ticks(n));
      StartedAt(r, s.currentIndex + 1) && r.totalElapsed == s.totalElapsed && r.steps == s.steps
    decreases n
  {
    var s1 := Apply(Corrected, s, Tick);
    assert Ticks(n)[1..] == Ticks(n - 1);
    ApplyKeepsValid(Corrected, s, Tick);
    if n == 1 {
      assert Run(Corrected, s1, []) == s1;
    } else {
      CorrectedTransitionStarts(s1, n - 1);
    }
  }

  /** Corrected, every class whose workouts last at least a second runs from mount to
      completion, its elapsed total is the sum of the workout durations, and the completion
      alert shows that sum. */
  lemma CorrectedClassCompletes(steps: seq<Step>)
    requires |steps| > 0
    requires forall j :: 0 <= j < |steps| ==> Duration(steps, j) >= 1
    ensures var r := Run(Corrected, Mount(steps), Ticks(ClassTicks(steps, 0)));
      && r.completed && r.totalElapsed == DurationFrom(steps, 0)
      && CompletionAlert(Corrected, r) == DurationFrom(steps, 0)
  {
    CorrectedRunsToEnd(Mount(steps), 0);
  }

  // ---------------------------------------------------------------------------
  // The completion alert
  // ---------------------------------------------------------------------------

  /** The "Total time" the "Class Complete" alert shows, read off the completed session (which
      nothing changes any more). As written, `handleClassComplete` is reached through the
      workout interval's closure, whose `totalElapsed` is the one `startTimer` saw; corrected,
      it is the session's elapsed total. */
  function CompletionAlert(v: Variant, s: Session): (t: int)
    ensures v == Corrected ==> t == s.totalElapsed
    ensures v == AsWritten ==> t == s.captured
  {
    if v == AsWritten then s.captured else s.totalElapsed
  }

  /** As written, the last workout of a class, started in the usual way and left to run out,
      completes the class with an alert that leaves that whole workout out of the total. */
  lemma {:induction false} AlertMissesLastWorkout(v: Variant, s: Session)
    requires |s.steps| > 0 && StartedAt(s, |s.steps| - 1) && s.captured == s.totalElapsed
    requires Duration(s.steps, |s.steps| - 1) >= 1
    ensures var d := Duration(s.steps, |s.steps| - 1);
      var r := Run(v, s, Ticks(d));
      && r.completed && r.totalElapsed == s.totalElapsed + d
      && CompletionAlert(AsWritten, r) == r.totalElapsed - d
  {
    WorkoutRunsDown(v, s, Duration(s.steps, |s.steps| - 1));
  }

  /** As written, a one-workout class runs to completion and its alert reads "0:00". */
  lemma OneWorkoutAlertShowsZero(steps: seq<Step>)
    requires |steps| == 1 && Duration(steps, 0) >= 1
    ensures var r := Run(AsWritten, Mount(steps), Ticks(Duration(steps, 0)));
      && r.completed && r.totalElapsed == Duration(steps, 0)
      && FormatTime(CompletionAlert(AsWritten, r)) == "0:00"
  {
    AlertMissesLastWorkout(AsWritten, Mount(steps));
    FormatTimeReadsBack(0);
  }

  // ---------------------------------------------------------------------------
  // Display
  // ---------------------------------------------------------------------------

  /** `formatTime`: floor minutes, a colon, and the remainder padded to two digits. */
  function FormatTime(seconds: int): string {
    IntToString(FloorMinutes(seconds)) + [':'] + PadStart2(IntToString(JsRem60(seconds)))
  }

  /** Reads a clock `m:ss` back into seconds. */
  function ParseClock(t: string): Option<int> {
    if |t| >= 4 && t[|t| - 3] == ':' && AllDigits(t[..|t| - 3]) && AllDigits(t[|t| - 2..])
    then Some(DigitsValue(t[..|t| - 3]) * 60 + DigitsValue(t[|t| - 2..]))
    else None
  }

  /** For a non-negative number of seconds the clock has at least one minute digit, a colon and
      exactly two second digits below 60, and reads back as the same number of seconds. */
  lemma FormatTimeReadsBack(seconds: int)
    requires seconds >= 0
    ensures var t := FormatTime(seconds);
      |t| >= 4 && t[|t| - 3] == ':' && DigitsValue(t[|t| - 2..]) < 60
      && ParseClock(t) == Some(seconds)
  {
    var m := NatToString(seconds / 60);
    var r := seconds % 60;
    var ss := PadStart2(NatToString(r));
    NatToStringValue(seconds / 60);
    NatToStringValue(r);
    var t := m + [':'] + ss;
    assert t[..|t| - 3] == m;
    assert t[|t| - 2..] == ss;
    if r < 10 {
      assert NatToString(r) == [DigitChar(r)];
      assert ss == ['0', DigitChar(r)];
      assert ss[..1] == ['0'];
      assert DigitsValue(ss) == r;
    } else {
      assert ss == NatToString(r);
    }
  }

  /** `getTimerColor`: red from 10 seconds down, orange up to 30, white above. */
  function TimerColor(remaining: int): string {
    if remaining <= 10 then "#FF3B30"
    else if remaining <= 30 then "#FF9500"
    else "#FFFFFF"
  }

  /** How urgent a colour is: white 0, orange 1, red 2. */
  function Urgency(color: string): nat {
    if color == "#FF3B30" then 2 else if color == "#FF9500" then 1 else 0
  }

  /** The colour is red exactly at 10 seconds or less and orange exactly from 11 to 30, and it
      only grows more urgent as the clock runs down. */
  lemma TimerColorBands(a: int, b: int)
    ensures TimerColor(a) == "#FF3B30" <==> a <= 10
    ensures TimerColor(a) == "#FF9500" <==> 10 < a <= 30
    ensures TimerColor(a) == "#FFFFFF" <==> a > 30
    ensures a <= b ==> Urgency(TimerColor(a)) >= Urgency(TimerColor(b))
  {
  }
}

=== FILE: save_flow.dfy ===
/** What the mobile screens send, read by the server routes that receive it: the class
    builder's payload against the class creation route, and the workout form's payload
    against the workout creation route. */
module SaveFlow {
  import opened Wrappers
  import opened Text
  import Lists
  import opened Database
  import ClassesStore
  import ClassBuilder
  import ClassRoutes
  import WorkoutForm
  import WorkoutRoutes

  // ---------------------------------------------------------------------------
  // Class builder -> POST /api/classes
  // ---------------------------------------------------------------------------

  /** A payload workout as the class route reads it: the screen sends no default duration. */
  function ToInput(p: ClassBuilder.PayloadEntry): ClassRoutes.WorkoutInput {
    ClassRoutes.WorkoutInput(p.workoutId, Some(p.durationOverride), None, Some(p.transitionTime), Some(p.instructorCues))
  }

  function Inputs(p: ClassBuilder.ClassPayload): (r: seq<ClassRoutes.WorkoutInput>)
    ensures |r| == |p.workouts| && forall i :: 0 <= i < |r| ==> r[i] == ToInput(p.workouts[i])
  {
    seq(|p.workouts|, i requires 0 <= i < |p.workouts| => ToInput(p.workouts[i]))
  }

  /** The creation body for a saved payload; `scheduledAt` is the parsed schedule. */
  function ToCreateBody(p: ClassBuilder.ClassPayload, scheduledAt: Option<int>): ClassRoutes.CreateBody {
    ClassRoutes.CreateBody(Some(p.name), p.classTypeId, scheduledAt, None, Some(p.isDraft), None, Given(Inputs(p)))
  }

  /** The server counts an entry as the screen does, except that an entry with no transition
      time is sent with 30 seconds, which the screen's own total leaves out. */
  lemma EntrySeconds(e: ClassesStore.BuilderEntry)
    ensures ClassRoutes.Seconds(ToInput(ClassBuilder.ToPayloadEntry(e)))
         == ClassBuilder.Contribution(e) + (if TruthyInt(e.transitionTime) then 0 else 30)
  {
  }

  /** Sums of two lists that agree entry by entry are equal. */
  lemma {:induction false} SumPointwise<A, B>(xs: seq<A>, ys: seq<B>, f: A -> int, g: B -> int)
    requires |xs| == |ys| && forall i :: 0 <= i < |xs| ==> f(xs[i]) == g(ys[i])
    ensures Lists.SumOf(xs, f) == Lists.SumOf(ys, g)
    decreases |xs|
  {
    if |xs| > 0 {
      SumPointwise(xs[..|xs| - 1], ys[..|ys| - 1], f, g);
    }
  }

  /** A class saved from the builder is stored with the total the builder's header shows,
      provided every workout has a transition time (the builder gives each added workout
      one). */
  lemma SavedClassTotalMatchesHeader(b: ClassesStore.Builder, isDraft: bool, existing: Option<seq<ClassesStore.ClassItem>>,
                                     editingId: Option<string>, db: Db, user: User, freshId: string,
                                     scheduledAt: Option<int>, development: bool)
    requires ClassBuilder.SaveClass(b, isDraft, existing, editingId).Ok?
    requires forall i :: 0 <= i < |b.workouts| ==> TruthyInt(b.workouts[i].transitionTime)
    requires freshId !in db.classes
    ensures var p := ClassBuilder.SaveClass(b, isDraft, existing, editingId).value;
      var db1 := ClassRoutes.Create(db, user, ToCreateBody(p, scheduledAt), freshId, development).1;
      freshId in db1.classes && db1.classes[freshId].totalDuration == ClassBuilder.TotalMinutes(b.workouts)
  {
    var p := ClassBuilder.SaveClass(b, isDraft, existing, editingId).value;
    var body := ToCreateBody(p, scheduledAt);
    assert TruthyStr(body.name) && ClassRoutes.OrEmpty(body.workouts) == Inputs(p) by {
      assert IsBlank([]) && !IsBlank(b.name);
    }
    assert ClassRoutes.TotalMinutes(Inputs(p)) == ClassBuilder.TotalMinutes(b.workouts) by {
      forall i | 0 <= i < |b.workouts|
        ensures ClassBuilder.Contribution(b.workouts[i]) == ClassRoutes.Seconds(Inputs(p)[i])
      {
        EntrySeconds(b.workouts[i]);
      }
      SumPointwise(b.workouts, Inputs(p), ClassBuilder.Contribution, ClassRoutes.Seconds);
    }
  }

  /** One workout without a transition time is stored as 30 seconds longer than the header
      shows. */
  lemma MissingTransitionCountsOnServer(e: ClassesStore.BuilderEntry)
    requires !TruthyInt(e.transitionTime)
    ensures ClassRoutes.Seconds(ToInput(ClassBuilder.ToPayloadEntry(e))) == ClassBuilder.Contribution(e) + 30
  {
    EntrySeconds(e);
  }

  // ---------------------------------------------------------------------------
  // Workout form -> POST /api/workouts
  // ---------------------------------------------------------------------------

  /** The form's payload as the workout route reads it. */
  function ToBody(p: WorkoutForm.WorkoutPayload): WorkoutRoutes.WorkoutBody {
    WorkoutRoutes.WorkoutBody(Some(p.name), p.description, p.defaultDuration, Some(p.difficulty),
                              Some(p.equipment), Given(p.tags), Given(p.injuryRiskIds))
  }

  /** A payload without a duration is refused by the server with a 400, and nothing is
      stored. */
  lemma DurationlessPayloadRefused(p: WorkoutForm.WorkoutPayload, db: Db, user: User, freshId: string)
    requires JsLength(p.name) >= 3 && IsTrimmed(p.name) && p.defaultDuration.None?
    requires freshId !in db.workouts
    ensures WorkoutRoutes.Create(db, user, ToBody(p), freshId) == (Failure(400, WorkoutRoutes.DurationMessage), db)
  {
    var body := ToBody(p);
    DurationlessBodyInvalid(p);
    RefusedCreate(db, user, body, freshId);
  }

  lemma DurationlessBodyInvalid(p: WorkoutForm.WorkoutPayload)
    requires JsLength(p.name) >= 3 && IsTrimmed(p.name) && p.defaultDuration.None?
    ensures WorkoutRoutes.Validate(ToBody(p)) == Some(WorkoutRoutes.DurationMessage)
  {
    var body := ToBody(p);
    assert WorkoutRoutes.NameAccepted(body) by {
      TrimTrimmed(p.name);
      assert body.name == Some(p.name);
    }
    assert body.defaultDuration.None?;
  }

  lemma RefusedCreate(db: Db, user: User, body: WorkoutRoutes.WorkoutBody, freshId: string)
    requires freshId !in db.workouts && WorkoutRoutes.Validate(body).Some?
    ensures WorkoutRoutes.Create(db, user, body, freshId) == (Failure(400, WorkoutRoutes.Validate(body).value), db)
  {
  }

  /** The duration that slips past the form as written (a lone space) is refused by the
      server with a 400 and nothing is stored. */
  lemma BlankDurationRefusedByServer(f: WorkoutForm.Form, db: Db, user: User, freshId: string)
    requires JsLength(Trim(f.workoutName)) >= 3 && f.durationMinutes == " "
    requires freshId !in db.workouts
    ensures WorkoutForm.SaveWorkout(f, false).Ok?
    ensures WorkoutRoutes.Create(db, user, ToBody(WorkoutForm.SaveWorkout(f, false).value), freshId)
         == (Failure(400, WorkoutRoutes.DurationMessage), db)
  {
    WorkoutForm.BlankDurationIsSaved(f);
    DurationlessPayloadRefused(WorkoutForm.SaveWorkout(f, false).value, db, user, freshId);
  }

  /** Whatever the corrected form lets through passes the server's name and duration checks. */
  lemma CorrectedFormPassesServerChecks(f: WorkoutForm.Form)
    requires WorkoutForm.SaveWorkout(f, true).Ok?
    ensures var body := ToBody(WorkoutForm.SaveWorkout(f, true).value);
      WorkoutRoutes.NameAccepted(body) && WorkoutRoutes.DurationAccepted(body)
  {
    var p := WorkoutForm.SaveWorkout(f, true).value;
    assert JsLength(Trim(p.name)) >= 3 && p.defaultDuration.Some? && p.defaultDuration.value > 0 by {
      TrimIdempotent(f.workoutName);
    }
    PayloadPassesChecks(p);
  }

  lemma PayloadPassesChecks(p: WorkoutForm.WorkoutPayload)
    requires JsLength(Trim(p.name)) >= 3 && p.defaultDuration.Some? && p.defaultDuration.value > 0
    ensures WorkoutRoutes.NameAccepted(ToBody(p)) && WorkoutRoutes.DurationAccepted(ToBody(p))
  {
  }

  /** The tags the form sends are stored exactly as sent: the server's normalisation has
      nothing left to do. */
  lemma FormTagsAreStoredAsSent(input: string)
    ensures WorkoutRoutes.NormalizeTags(WorkoutForm.ParseTags(input)) == WorkoutForm.ParseTags(input)
  {
    var t := WorkoutForm.ParseTags(input);
    WorkoutForm.ParseTagsIsLoweredList(input);
    forall i | 0 <= i < |t| ensures WorkoutRoutes.NotBlank(t[i]) && LowerTrim(t[i]) == t[i] {
      TrimTrimmed(t[i]);
      ToLowerOfLower(t[i]);
    }
    Lists.FilterAll(t, WorkoutRoutes.NotBlank);
    assert Lists.Map(t, LowerTrim) == t;
  }
}

=== FILE: store_flags.dfy ===
/** What the Redux slices share: the loading/error flags an async request drives, the
    rejection message a request thunk reports, and the query string built from the truthy
    filters only. */
module StoreFlags {
  import opened Wrappers

  /** `loading` and `error` of a slice. */
  datatype Flags = Flags(loading: bool, error: Option<string>)

  /** A list request starts: loading, and any previous error cleared. */
  function Pending(f: Flags): (r: Flags)
    ensures r.loading && r.error.None?
  {
    Flags(true, None)
  }

  /** A detail request starts: loading, the previous error kept. */
  function DetailPending(f: Flags): (r: Flags)
    ensures r.loading && r.error == f.error
  {
    f.(loading := true)
  }

  /** A request succeeded: loading ends, the error is left as it was. */
  function Fulfilled(f: Flags): (r: Flags)
    ensures !r.loading && r.error == f.error
  {
    f.(loading := false)
  }

  /** A request failed with `message`: loading ends and the message is stored. */
  function Rejected(f: Flags, message: string): (r: Flags)
    ensures !r.loading && r.error == Some(message)
  {
    Flags(false, Some(message))
  }

  /** `rejectWithValue(error.response?.data?.error || fallback)`. */
  function RejectionMessage(serverError: Option<string>, fallback: string): (m: string)
    ensures TruthyStr(serverError) ==> m == serverError.value
    ensures !TruthyStr(serverError) ==> m == fallback
  {
    StrOr(serverError, fallback)
  }

  /** A list request that succeeds ends idle and error-free, and one that fails ends idle with
      its message, whatever the flags were before. */
  lemma RequestOutcomes(f: Flags, message: string)
    ensures Fulfilled(Pending(f)) == Flags(false, None)
    ensures Rejected(Pending(f), message) == Flags(false, Some(message))
    ensures Fulfilled(DetailPending(f)) == f.(loading := false)
  {
  }

  /** `if (filters.k) params.append(k, filters.k)` for each candidate filter in turn: the
      filters with a truthy value, in order. */
  function QueryParams(candidates: seq<(string, Option<string>)>): (r: seq<(string, string)>)
    ensures |r| <= |candidates|
    ensures forall i :: 0 <= i < |r| ==> r[i].1 != ""
    ensures forall k, v :: (k, v) in r <==> (k, Some(v)) in candidates && v != ""
  {
    if |candidates| == 0 then []
    else
      var rest := QueryParams(candidates[1..]);
      assert forall c :: c in candidates <==> c == candidates[0] || c in candidates[1..];
      if TruthyStr(candidates[0].1) then [(candidates[0].0, candidates[0].1.value)] + rest else rest
  }

  /** The parameters keep the candidates' order: the query for two groups of filters is the
      first group's query followed by the second's. */
  lemma {:induction false} QueryParamsAppend(a: seq<(string, Option<string>)>, b: seq<(string, Option<string>)>)
    ensures QueryParams(a + b) == QueryParams(a) + QueryParams(b)
    decreases |a|
  {
    if |a| == 0 {
      assert a + b == b;
    } else {
      assert (a + b)[0] == a[0];
      assert (a + b)[1..] == a[1..] + b;
      QueryParamsAppend(a[1..], b);
    }
  }
}

=== FILE: submission_routes.dfy ===
/** The approval workflow: an instructor submits one of their workouts, and an admin or a
    manager approves or rejects the submission, which moves the workout's approval status
    with it. The notification emails are left out. */
module SubmissionRoutes {
  import opened Wrappers
  import opened Database

  const Pending := "pending"
  const Approved := "approved"
  const Rejected := "rejected"

  /** The approval states a workout or a submission can be in. */
  predicate KnownStatus(s: string) {
    s == Pending || s == Approved || s == Rejected
  }

  /** Every workout and every submission is in a known approval state. */
  predicate StatusesKnown(db: Db) {
    && (forall id :: id in db.workouts ==> KnownStatus(db.workouts[id].approvalStatus))
    && (forall id :: id in db.submissions ==> KnownStatus(db.submissions[id].status))
  }

  /** `authorize('admin', 'manager')`. */
  predicate Reviewer(user: User) {
    user.role == Admin || user.role == Manager
  }

  /** POST /api/submissions: no workout id (400); a workout that does not exist or that the
      user did not create (404, one message for both); otherwise a pending submission is stored
      and the workout becomes pending and no longer a draft. */
  function Submit(db: Db, user: User, workoutId: Option<string>, notes: Option<string>, freshId: string): (r: (Reply<SubmissionRow>, Db))
    requires freshId !in db.submissions
    ensures !TruthyStr(workoutId) ==> r == (Failure(400, "Workout ID required"), db)
    ensures TruthyStr(workoutId) && (workoutId.value !in db.workouts || db.workouts[workoutId.value].createdBy != user.id) ==>
              r == (Failure(404, "Workout not found or access denied"), db)
    ensures r.0.Success? <==> (TruthyStr(workoutId) && workoutId.value in db.workouts
                               && db.workouts[workoutId.value].createdBy == user.id)
    ensures r.0.Success? ==>
              && r.0.status == 201 && r.0.value.status == Pending && r.0.value.submittedBy == user.id
              && r.1.submissions == db.submissions[freshId := r.0.value]
              && r.1.workouts.Keys == db.workouts.Keys
              && r.1.workouts[workoutId.value].approvalStatus == Pending
              && !r.1.workouts[workoutId.value].isSubmissionDraft
              && (forall w :: w in db.workouts && w != workoutId.value ==> r.1.workouts[w] == db.workouts[w])
  {
    if !TruthyStr(workoutId) then (Failure(400, "Workout ID required"), db)
    else if workoutId.value !in db.workouts || db.workouts[workoutId.value].createdBy != user.id then
      (Failure(404, "Workout not found or access denied"), db)
    else
      var w := workoutId.value;
      var s := SubmissionRow(w, user.id, Pending, notes, None, None);
      (Success(201, s),
       db.(submissions := db.submissions[freshId := s],
           workouts := db.workouts[w := db.workouts[w].(approvalStatus := Pending, isSubmissionDraft := false)]))
  }

  /** The submission can be reviewed: it exists and its workout still does (the lookup joins
      the two). */
  predicate Found(db: Db, id: string) {
    id in db.submissions && db.submissions[id].workoutId in db.workouts
  }

  /** PUT /api/submissions/:id/approve. `denied` is the reply of the role middleware, which is
      not part of this model. */
  function Approve(db: Db, user: User, id: string, notes: Option<string>, denied: Reply<string>): (r: (Reply<string>, Db))
    ensures !Reviewer(user) ==> r == (denied, db)
    ensures Reviewer(user) && !Found(db, id) ==> r == (Failure(404, "Submission not found"), db)
    ensures Reviewer(user) && Found(db, id) ==>
              var w := db.submissions[id].workoutId;
              && r.0 == Success(200, "Workout approved successfully")
              && r.1.submissions == db.submissions[id := db.submissions[id].(status := Approved, reviewedBy := Some(user.id), reviewNotes := notes)]
              && r.1.workouts == db.workouts[w := db.workouts[w].(approvalStatus := Approved, approvedBy := Some(user.id))]
  {
    if !Reviewer(user) then (denied, db)
    else if !Found(db, id) then (Failure(404, "Submission not found"), db)
    else
      var s := db.submissions[id];
      (Success(200, "Workout approved successfully"),
       db.(submissions := db.submissions[id := s.(status := Approved, reviewedBy := Some(user.id), reviewNotes := notes)],
           workouts := db.workouts[s.workoutId := db.workouts[s.workoutId].(approvalStatus := Approved, approvedBy := Some(user.id))]))
  }

  /** PUT /api/submissions/:id/reject: after the role check, missing notes (400) come before a
      missing submission (404); the notes are stored on the submission and on the workout. */
  function Reject(db: Db, user: User, id: string, notes: Option<string>, denied: Reply<string>): (r: (Reply<string>, Db))
    ensures !Reviewer(user) ==> r == (denied, db)
    ensures Reviewer(user) && !TruthyStr(notes) ==> r == (Failure(400, "Rejection notes required"), db)
    ensures Reviewer(user) && TruthyStr(notes) && !Found(db, id) ==> r == (Failure(404, "Submission not found"), db)
    ensures Reviewer(user) && TruthyStr(notes) && Found(db, id) ==>
              var w := db.submissions[id].workoutId;
              && r.0 == Success(200, "Workout rejected with feedback")
              && r.1.submissions == db.submissions[id := db.submissions[id].(status := Rejected, reviewedBy := Some(user.id), reviewNotes := notes)]
              && r.1.workouts == db.workouts[w := db.workouts[w].(approvalStatus := Rejected, approvalNotes := notes)]
  {
    if !Reviewer(user) then (denied, db)
    else if !TruthyStr(notes) then (Failure(400, "Rejection notes required"), db)
    else if !Found(db, id) then (Failure(404, "Submission not found"), db)
    else
      var s := db.submissions[id];
      (Success(200, "Workout rejected with feedback"),
       db.(submissions := db.submissions[id := s.(status := Rejected, reviewedBy := Some(user.id), reviewNotes := notes)],
           workouts := db.workouts[s.workoutId := db.workouts[s.workoutId].(approvalStatus := Rejected, approvalNotes := notes)]))
  }

  /** GET /api/submissions: an instructor sees the submissions they made; managers and admins
      see all. Submissions whose workout is gone drop out of the join. The order is left out. */
  function List(db: Db, user: User): (r: set<string>)
    ensures forall id :: id in r <==>
              Found(db, id) && (user.role == Instructor ==> db.submissions[id].submittedBy == user.id)
  {
    set id | id in db.submissions && Found(db, id) && (user.role == Instructor ==> db.submissions[id].submittedBy == user.id)
  }

  /** An instructor's listing is exactly their own submissions, and a reviewer's listing
      contains everyone's. */
  lemma ListScoping(db: Db, instructor: User, reviewer: User)
    requires instructor.role == Instructor && reviewer.role != Instructor
    ensures List(db, instructor) <= List(db, reviewer)
    ensures forall id :: id in List(db, instructor) ==> db.submissions[id].submittedBy == instructor.id
    ensures forall id :: Found(db, id) ==> id in List(db, reviewer)
  {
  }

  /** Submitting, approving and rejecting keep every workout and submission in a known
      approval state. */
  lemma WritesKeepStatusesKnown(db: Db, user: User, workoutId: Option<string>, id: string,
                                notes: Option<string>, freshId: string, denied: Reply<string>)
    requires StatusesKnown(db) && freshId !in db.submissions
    ensures StatusesKnown(Submit(db, user, workoutId, notes, freshId).1)
    ensures StatusesKnown(Approve(db, user, id, notes, denied).1)
    ensures StatusesKnown(Reject(db, user, id, notes, denied).1)
  {
    SubmitKeepsStatusesKnown(db, user, workoutId, notes, freshId);
    ReviewKeepsStatusesKnown(db, user, id, notes, denied);
  }

  lemma SubmitKeepsStatusesKnown(db: Db, user: User, workoutId: Option<string>, notes: Option<string>, freshId: string)
    requires StatusesKnown(db) && freshId !in db.submissions
    ensures StatusesKnown(Submit(db, user, workoutId, notes, freshId).1)
  {
  }

  lemma ReviewKeepsStatusesKnown(db: Db, user: User, id: string, notes: Option<string>, denied: Reply<string>)
    requires StatusesKnown(db)
    ensures StatusesKnown(Approve(db, user, id, notes, denied).1)
    ensures StatusesKnown(Reject(db, user, id, notes, denied).1)
  {
  }

  /** An instructor can neither approve nor reject: the role check answers and nothing
      changes. */
  lemma InstructorCannotReview(db: Db, user: User, id: string, notes: Option<string>, denied: Reply<string>)
    requires user.role == Instructor
    ensures Approve(db, user, id, notes, denied) == (denied, db)
    ensures Reject(db, user, id, notes, denied) == (denied, db)
  {
  }

  /** The workflow end to end: an instructor submits their own workout and a manager approves
      it; the workout ends approved by that manager and is no longer a submission draft. */
  lemma SubmitThenApprove(db: Db, owner: User, manager: User, w: string, notes: Option<string>,
                          freshId: string, denied: Reply<string>)
    requires freshId !in db.submissions && w != "" && w in db.workouts && db.workouts[w].createdBy == owner.id
    requires manager.role == Manager
    ensures var (r1, db1) := Submit(db, owner, Some(w), notes, freshId);
      var (r2, db2) := Approve(db1, manager, freshId, None, denied);
      && r1.Success? && r2.Success?
      && db2.workouts[w].approvalStatus == Approved && db2.workouts[w].approvedBy == Some(manager.id)
      && !db2.workouts[w].isSubmissionDraft
      && db2.submissions[freshId].status == Approved && db2.submissions[freshId].submittedBy == owner.id
  {
  }

  /** A rejected workout can be submitted again by its creator, which makes it pending once
      more; the reviewer's notes stay on the workout. */
  lemma RejectedCanBeResubmitted(db: Db, owner: User, reviewer: User, w: string, sub: string, feedback: string,
                                 freshId: string, denied: Reply<string>)
    requires w != "" && w in db.workouts && db.workouts[w].createdBy == owner.id
    requires sub in db.submissions && db.submissions[sub].workoutId == w
    requires Reviewer(reviewer) && feedback != "" && freshId !in db.submissions
    ensures var (_, db1) := Reject(db, reviewer, sub, Some(feedback), denied);
      var (r2, db2) := Submit(db1, owner, Some(w), None, freshId);
      && db1.workouts[w].approvalStatus == Rejected
      && r2.Success? && db2.workouts[w].approvalStatus == Pending
      && db2.workouts[w].approvalNotes == Some(feedback)
  {
  }
}

=== FILE: text.dfy ===
/** The JavaScript string and number primitives the application relies on:
    `trim`, `toLowerCase`, `includes`, `split`/`join`, `parseInt`, `Number(...)`
    recognition, number-to-string, and the `Math.ceil`/`Math.round` minute
    conversions. Strings are sequences of Unicode scalar values; `.length` counts UTF-16
    code units, as JavaScript does. */
module Text {
  import opened Wrappers

  // ---------------------------------------------------------------------------
  // White space and trimming
  // ---------------------------------------------------------------------------

  /** The white-space and line-terminator characters that `String.prototype.trim`
      removes (ECMAScript WhiteSpace and LineTerminator). */
  predicate IsSpace(c: char) {
    || c == ' ' || c == '\t' || c == '\n' || c == '\r'
    || c == '\U{000B}' || c == '\U{000C}' || c == '\U{00A0}' || c == '\U{1680}'
    || ('\U{2000}' <= c <= '\U{200A}')
    || c == '\U{2028}' || c == '\U{2029}' || c == '\U{202F}' || c == '\U{205F}'
    || c == '\U{3000}' || c == '\U{FEFF}'
  }

  /** Every character of `s` is white space (so `s.trim()` is empty). */
  predicate IsBlank(s: string) {
    forall i :: 0 <= i < |s| ==> IsSpace(s[i])
  }

  /** No white space at either end. */
  predicate IsTrimmed(s: string) {
    s == [] || (!IsSpace(s[0]) && !IsSpace(s[|s| - 1]))
  }

  /** How many white-space characters `s` starts with. */
  function LeadingSpaces(s: string): (n: nat)
    ensures n <= |s| && (n == |s| || !IsSpace(s[n]))
    ensures forall i :: 0 <= i < n ==> IsSpace(s[i])
  {
    if |s| > 0 && IsSpace(s[0]) then 1 + LeadingSpaces(s[1..]) else 0
  }

  function TrimStart(s: string): (r: string)
    ensures |r| <= |s| && r == s[|s| - |r|..]
    ensures IsBlank(s[..|s| - |r|])
    ensures r == [] || !IsSpace(r[0])
  {
    s[LeadingSpaces(s)..]
  }

  /** The length of `s` without its trailing white space. */
  function Untrailed(s: string): (n: nat)
    ensures n <= |s| && (n == 0 || !IsSpace(s[n - 1]))
    ensures forall i :: n <= i < |s| ==> IsSpace(s[i])
  {
    if |s| > 0 && IsSpace(s[|s| - 1]) then Untrailed(s[..|s| - 1]) else |s|
  }

  function TrimEnd(s: string): (r: string)
    ensures |r| <= |s| && r == s[..|r|]
    ensures IsBlank(s[|r|..])
    ensures r == [] || !IsSpace(r[|r| - 1])
  {
    s[..Untrailed(s)]
  }

  /** `String.prototype.trim`: the text between the leading and trailing white space. */
  function Trim(s: string): (r: string)
    ensures |r| <= |s|
    ensures IsTrimmed(r)
    ensures r == [] <==> IsBlank(s)
  {
    var a := TrimStart(s);
    var r := TrimEnd(a);
    assert r == [] ==> a[0..] == a;
    assert r != [] ==> r[0] == s[|s| - |a|];
    r
  }

  // ---------------------------------------------------------------------------
  // Length
  // ---------------------------------------------------------------------------

  /** The UTF-16 code units a character takes: two for one outside the Basic Multilingual
      Plane (a surrogate pair), one otherwise. */
  function CodeUnits(c: char): nat {
    if c as int >= 0x1_0000 then 2 else 1
  }

  /** `s.length`: the number of UTF-16 code units of the text, which is its number of
      characters exactly when none lies outside the Basic Multilingual Plane. */
  function JsLength(s: string): (n: nat)
    ensures |s| <= n <= 2 * |s|
    ensures n == |s| <==> forall i :: 0 <= i < |s| ==> s[i] as int < 0x1_0000
  {
    if |s| == 0 then 0
    else
      var k := |s| - 1;
      var n := JsLength(s[..k]) + CodeUnits(s[k]);
      assert forall i :: 0 <= i < k ==> s[..k][i] == s[i];
      n
  }

  /** A name of one emoji and one letter is two characters but three code units. */
  lemma AstralCountsTwice()
    ensures |"\U{1F600}a"| == 2 && JsLength("\U{1F600}a") == 3
  {
    assert "\U{1F600}a"[..1] == "\U{1F600}";
    assert "\U{1F600}"[..0] == [];
  }

  /** Trimming a string with no white space at either end leaves it unchanged. */
  lemma TrimTrimmed(s: string)
    requires IsTrimmed(s)
    ensures Trim(s) == s
  {
  }

  /** `trim` is idempotent. */
  lemma TrimIdempotent(s: string)
    ensures Trim(Trim(s)) == Trim(s)
  {
    TrimTrimmed(Trim(s));
  }

  /** Leading white space does not survive trimming. */
  lemma TrimLeadingSpace(c: char, s: string)
    requires IsSpace(c)
    ensures Trim([c] + s) == Trim(s)
  {
    var t := [c] + s;
    assert t[1..] == s;
    assert LeadingSpaces(t) == 1 + LeadingSpaces(s);
    assert TrimStart(t) == TrimStart(s) by {
      assert t[1 + LeadingSpaces(s)..] == s[LeadingSpaces(s)..];
    }
  }

  // ---------------------------------------------------------------------------
  // Case
  // ---------------------------------------------------------------------------

  /** `toLowerCase` on one character; only the ASCII letters are mapped. */
  function LowerChar(c: char): char {
    if 'A' <= c <= 'Z' then (c as int + 32) as char else c
  }

  /** `String.prototype.toLowerCase` (ASCII letters). */
  function ToLower(s: string): (r: string)
    ensures |r| == |s|
    ensures forall i :: 0 <= i < |s| ==> r[i] == LowerChar(s[i])
  {
    seq(|s|, i requires 0 <= i < |s| => LowerChar(s[i]))
  }

  /** No upper-case ASCII letter in `s`. */
  predicate IsLower(s: string) {
    forall i :: 0 <= i < |s| ==> !('A' <= s[i] <= 'Z')
  }

  lemma ToLowerIsLower(s: string)
    ensures IsLower(ToLower(s))
  {
  }

  lemma ToLowerOfLower(s: string)
    requires IsLower(s)
    ensures ToLower(s) == s
  {
  }

  /** Lower-casing keeps white space at the ends, so it commutes with trimming. */
  lemma ToLowerKeepsTrimmed(s: string)
    requires IsTrimmed(s)
    ensures IsTrimmed(ToLower(s))
  {
  }

  /** `s.trim().toLowerCase()`: the normal form of tags and names. */
  function LowerTrim(s: string): (r: string)
    ensures IsTrimmed(r) && IsLower(r)
    ensures r == [] <==> IsBlank(s)
  {
    ToLowerKeepsTrimmed(Trim(s));
    ToLowerIsLower(Trim(s));
    ToLower(Trim(s))
  }

  /** A normal form is its own normal form. */
  lemma LowerTrimIdempotent(s: string)
    ensures LowerTrim(LowerTrim(s)) == LowerTrim(s)
  {
    var r := LowerTrim(s);
    TrimTrimmed(r);
    ToLowerOfLower(r);
  }

  // ---------------------------------------------------------------------------
  // Search
  // ---------------------------------------------------------------------------

  /** `s.includes(sub)`. */
  function Contains(s: string, sub: string): bool
    decreases |s|
  {
    if |sub| > |s| then false
    else if s[..|sub|] == sub then true
    else Contains(s[1..], sub)
  }

  /** `sub` occurs in `s` starting at position `i`. */
  predicate OccursAt(s: string, sub: string, i: int) {
    0 <= i <= |s| - |sub| && s[i..i + |sub|] == sub
  }

  /** `includes` holds exactly when `sub` occurs at some position of `s`. */
  lemma {:induction false} ContainsIff(s: string, sub: string)
    ensures Contains(s, sub) <==> exists i :: OccursAt(s, sub, i)
    decreases |s|
  {
    if |sub| > |s| {
    } else if s[..|sub|] == sub {
      assert OccursAt(s, sub, 0);
    } else {
      ContainsIff(s[1..], sub);
      if Contains(s, sub) {
        var i :| OccursAt(s[1..], sub, i);
        assert s[i + 1..i + 1 + |sub|] == s[1..][i..i + |sub|];
        assert OccursAt(s, sub, i + 1);
      }
      if exists i :: OccursAt(s, sub, i) {
        var i :| OccursAt(s, sub, i);
        assert i != 0;
        assert s[1..][i - 1..i - 1 + |sub|] == s[i..i + |sub|];
        assert OccursAt(s[1..], sub, i - 1);
      }
    }
  }

  // ---------------------------------------------------------------------------
  // split / join
  // ---------------------------------------------------------------------------

  /** `s.split(sep)` for a one-character separator: the maximal separator-free pieces,
      always at least one (`"".split(",")` is `[""]`). */
  function Split(s: string, sep: char): (parts: seq<string>)
    ensures |parts| >= 1
    ensures forall k :: 0 <= k < |parts| ==> sep !in parts[k]
    decreases |s|
  {
    if |s| == 0 then [""]
    else
      var rest := Split(s[1..], sep);
      if s[0] == sep then [""] + rest else [[s[0]] + rest[0]] + rest[1..]
  }

  /** `parts.join([sep])`. */
  function Join(parts: seq<string>, sep: char): string
    requires |parts| >= 1
  {
    if |parts| == 1 then parts[0] else parts[0] + [sep] + Join(parts[1..], sep)
  }

  /** `parts.join(sep)` for a separator string; the join of no parts is empty. */
  function JoinWith(parts: seq<string>, sep: string): string {
    if |parts| == 0 then ""
    else if |parts| == 1 then parts[0]
    else parts[0] + sep + JoinWith(parts[1..], sep)
  }

  /** Splitting a separator-free string yields that string alone. */
  lemma {:induction false} SplitNoSep(s: string, sep: char)
    requires sep !in s
    ensures Split(s, sep) == [s]
    decreases |s|
  {
    if |s| > 0 {
      SplitNoSep(s[1..], sep);
      assert [s[0]] + s[1..] == s;
    }
  }

  /** A separator splits the text into the pieces of its two sides. */
  lemma {:induction false} SplitAppend(a: string, b: string, sep: char)
    ensures Split(a + [sep] + b, sep) == Split(a, sep) + Split(b, sep)
    decreases |a|
  {
    var s := a + [sep] + b;
    if |a| == 0 {
      assert s[1..] == b;
    } else {
      assert s[1..] == a[1..] + [sep] + b;
      SplitAppend(a[1..], b, sep);
    }
  }

  /** Joining the pieces of a split gives back the original text. */
  lemma {:induction false} JoinSplit(s: string, sep: char)
    ensures Join(Split(s, sep), sep) == s
    decreases |s|
  {
    if |s| > 0 {
      JoinSplit(s[1..], sep);
      var rest := Split(s[1..], sep);
      if s[0] == sep {
        assert Split(s, sep)[1..] == rest;
      } else {
        var parts := Split(s, sep);
        if |rest| == 1 {
          assert parts == [[s[0]] + rest[0]];
        } else {
          assert parts[1..] == rest[1..];
          assert Join(rest, sep) == rest[0] + [sep] + Join(rest[1..], sep);
        }
      }
    }
  }

  /** Splitting the join of separator-free pieces gives back the pieces. */
  lemma {:induction false} SplitJoin(parts: seq<string>, sep: char)
    requires |parts| >= 1
    requires forall k :: 0 <= k < |parts| ==> sep !in parts[k]
    ensures Split(Join(parts, sep), sep) == parts
    decreases |parts|
  {
    SplitNoSep(parts[0], sep);
    if |parts| > 1 {
      SplitJoin(parts[1..], sep);
      SplitAppend(parts[0], Join(parts[1..], sep), sep);
    }
  }

  // ---------------------------------------------------------------------------
  // Digits, number to string, parseInt
  // ---------------------------------------------------------------------------

  predicate IsDigit(c: char) {
    '0' <= c <= '9'
  }

  predicate AllDigits(s: string) {
    forall i :: 0 <= i < |s| ==> IsDigit(s[i])
  }

  function DigitChar(d: nat): (c: char)
    requires d < 10
    ensures IsDigit(c)
  {
    ('0' as int + d) as char
  }

  /** The value of a string of decimal digits. */
  function DigitsValue(d: string): nat
    requires AllDigits(d)
  {
    if |d| == 0 then 0 else DigitsValue(d[..|d| - 1]) * 10 + (d[|d| - 1] as int - '0' as int)
  }

  /** Decimal rendering of a natural number, without leading zeros. */
  function NatToString(n: nat): (r: string)
    ensures |r| >= 1 && AllDigits(r)
    ensures |r| > 1 ==> r[0] != '0'
  {
    if n < 10 then [DigitChar(n)] else NatToString(n / 10) + [DigitChar(n % 10)]
  }

  /** JavaScript's `String(n)` for an integer. */
  function IntToString(n: int): string {
    if n < 0 then ['-'] + NatToString(-n) else NatToString(n)
  }

  lemma {:induction false} NatToStringValue(n: nat)
    ensures DigitsValue(NatToString(n)) == n
  {
    if n >= 10 {
      NatToStringValue(n / 10);
      var a := NatToString(n / 10);
      assert (a + [DigitChar(n % 10)])[..|a|] == a;
    }
  }

  /** The number of leading decimal digits of `s`. */
  function LeadingDigits(s: string): (k: nat)
    ensures k <= |s| && AllDigits(s[..k])
    ensures k < |s| ==> !IsDigit(s[k])
  {
    if |s| > 0 && IsDigit(s[0]) then
      var k := 1 + LeadingDigits(s[1..]);
      assert s[..k] == [s[0]] + s[1..][..k - 1];
      k
    else 0
  }

  lemma LeadingDigitsAll(s: string)
    requires AllDigits(s)
    ensures LeadingDigits(s) == |s|
  {
    if |s| > 0 { LeadingDigitsAll(s[1..]); }
  }

  /** The value of the leading run of digits of `body`, or `None` when it has none. */
  function ParseDigitsPrefix(body: string): Option<int> {
    var k := LeadingDigits(body);
    if k == 0 then None else Some(DigitsValue(body[..k]))
  }

  /** `parseInt` after the leading white space is gone: an optional sign, then digits. */
  function ParseSigned(t: string): Option<int> {
    if |t| > 0 && t[0] == '-' then
      match ParseDigitsPrefix(t[1..])
      case None => None
      case Some(v) => Some(-v)
    else if |t| > 0 && t[0] == '+' then ParseDigitsPrefix(t[1..])
    else ParseDigitsPrefix(t)
  }

  /** `parseInt(s)` (radix 10): skip leading white space, read an optional sign and the
      longest run of digits; `None` is NaN (no digit at all). */
  function ParseInt(s: string): Option<int> {
    ParseSigned(TrimStart(s))
  }

  /** `parseInt(text) || 0`: NaN and zero both give 0. */
  function ParseIntOrZero(s: string): int {
    match ParseInt(s)
    case None => 0
    case Some(v) => v
  }

  lemma ParseDigitsPrefixAll(d: string)
    requires |d| >= 1 && AllDigits(d)
    ensures ParseDigitsPrefix(d) == Some(DigitsValue(d) as int)
  {
    LeadingDigitsAll(d);
    assert d[..|d|] == d;
  }

  /** Trimming leaves alone a string that starts with a non-space character. */
  lemma TrimStartNonSpace(t: string)
    requires |t| > 0 && !IsSpace(t[0])
    ensures TrimStart(t) == t
  {
  }

  lemma ParseIntUnfold(t: string)
    ensures ParseInt(t) == ParseSigned(TrimStart(t))
  {
  }

  /** `parseInt` of a plain digit string is its value. */
  lemma {:induction false} ParseIntDigits(d: string)
    requires |d| >= 1 && AllDigits(d)
    ensures ParseInt(d) == Some(DigitsValue(d) as int)
  {
    TrimStartNonSpace(d);
    ParseIntUnfold(d);
    ParseDigitsPrefixAll(d);
  }

  lemma {:induction false} ParseSignedNeg(d: string)
    requires |d| >= 1 && AllDigits(d)
    ensures ParseSigned(['-'] + d) == Some(-(DigitsValue(d) as int))
  {
    assert (['-'] + d)[1..] == d;
    ParseDigitsPrefixAll(d);
  }

  /** `parseInt` of a minus sign followed by digits is the negated value. */
  lemma {:induction false} ParseIntNegDigits(d: string)
    requires |d| >= 1 && AllDigits(d)
    ensures ParseInt(['-'] + d) == Some(-(DigitsValue(d) as int))
  {
    TrimStartNonSpace(['-'] + d);
    ParseIntUnfold(['-'] + d);
    ParseSignedNeg(d);
  }

  lemma {:induction false} ParseIntOfNegative(n: int)
    requires n < 0
    ensures ParseInt(IntToString(n)) == Some(n)
  {
    var m: nat := -n;
    var d := NatToString(m);
    NatToStringValue(m);
    assert IntToString(n) == ['-'] + d;
    ParseIntNegDigits(d);
  }

  lemma {:induction false} ParseIntOfNatural(n: nat)
    ensures ParseInt(IntToString(n)) == Some(n)
  {
    var d := NatToString(n);
    NatToStringValue(n);
    ParseIntDigits(d);
    assert IntToString(n) == d;
  }

  /** `parseInt` reads back what `String(n)` wrote. */
  lemma {:induction false} ParseIntOfIntToString(n: int)
    ensures ParseInt(IntToString(n)) == Some(n)
  {
    if n < 0 { ParseIntOfNegative(n); } else { ParseIntOfNatural(n); }
  }

  // ---------------------------------------------------------------------------
  // Number(s): which strings convert to a number rather than NaN
  // ---------------------------------------------------------------------------

  predicate IsDigitIn(c: char, radix: char) {
    if radix == 'x' || radix == 'X' then IsDigit(c) || 'a' <= c <= 'f' || 'A' <= c <= 'F'
    else if radix == 'o' || radix == 'O' then '0' <= c <= '7'
    else c == '0' || c == '1'
  }

  /** `0x..`, `0o..`, `0b..` literals (no sign allowed). */
  predicate IsNonDecimalLiteral(t: string) {
    && |t| >= 3 && t[0] == '0'
    && (t[1] in "xXoObB")
    && forall i :: 2 <= i < |t| ==> IsDigitIn(t[i], t[1])
  }

  /** An optional exponent: empty, or `e`/`E`, an optional sign and at least one digit. */
  predicate IsExponentPart(e: string) {
    || e == []
    || (&& (e[0] == 'e' || e[0] == 'E')
        && var x := if |e| > 1 && (e[1] == '+' || e[1] == '-') then e[2..] else e[1..];
        |x| > 0 && AllDigits(x))
  }

  /** Unsigned decimal literal: `Infinity`, or digits with an optional fraction (at least one
      digit in all) and an optional exponent. */
  predicate IsUnsignedDecimal(u: string) {
    || u == "Infinity"
    || (var m := LeadingDigits(u);
        var rest := u[m..];
        if |rest| > 0 && rest[0] == '.' then
          var f := LeadingDigits(rest[1..]);
          (m > 0 || f > 0) && IsExponentPart(rest[1 + f..])
        else
          m > 0 && IsExponentPart(rest))
  }

  /** A trimmed, non-empty string that `Number(...)` converts to a number. */
  predicate IsNumericLiteral(t: string) {
    || IsNonDecimalLiteral(t)
    || (if |t| > 0 && (t[0] == '+' || t[0] == '-') then IsUnsignedDecimal(t[1..]) else IsUnsignedDecimal(t))
  }

  /** `isNaN(s)` for a string: `Number(s)` is NaN. A blank string converts to 0, not NaN. */
  predicate NumberIsNaN(s: string) {
    var t := Trim(s);
    t != [] && !IsNumericLiteral(t)
  }

  // ---------------------------------------------------------------------------
  // Seconds to minutes
  // ---------------------------------------------------------------------------

  /** `Math.ceil(seconds / 60)`: the fewest whole minutes that cover `seconds`. */
  function CeilMinutes(seconds: int): (m: int)
    ensures 60 * (m - 1) < seconds <= 60 * m
  {
    -((-seconds) / 60)
  }

  /** `Math.round(seconds / 60)`: the nearest whole minute, halves rounded up. */
  function RoundMinutes(seconds: int): (m: int)
    ensures 60 * m - 30 <= seconds < 60 * m + 30
  {
    (seconds + 30) / 60
  }

  /** `Math.floor(seconds / 60)`. */
  function FloorMinutes(seconds: int): (m: int)
    ensures 60 * m <= seconds < 60 * m + 60
  {
    seconds / 60
  }

  /** `seconds % 60` with JavaScript's truncating remainder (it takes the sign of `seconds`). */
  function JsRem60(seconds: int): (r: int)
    ensures seconds >= 0 ==> 0 <= r < 60 && (seconds - r) % 60 == 0
    ensures seconds < 0 ==> -60 < r <= 0 && (seconds - r) % 60 == 0
  {
    if seconds >= 0 then seconds % 60 else -((-seconds) % 60)
  }

  /** `str.padStart(2, '0')`. */
  function PadStart2(s: string): (r: string)
    ensures |r| == if |s| >= 2 then |s| else 2
  {
    if |s| >= 2 then s else seq(2 - |s|, _ => '0') + s
  }
}

=== FILE: workout_form.dfy ===
/** The workout builder form: its initial values when editing, validation, the injury-risk
    toggle, and the payload built on save (comma lists parsed, minutes turned into seconds).

    The duration check is modelled twice. `DurationRejected` follows the form's code, which
    lets through text that `parseInt` cannot read (blank text, ".5", "Infinity") because a
    NaN compared with `<= 0` is false. `DurationRejectedCorrected` refuses it. */
module WorkoutForm {
  import opened Wrappers
  import opened Text
  import Lists

  /** The workout passed in to edit, as the screen reads it. */
  datatype ExistingWorkout = ExistingWorkout(
    id: string,
    name: Option<string>,
    description: Option<string>,
    difficulty: Option<string>,
    defaultDuration: Option<int>,
    equipment: Option<seq<string>>,
    tags: Option<seq<string>>,
    injuryRiskIds: Option<seq<string>>)

  /** The form's text fields and selections. */
  datatype Form = Form(
    workoutName: string,
    description: string,
    difficulty: string,
    durationMinutes: string,
    equipmentInput: string,
    tagsInput: string,
    selectedRiskIds: seq<string>)

  /** The seconds-to-minutes text shown when editing: `String(Math.round(d / 60))`. */
  function MinutesText(seconds: int): string {
    IntToString(RoundMinutes(seconds))
  }

  /** The form's starting values: empty for a new workout; the workout's values, with the
      duration in whole minutes and the lists joined by ", ", when editing. */
  function InitialForm(existing: Option<ExistingWorkout>): (f: Form)
    ensures existing.None? ==> f == Form("", "", "all_levels", "", "", "", [])
    ensures existing.Some? ==>
              && f.workoutName == (if TruthyStr(existing.value.name) then existing.value.name.value else "")
              && f.description == (if TruthyStr(existing.value.description) then existing.value.description.value else "")
              && f.difficulty == (if TruthyStr(existing.value.difficulty) then existing.value.difficulty.value else "all_levels")
    ensures existing.Some? && TruthyInt(existing.value.defaultDuration) ==>
              f.durationMinutes == MinutesText(existing.value.defaultDuration.value)
    ensures existing.Some? && !TruthyInt(existing.value.defaultDuration) ==> f.durationMinutes == ""
    ensures existing.Some? && existing.value.equipment.Some? ==>
              f.equipmentInput == JoinWith(existing.value.equipment.value, ", ")
    ensures existing.Some? && existing.value.equipment.None? ==> f.equipmentInput == ""
    ensures existing.Some? && existing.value.tags.Some? ==>
              f.tagsInput == JoinWith(existing.value.tags.value, ", ")
    ensures existing.Some? && existing.value.tags.None? ==> f.tagsInput == ""
    ensures existing.Some? ==>
              f.selectedRiskIds == (if existing.value.injuryRiskIds.Some? then existing.value.injuryRiskIds.value else [])
  {
    match existing
    case None => Form("", "", "all_levels", "", "", "", [])
    case Some(w) =>
      Form(StrOr(w.name, ""), StrOr(w.description, ""), StrOr(w.difficulty, "all_levels"),
           if TruthyInt(w.defaultDuration) then MinutesText(w.defaultDuration.value) else "",
           match w.equipment case None => "" case Some(e) => JoinWith(e, ", "),
           match w.tags case None => "" case Some(t) => JoinWith(t, ", "),
           match w.injuryRiskIds case None => [] case Some(ids) => ids)
  }

  // ---------------------------------------------------------------------------
  // Validation
  // ---------------------------------------------------------------------------

  datatype NameError = NameRequired | NameTooShort

  /** The name check: blank, then shorter than three UTF-16 code units once trimmed. */
  function NameProblem(name: string): (e: Option<NameError>)
    ensures e.None? <==> JsLength(Trim(name)) >= 3
    ensures e == Some(NameRequired) <==> IsBlank(name)
    ensures e == Some(NameTooShort) <==> 0 < JsLength(Trim(name)) < 3
  {
    if Trim(name) == "" then Some(NameRequired)
    else if JsLength(Trim(name)) < 3 then Some(NameTooShort)
    else None
  }

  /** The length check counts code units, not characters: a trimmed name of one emoji and
      one letter passes. */
  lemma AstralNamePasses()
    ensures |Trim("\U{1F600}a")| == 2 && NameProblem("\U{1F600}a").None?
  {
    AstralCountsTwice();
    TrimTrimmed("\U{1F600}a");
  }

  /** The duration check as written: empty text, text `Number` cannot read, or text whose
      `parseInt` is zero or negative. A `parseInt` of NaN is not refused. */
  predicate DurationRejected(text: string) {
    text == "" || NumberIsNaN(text) || (ParseInt(text).Some? && ParseInt(text).value <= 0)
  }

  /** The duration check as the error message says: refused unless the text is a number and
      `parseInt` reads a whole number of minutes greater than zero. */
  predicate DurationRejectedCorrected(text: string) {
    text == "" || NumberIsNaN(text) || ParseInt(text).None? || ParseInt(text).value <= 0
  }

  /** The corrected check refuses everything the written one does, and what it accepts has a
      positive `parseInt`. */
  lemma CorrectedDurationIsStricter(text: string)
    ensures DurationRejected(text) ==> DurationRejectedCorrected(text)
    ensures !DurationRejectedCorrected(text) ==> ParseInt(text).Some? && ParseInt(text).value > 0
  {
  }

  /** A digit string is a number for `Number(...)`. */
  lemma DigitsAreNumeric(d: string)
    requires |d| >= 1 && AllDigits(d)
    ensures !NumberIsNaN(d)
  {
    assert !IsSpace(d[0]) && !IsSpace(d[|d| - 1]);
    TrimTrimmed(d);
    assert IsUnsignedDecimal(d) by {
      LeadingDigitsAll(d);
      assert d[|d|..] == [];
    }
    assert IsNumericLiteral(d);
  }

  /** Both checks accept the decimal text of every positive whole number of minutes. */
  lemma PositiveMinutesAccepted(m: int)
    requires m > 0
    ensures !DurationRejected(IntToString(m)) && !DurationRejectedCorrected(IntToString(m))
  {
    ParseIntOfIntToString(m);
    DigitsAreNumeric(NatToString(m));
  }

  /** As written, a blank duration passes the check although `parseInt` reads nothing from it. */
  lemma BlankDurationPasses()
    ensures !DurationRejected(" ") && ParseInt(" ").None?
    ensures DurationRejectedCorrected(" ")
  {
    assert Trim(" ") == [];
    assert TrimStart(" ") == [];
    assert LeadingDigits([]) == 0;
  }

  datatype FormErrors = FormErrors(workoutName: Option<NameError>, durationMinutes: bool)

  /** `validateForm`, with the duration check of the chosen variant. */
  function ValidateForm(f: Form, corrected: bool): (e: FormErrors)
    ensures e.workoutName == NameProblem(f.workoutName)
    ensures e.durationMinutes == if corrected then DurationRejectedCorrected(f.durationMinutes)
                                 else DurationRejected(f.durationMinutes)
  {
    FormErrors(NameProblem(f.workoutName),
               if corrected then DurationRejectedCorrected(f.durationMinutes) else DurationRejected(f.durationMinutes))
  }

  predicate NoErrors(e: FormErrors) {
    e.workoutName.None? && !e.durationMinutes
  }

  // ---------------------------------------------------------------------------
  // Injury risks
  // ---------------------------------------------------------------------------

  /** A risk id is its own key. */
  function Id(x: string): string {
    x
  }

  lemma HasKeyId(xs: seq<string>, x: string)
    ensures Lists.HasKey(xs, x, Id) <==> x in xs
  {
    if x in xs {
      var i :| 0 <= i < |xs| && xs[i] == x;
      assert Id(xs[i]) == x;
    }
  }

  /** `toggleRisk(id)`: remove the id if selected, append it otherwise. */
  function ToggleRisk(ids: seq<string>, id: string): (r: seq<string>)
    ensures id in ids ==> id !in r && |r| < |ids|
    ensures id in ids ==> r == Lists.RemoveKey(ids, id, Id)
    ensures id !in ids ==> r == ids + [id]
    ensures forall x :: x != id ==> (x in r <==> x in ids)
  {
    HasKeyId(ids, id);
    var r := Lists.Toggle(ids, id, Id);
    HasKeyId(r, id);
    r
  }

  /** Toggling a risk twice gives back the selection. */
  lemma ToggleRiskTwice(ids: seq<string>, id: string)
    requires id !in ids
    ensures ToggleRisk(ToggleRisk(ids, id), id) == ids
  {
    HasKeyId(ids, id);
    Lists.ToggleTwiceAbsent(ids, id, Id);
  }

  // ---------------------------------------------------------------------------
  // Comma lists
  // ---------------------------------------------------------------------------

  function NonEmpty(s: string): bool {
    |s| > 0
  }

  /** The equipment list: split on commas, each piece trimmed, empty pieces dropped. */
  function ParseList(input: string): seq<string> {
    Lists.Filter(Lists.Map(Split(input, ','), Trim), NonEmpty)
  }

  /** Every item of a parsed list is non-empty, trimmed and free of commas. */
  lemma ParseListItems(input: string)
    ensures forall i :: 0 <= i < |ParseList(input)| ==>
              ParseList(input)[i] != "" && IsTrimmed(ParseList(input)[i]) && ',' !in ParseList(input)[i]
  {
    var pieces := Split(input, ',');
    var t := Lists.Map(pieces, Trim);
    var r := Lists.Filter(t, NonEmpty);
    forall k | 0 <= k < |t| ensures IsTrimmed(t[k]) && ',' !in t[k] {
      TrimInside(pieces[k], ',');
    }
    forall i | 0 <= i < |r| ensures r[i] != "" && IsTrimmed(r[i]) && ',' !in r[i] {
      assert r[i] in r && NonEmpty(r[i]);
      assert r[i] in t;
    }
  }

  /** A character missing from a string is missing from its trimmed form. */
  lemma TrimInside(s: string, c: char)
    requires c !in s
    ensures c !in Trim(s)
  {
    var t := TrimStart(s);
    assert forall x :: x in t ==> x in s;
    assert forall x :: x in TrimEnd(t) ==> x in t;
  }

  /** The tags list: like the equipment list, each piece also lower-cased. */
  function ParseTags(input: string): seq<string> {
    Lists.Filter(Lists.Map(Split(input, ','), LowerTrim), NonEmpty)
  }


  /** The tags are the equipment-style list, lower-cased: each tag is non-empty, trimmed and
      lower-case. */
  lemma ParseTagsIsLoweredList(input: string)
    ensures ParseTags(input) == Lists.Map(ParseList(input), ToLower)
    ensures forall i :: 0 <= i < |ParseTags(input)| ==>
              ParseTags(input)[i] != "" && IsTrimmed(ParseTags(input)[i]) && IsLower(ParseTags(input)[i])
  {
    var pieces := Split(input, ',');
    var t := Lists.Map(pieces, Trim);
    var lowered := Lists.Map(pieces, LowerTrim);
    forall i | 0 <= i < |pieces| ensures lowered[i] == Lists.Map(t, ToLower)[i] {
      assert lowered[i] == LowerTrim(pieces[i]) && t[i] == Trim(pieces[i]);
    }
    assert lowered == Lists.Map(t, ToLower);
    assert ParseTags(input) == Lists.Filter(lowered, NonEmpty);
    forall x: string ensures NonEmpty(ToLower(x)) == NonEmpty(x) {
      assert |ToLower(x)| == |x|;
    }
    Lists.FilterMapCommute(t, ToLower, NonEmpty, NonEmpty);
    var r := ParseList(input);
    ParseListItems(input);
    forall i | 0 <= i < |r| ensures IsTrimmed(ToLower(r[i])) && IsLower(ToLower(r[i])) {
      ToLowerKeepsTrimmed(r[i]);
      ToLowerIsLower(r[i]);
    }
  }

  /** The pieces of `items` joined by ", ", with the space left after each comma. */
  function Spaced(items: seq<string>): (r: seq<string>)
    requires |items| >= 1
    ensures |r| == |items| && r[0] == items[0]
    ensures forall i :: 1 <= i < |items| ==> r[i] == " " + items[i]
  {
    seq(|items|, i requires 0 <= i < |items| => if i == 0 then items[0] else " " + items[i])
  }

  lemma {:induction false} JoinPrefix(p: string, parts: seq<string>, sep: char)
    requires |parts| >= 1
    ensures p + Join(parts, sep) == Join([p + parts[0]] + parts[1..], sep)
  {
    var q := [p + parts[0]] + parts[1..];
    assert q[1..] == parts[1..];
  }

  /** Joining with ", " is joining the spaced pieces with ",". */
  lemma {:induction false} JoinWithCommaSpace(items: seq<string>)
    requires |items| >= 1
    ensures JoinWith(items, ", ") == Join(Spaced(items), ',')
    decreases |items|
  {
    if |items| > 1 {
      var rest := items[1..];
      JoinWithCommaSpace(rest);
      var sr := Spaced(rest);
      JoinPrefix(" ", sr, ',');
      var tail := [" " + sr[0]] + sr[1..];
      assert tail == Spaced(items)[1..];
      assert ", " + JoinWith(rest, ", ") == [','] + (" " + JoinWith(rest, ", "));
    }
  }

  /** Trimming the spaced pieces gives back the items. */
  lemma TrimSpaced(items: seq<string>)
    requires |items| >= 1
    requires forall i :: 0 <= i < |items| ==> IsTrimmed(items[i])
    ensures Lists.Map(Spaced(items), Trim) == items
  {
    var sp := Spaced(items);
    forall k | 0 <= k < |sp| ensures Trim(sp[k]) == items[k] {
      TrimTrimmed(items[k]);
      if k > 0 {
        TrimLeadingSpace(' ', items[k]);
        assert sp[k] == [' '] + items[k];
      }
    }
  }

  /** An empty input is the empty list. */
  lemma ParseListOfEmpty()
    ensures ParseList("") == []
  {
    assert Split("", ',') == [""];
    var t := Lists.Map([""], Trim);
    assert t == [""];
    assert t[..0] == [];
  }

  /** Editing a workout and saving without touching the equipment gives back the same list,
      when its items are non-empty, trimmed and free of commas. */
  lemma EquipmentRoundTrip(items: seq<string>)
    requires forall i :: 0 <= i < |items| ==> items[i] != "" && IsTrimmed(items[i]) && ',' !in items[i]
    ensures ParseList(JoinWith(items, ", ")) == items
  {
    if |items| == 0 {
      ParseListOfEmpty();
    } else {
      var sp := Spaced(items);
      SplitJoinWith(items);
      TrimSpaced(items);
      assert Lists.Map(Split(JoinWith(items, ", "), ','), Trim) == items;
      forall i | 0 <= i < |items| ensures NonEmpty(items[i]) {}
      Lists.FilterAll(items, NonEmpty);
    }
  }

  /** Editing a workout and saving without touching the tags gives back the same tags, when
      they are non-empty, trimmed, lower-case and free of commas, as the server stores them. */
  lemma TagsRoundTrip(tags: seq<string>)
    requires forall i :: 0 <= i < |tags| ==>
               tags[i] != "" && IsTrimmed(tags[i]) && IsLower(tags[i]) && ',' !in tags[i]
    ensures ParseTags(JoinWith(tags, ", ")) == tags
  {
    EquipmentRoundTrip(tags);
    ParseTagsIsLoweredList(JoinWith(tags, ", "));
    forall i | 0 <= i < |tags| ensures ToLower(tags[i]) == tags[i] {
      ToLowerOfLower(tags[i]);
    }
    assert Lists.Map(tags, ToLower) == tags;
  }

  /** Splitting a ", "-joined list on commas gives the items, each after the first with its
      leading space. */
  lemma SplitJoinWith(items: seq<string>)
    requires |items| >= 1
    requires forall i :: 0 <= i < |items| ==> ',' !in items[i]
    ensures Split(JoinWith(items, ", "), ',') == Spaced(items)
  {
    var sp := Spaced(items);
    JoinWithCommaSpace(items);
    forall k | 0 <= k < |sp| ensures ',' !in sp[k] {
      if k > 0 {
        assert sp[k] == [' '] + items[k];
      }
    }
    SplitJoin(sp, ',');
  }

  // ---------------------------------------------------------------------------
  // Saving
  // ---------------------------------------------------------------------------

  /** The body `handleSave` sends; `defaultDuration` is none when `parseInt` gave NaN (sent as
      null). */
  datatype WorkoutPayload = WorkoutPayload(
    name: string,
    description: Option<string>,
    defaultDuration: Option<int>,
    difficulty: string,
    equipment: seq<string>,
    tags: seq<string>,
    injuryRiskIds: seq<string>)

  /** `parseInt(durationMinutes) * 60`. */
  function DurationSeconds(text: string): (r: Option<int>)
    ensures r.Some? <==> ParseInt(text).Some?
    ensures r.Some? ==> r.value == 60 * ParseInt(text).value
  {
    match ParseInt(text)
    case None => None
    case Some(m) => Some(m * 60)
  }

  /** `handleSave` up to the request: refused with the form's errors, or the payload with the
      trimmed name, the trimmed description or none, the duration in seconds, and the parsed
      lists. */
  function SaveWorkout(f: Form, corrected: bool): (r: Result<WorkoutPayload, FormErrors>)
    ensures r.Err? <==> !NoErrors(ValidateForm(f, corrected))
    ensures r.Err? ==> r.error == ValidateForm(f, corrected)
    ensures r.Ok? ==> JsLength(r.value.name) >= 3 && r.value.name == Trim(f.workoutName)
    ensures r.Ok? ==> r.value.defaultDuration == DurationSeconds(f.durationMinutes)
    ensures r.Ok? ==> r.value.description == (if IsBlank(f.description) then None else Some(Trim(f.description)))
    ensures r.Ok? ==> r.value.difficulty == f.difficulty && r.value.injuryRiskIds == f.selectedRiskIds
    ensures r.Ok? && corrected ==> r.value.defaultDuration.Some? && r.value.defaultDuration.value > 0
  {
    var e := ValidateForm(f, corrected);
    if !NoErrors(e) then Err(e)
    else
      CorrectedDurationIsStricter(f.durationMinutes);
      var d := Trim(f.description);
      Ok(WorkoutPayload(Trim(f.workoutName), if d == "" then None else Some(d),
                        DurationSeconds(f.durationMinutes), f.difficulty,
                        ParseList(f.equipmentInput), ParseTags(f.tagsInput), f.selectedRiskIds))
  }

  /** As written, a well-named workout with a blank duration is saved with no duration. */
  lemma BlankDurationIsSaved(f: Form)
    requires JsLength(Trim(f.workoutName)) >= 3 && f.durationMinutes == " "
    ensures SaveWorkout(f, false).Ok? && SaveWorkout(f, false).value.defaultDuration.None?
    ensures SaveWorkout(f, true).Err?
  {
    BlankDurationPasses();
  }

  /** Editing a workout of at least 30 seconds and saving the untouched duration sends the
      nearest whole number of minutes, which is the stored value when it was whole minutes. */
  lemma EditedDurationRoundTrip(w: ExistingWorkout)
    requires w.defaultDuration.Some? && w.defaultDuration.value >= 30
    ensures var text := InitialForm(Some(w)).durationMinutes;
      var sent := DurationSeconds(text);
      && !DurationRejectedCorrected(text)
      && sent.Some? && w.defaultDuration.value - 30 < sent.value <= w.defaultDuration.value + 30
      && (w.defaultDuration.value % 60 == 0 ==> sent == w.defaultDuration)
  {
    var d := w.defaultDuration.value;
    var m := RoundMinutes(d);
    assert InitialForm(Some(w)).durationMinutes == IntToString(m);
    PositiveMinutesAccepted(m);
    ParseIntOfIntToString(m);
    assert DurationSeconds(IntToString(m)) == Some(60 * m);
    assert d - 30 < 60 * m <= d + 30;
    if d % 60 == 0 {
      var q := d / 60;
      assert d == 60 * q;
      assert -30 < 60 * (m - q) <= 30;
      assert m == q;
    }
  }
}

=== FILE: workout_routes.dfy ===
/** The workout library routes: create, update and delete with their guards, tag
    normalisation, and the severity order of injury risks. Each write route runs in a
    transaction, so a refused or failed request leaves the tables as they were. */
module WorkoutRoutes {
  import opened Wrappers
  import opened Text
  import Lists
  import opened Database

  /** The request body of POST and PUT. `tags` and `injury_risk_ids` distinguish absent
      (`Undefined`), present but not an array (`Null`), and a given list. */
  datatype WorkoutBody = WorkoutBody(
    name: Option<string>,
    description: Option<string>,
    defaultDuration: Option<int>,
    difficulty: Option<string>,
    equipment: Option<seq<string>>,
    tags: Field<seq<string>>,
    injuryRiskIds: Field<seq<string>>)

  const Difficulties: seq<string> := ["beginner", "intermediate", "advanced", "all_levels"]

  const NameMessage := "Workout name is required and must be at least 3 characters"
  const DurationMessage := "Default duration must be greater than 0"
  const DifficultyMessage := "Invalid difficulty level"
  const DuplicateMessage := "A workout with this name already exists"
  const InUseMessage := "Cannot delete workout - it is currently used in one or more classes"

  predicate NameAccepted(body: WorkoutBody) {
    TruthyStr(body.name) && JsLength(Trim(body.name.value)) >= 3
  }

  predicate DurationAccepted(body: WorkoutBody) {
    TruthyInt(body.defaultDuration) && body.defaultDuration.value > 0
  }

  predicate DifficultyAccepted(body: WorkoutBody) {
    !TruthyStr(body.difficulty) || body.difficulty.value in Difficulties
  }

  /** The three body checks, in order; the message of the first that fails. */
  function Validate(body: WorkoutBody): (r: Option<string>)
    ensures r.None? <==> NameAccepted(body) && DurationAccepted(body) && DifficultyAccepted(body)
    ensures r == Some(NameMessage) <==> !NameAccepted(body)
    ensures r == Some(DurationMessage) <==> NameAccepted(body) && !DurationAccepted(body)
    ensures r == Some(DifficultyMessage) <==> NameAccepted(body) && DurationAccepted(body) && !DifficultyAccepted(body)
  {
    if !NameAccepted(body) then Some(NameMessage)
    else if !DurationAccepted(body) then Some(DurationMessage)
    else if !DifficultyAccepted(body) then Some(DifficultyMessage)
    else None
  }

  /** `LOWER(name) = LOWER($1)`, optionally ignoring the workout being updated. */
  predicate NameTaken(db: Db, name: string, except: Option<string>) {
    exists id :: id in db.workouts && except != Some(id) && ToLower(db.workouts[id].name) == ToLower(name)
  }

  predicate NotBlank(t: string) {
    Trim(t) != ""
  }

  /** The stored form of a tag list: blank tags skipped, the others trimmed and lower-cased,
      in the order given. */
  function NormalizeTags(tags: seq<string>): (r: seq<string>)
    ensures |r| <= |tags|
    ensures forall i :: 0 <= i < |r| ==> r[i] != "" && IsTrimmed(r[i]) && IsLower(r[i])
  {
    var kept := Lists.Filter(tags, NotBlank);
    var r := Lists.Map(kept, LowerTrim);
    assert forall i :: 0 <= i < |r| ==> r[i] == LowerTrim(kept[i]) && NotBlank(kept[i]);
    r
  }

  /** Normalising a normalised list changes nothing; a tag survives normalisation exactly
      when it is not blank. */
  lemma {:induction false} NormalizeTagsIdempotent(tags: seq<string>)
    ensures NormalizeTags(NormalizeTags(tags)) == NormalizeTags(tags)
  {
    var r := NormalizeTags(tags);
    forall i | 0 <= i < |r| ensures NotBlank(r[i]) && LowerTrim(r[i]) == r[i] {
      TrimTrimmed(r[i]);
      ToLowerOfLower(r[i]);
    }
    Lists.FilterAll(r, NotBlank);
    assert Lists.Map(r, LowerTrim) == r;
  }

  /** `tags !== undefined`: a given list replaces the stored tags; anything else present but
      not an array clears them; an absent field keeps them. */
  function ReplacedTags(stored: seq<string>, given: Field<seq<string>>): seq<string> {
    match given
    case Undefined => stored
    case Null => []
    case Given(ts) => NormalizeTags(ts)
  }

  /** The same rule for injury risks, which are stored as given. */
  function ReplacedRisks(stored: seq<string>, given: Field<seq<string>>): seq<string> {
    match given
    case Undefined => stored
    case Null => []
    case Given(ids) => ids
  }

  /** Some given risk id is not in `injury_risks`: the insert violates the foreign key. */
  predicate UnknownRisk(db: Db, ids: seq<string>) {
    exists i :: 0 <= i < |ids| && ids[i] !in db.injuryRisks
  }

  /** The row POST inserts for a body that passed validation. */
  function NewRow(body: WorkoutBody, user: User): (row: WorkoutRow)
    requires NameAccepted(body) && DurationAccepted(body)
    ensures row.name == Trim(body.name.value) && row.createdBy == user.id
    ensures row.approvalStatus == "pending" && row.defaultDuration == body.defaultDuration.value
    ensures row.description == (if TruthyStr(body.description) then body.description else None)
    ensures row.difficulty == (if TruthyStr(body.difficulty) then body.difficulty.value else "all_levels")
    ensures row.equipment == (if body.equipment.Some? then body.equipment.value else [])
    ensures row.tags == (if body.tags.Given? then NormalizeTags(body.tags.value) else [])
    ensures row.injuryRiskIds == (if body.injuryRiskIds.Given? then body.injuryRiskIds.value else [])
  {
    WorkoutRow(Trim(body.name.value), StrOrOpt(body.description, None), body.defaultDuration.value,
               StrOr(body.difficulty, "all_levels"),
               match body.equipment case None => [] case Some(e) => e,
               user.id, "pending", false, None, None,
               ReplacedTags([], body.tags), ReplacedRisks([], body.injuryRiskIds))
  }

  /** POST /api/workouts with `freshId` the id the database assigns. */
  function Create(db: Db, user: User, body: WorkoutBody, freshId: string): (r: (Reply<WorkoutRow>, Db))
    requires freshId !in db.workouts
    ensures r.0.Success? <==> Validate(body).None? && !NameTaken(db, Trim(body.name.value), None)
                              && !UnknownRisk(db, ReplacedRisks([], body.injuryRiskIds))
    ensures r.0.Failure? ==> r.1 == db
    ensures Validate(body).Some? ==> r.0 == Failure(400, Validate(body).value)
    ensures Validate(body).None? && NameTaken(db, Trim(body.name.value), None) ==> r.0 == Failure(409, DuplicateMessage)
    ensures r.0.Success? ==>
              && r.0.status == 201
              && r.1 == db.(workouts := db.workouts[freshId := r.0.value])
              && r.0.value.name == Trim(body.name.value) && r.0.value.createdBy == user.id
              && r.0.value.approvalStatus == "pending" && r.0.value.defaultDuration > 0
              && r.0.value.difficulty in Difficulties
    ensures r.0.Success? ==>
              && r.0.value.description == (if TruthyStr(body.description) then body.description else None)
              && r.0.value.defaultDuration == body.defaultDuration.value
              && r.0.value.difficulty == (if TruthyStr(body.difficulty) then body.difficulty.value else "all_levels")
              && r.0.value.equipment == (if body.equipment.Some? then body.equipment.value else [])
              && r.0.value.tags == (if body.tags.Given? then NormalizeTags(body.tags.value) else [])
              && r.0.value.injuryRiskIds == (if body.injuryRiskIds.Given? then body.injuryRiskIds.value else [])
    ensures r.0.Success? ==> forall i :: 0 <= i < |r.0.value.tags| ==>
              r.0.value.tags[i] != "" && IsTrimmed(r.0.value.tags[i]) && IsLower(r.0.value.tags[i])
  {
    match Validate(body)
    case Some(m) => (Failure(400, m), db)
    case None =>
      if NameTaken(db, Trim(body.name.value), None) then (Failure(409, DuplicateMessage), db)
      else
        var row := NewRow(body, user);
        if UnknownRisk(db, row.injuryRiskIds) then (Failure(500, "Failed to create workout"), db)
        else (Success(201, row), db.(workouts := db.workouts[freshId := row]))
  }

  /** PUT /api/workouts/:id. Any signed-in user may update any workout. */
  function Update(db: Db, user: User, id: string, body: WorkoutBody): (r: (Reply<WorkoutRow>, Db))
    ensures id !in db.workouts ==> r == (Failure(404, "Workout not found"), db)
    ensures r.0.Failure? ==> r.1 == db
    ensures id in db.workouts && Validate(body).Some? ==> r.0 == Failure(400, Validate(body).value)
    ensures r.0.Success? <==> id in db.workouts && Validate(body).None?
                              && !NameTaken(db, Trim(body.name.value), Some(id))
                              && !UnknownRisk(db, ReplacedRisks(db.workouts[id].injuryRiskIds, body.injuryRiskIds))
    ensures r.0.Success? ==>
              && r.1 == db.(workouts := db.workouts[id := r.0.value])
              && r.0.value.name == Trim(body.name.value)
              && r.0.value.createdBy == db.workouts[id].createdBy
              && r.0.value.approvalStatus == db.workouts[id].approvalStatus
              && r.0.value.tags == ReplacedTags(db.workouts[id].tags, body.tags)
              && r.0.value.injuryRiskIds == ReplacedRisks(db.workouts[id].injuryRiskIds, body.injuryRiskIds)
    ensures r.0.Success? ==>
              && r.0.value.description == (if TruthyStr(body.description) then body.description else None)
              && r.0.value.defaultDuration == body.defaultDuration.value
              && r.0.value.difficulty == (if TruthyStr(body.difficulty) then body.difficulty.value else "all_levels")
              && r.0.value.equipment == (if body.equipment.Some? then body.equipment.value else [])
    ensures r.0.Success? ==>
              r.0.value == db.workouts[id].(name := r.0.value.name, description := r.0.value.description,
                                            defaultDuration := r.0.value.defaultDuration,
                                            difficulty := r.0.value.difficulty, equipment := r.0.value.equipment,
                                            tags := r.0.value.tags, injuryRiskIds := r.0.value.injuryRiskIds)
  {
    if id !in db.workouts then (Failure(404, "Workout not found"), db)
    else match Validate(body)
      case Some(m) => (Failure(400, m), db)
      case None =>
        if NameTaken(db, Trim(body.name.value), Some(id)) then (Failure(409, DuplicateMessage), db)
        else
          var old_ := db.workouts[id];
          var row := old_.(name := Trim(body.name.value),
                           description := StrOrOpt(body.description, None),
                           defaultDuration := body.defaultDuration.value,
                           difficulty := StrOr(body.difficulty, "all_levels"),
                           equipment := match body.equipment case None => [] case Some(e) => e,
                           tags := ReplacedTags(old_.tags, body.tags),
                           injuryRiskIds := ReplacedRisks(old_.injuryRiskIds, body.injuryRiskIds));
          if UnknownRisk(db, row.injuryRiskIds) then (Failure(500, "Failed to update workout"), db)
          else (Success(200, row), db.(workouts := db.workouts[id := row]))
  }

  /** DELETE /api/workouts/:id: unknown ids are 404, workouts some class lists are 409. */
  function Delete(db: Db, id: string): (r: (Reply<string>, Db))
    ensures id !in db.workouts ==> r == (Failure(404, "Workout not found"), db)
    ensures id in db.workouts && UsedInClass(db, id) ==> r == (Failure(409, InUseMessage), db)
    ensures r.0.Success? <==> id in db.workouts && !UsedInClass(db, id)
    ensures r.0.Success? ==> r.0.value == id && r.1 == db.(workouts := db.workouts - {id})
  {
    if id !in db.workouts then (Failure(404, "Workout not found"), db)
    else if UsedInClass(db, id) then (Failure(409, InUseMessage), db)
    else (Success(200, id), db.(workouts := db.workouts - {id}))
  }

  // ---------------------------------------------------------------------------
  // Invariants over the workout table
  // ---------------------------------------------------------------------------

  /** No two workouts share a name up to case. */
  predicate UniqueNames(db: Db) {
    UniqueIn(db.workouts)
  }

  predicate UniqueIn(ws: map<string, WorkoutRow>) {
    forall a, b :: a in ws && b in ws && a != b ==> ToLower(ws[a].name) != ToLower(ws[b].name)
  }

  /** Storing a row under `id` keeps names unique when no other workout has its name. */
  lemma PutKeepsUnique(ws: map<string, WorkoutRow>, id: string, row: WorkoutRow)
    requires UniqueIn(ws)
    requires forall a :: a in ws && a != id ==> ToLower(ws[a].name) != ToLower(row.name)
    ensures UniqueIn(ws[id := row])
  {
    var w := ws[id := row];
    forall a, b | a in w && b in w && a != b ensures ToLower(w[a].name) != ToLower(w[b].name) {
      if a != id && b != id {
        assert w[a] == ws[a] && w[b] == ws[b];
      }
    }
  }

  /** Creating a workout keeps names unique. */
  lemma CreateKeepsNamesUnique(db: Db, user: User, body: WorkoutBody, freshId: string)
    requires UniqueNames(db) && freshId !in db.workouts
    ensures UniqueNames(Create(db, user, body, freshId).1)
  {
    var c := Create(db, user, body, freshId);
    if c.0.Success? {
      var n := c.0.value.name;
      assert !NameTaken(db, n, None);
      assert forall a :: a in db.workouts ==> ToLower(db.workouts[a].name) != ToLower(n);
      assert c.1.workouts == db.workouts[freshId := c.0.value];
      PutKeepsUnique(db.workouts, freshId, c.0.value);
    }
  }

  /** Updating a workout keeps names unique: its own name is the only one the check skips. */
  lemma UpdateKeepsNamesUnique(db: Db, user: User, id: string, body: WorkoutBody)
    requires UniqueNames(db)
    ensures UniqueNames(Update(db, user, id, body).1)
  {
    var u := Update(db, user, id, body);
    if u.0.Success? {
      var n := u.0.value.name;
      assert !NameTaken(db, n, Some(id));
      assert forall a :: a in db.workouts && a != id ==> ToLower(db.workouts[a].name) != ToLower(n);
      assert u.1.workouts == db.workouts[id := u.0.value];
      PutKeepsUnique(db.workouts, id, u.0.value);
    }
  }

  /** Once a workout is created, another with the same name, whatever its case or the white
      space around it, is refused with 409. */
  lemma SameNameIsRefused(db: Db, user: User, body: WorkoutBody, freshId: string, again: WorkoutBody, otherId: string)
    requires freshId !in db.workouts && Create(db, user, body, freshId).0.Success?
    requires Validate(again).None? && ToLower(Trim(again.name.value)) == ToLower(Trim(body.name.value))
    requires otherId !in Create(db, user, body, freshId).1.workouts
    ensures Create(Create(db, user, body, freshId).1, user, again, otherId).0 == Failure(409, DuplicateMessage)
  {
    var db1 := Create(db, user, body, freshId).1;
    assert db1.workouts[freshId].name == Trim(body.name.value);
    assert NameTaken(db1, Trim(again.name.value), None);
  }

  /** An update that leaves `tags` and `injury_risk_ids` out keeps the stored ones. */
  lemma UpdateWithoutRelationsKeepsThem(db: Db, user: User, id: string, body: WorkoutBody)
    requires body.tags.Undefined? && body.injuryRiskIds.Undefined?
    requires Update(db, user, id, body).0.Success?
    ensures Update(db, user, id, body).0.value.tags == db.workouts[id].tags
    ensures Update(db, user, id, body).0.value.injuryRiskIds == db.workouts[id].injuryRiskIds
  {
  }

  /** Unlike tags and risks, the columns of the `UPDATE` are always written: an update that
      leaves out the description or the equipment clears them, and one that leaves out the
      difficulty resets it to all_levels, whatever was stored. */
  lemma UpdateWithoutColumnsResetsThem(db: Db, user: User, id: string, body: WorkoutBody)
    requires body.description.None? && body.equipment.None? && body.difficulty.None?
    requires Update(db, user, id, body).0.Success?
    ensures Update(db, user, id, body).0.value.description.None?
    ensures Update(db, user, id, body).0.value.equipment == []
    ensures Update(db, user, id, body).0.value.difficulty == "all_levels"
    ensures Update(db, user, id, body).0.value.createdBy == db.workouts[id].createdBy
  {
  }

  /** A deletion never leaves a class pointing at a missing workout. */
  lemma DeleteKeepsLinksIntact(db: Db, id: string)
    requires LinksIntact(db)
    ensures LinksIntact(Delete(db, id).1)
  {
    var r := Delete(db, id);
    if r.0.Success? {
      assert !UsedInClass(db, id);
      assert forall cid, i :: cid in db.links && 0 <= i < |db.links[cid]| ==> db.links[cid][i].workoutId != id;
    }
  }

  // ---------------------------------------------------------------------------
  // Injury risks by severity
  // ---------------------------------------------------------------------------

  datatype Risk = Risk(id: string, name: string, severity: string)

  /** `CASE severity WHEN 'high' THEN 1 WHEN 'medium' THEN 2 WHEN 'low' THEN 3 ELSE 4 END`. */
  function SeverityRank(severity: string): (k: int)
    ensures 1 <= k <= 4
    ensures k == 1 <==> severity == "high"
    ensures k == 2 <==> severity == "medium"
    ensures k == 3 <==> severity == "low"
  {
    if severity == "high" then 1
    else if severity == "medium" then 2
    else if severity == "low" then 3
    else 4
  }

  function Rank(r: Risk): int {
    SeverityRank(r.severity)
  }

  /** The risks of severity rank `k`, in the given order. */
  function OfRank(rs: seq<Risk>, k: int): (r: seq<Risk>)
    ensures forall i :: 0 <= i < |r| ==> Rank(r[i]) == k
    decreases |rs|
  {
    if |rs| == 0 then []
    else (if Rank(rs[0]) == k then [rs[0]] else []) + OfRank(rs[1..], k)
  }

  /** The risks ordered by severity rank, high first; ties keep the given order. */
  function BySeverity(rs: seq<Risk>): seq<Risk> {
    OfRank(rs, 1) + OfRank(rs, 2) + OfRank(rs, 3) + OfRank(rs, 4)
  }

  predicate SortedByRank(rs: seq<Risk>) {
    forall i, j :: 0 <= i < j < |rs| ==> Rank(rs[i]) <= Rank(rs[j])
  }

  /** The ordered list holds exactly the given risks. */
  lemma BySeverityPermutes(rs: seq<Risk>)
    ensures multiset(BySeverity(rs)) == multiset(rs)
  {
    forall x ensures multiset(BySeverity(rs))[x] == multiset(rs)[x] {
      OfRankCount(rs, 1, x);
      OfRankCount(rs, 2, x);
      OfRankCount(rs, 3, x);
      OfRankCount(rs, 4, x);
      var a, b, c, d := OfRank(rs, 1), OfRank(rs, 2), OfRank(rs, 3), OfRank(rs, 4);
      assert multiset(BySeverity(rs)) == multiset(a) + multiset(b) + multiset(c) + multiset(d);
      assert 1 <= Rank(x) <= 4;
    }
  }

  /** A risk occurs in the bucket of its own rank as often as in the whole list, and in no
      other bucket. */
  lemma {:induction false} OfRankCount(rs: seq<Risk>, k: int, x: Risk)
    ensures multiset(OfRank(rs, k))[x] == if Rank(x) == k then multiset(rs)[x] else 0
    decreases |rs|
  {
    if |rs| > 0 {
      OfRankCount(rs[1..], k, x);
      assert rs == [rs[0]] + rs[1..];
    }
  }

  lemma SortedAppend(xs: seq<Risk>, ys: seq<Risk>)
    requires SortedByRank(xs) && SortedByRank(ys)
    requires forall i, j :: 0 <= i < |xs| && 0 <= j < |ys| ==> Rank(xs[i]) <= Rank(ys[j])
    ensures SortedByRank(xs + ys)
  {
    var zs := xs + ys;
    forall i, j | 0 <= i < j < |zs| ensures Rank(zs[i]) <= Rank(zs[j]) {
      if j < |xs| {
      } else if i >= |xs| {
        assert zs[i] == ys[i - |xs|] && zs[j] == ys[j - |xs|];
      } else {
        assert zs[j] == ys[j - |xs|];
      }
    }
  }

  /** High risks come first, then medium, then low, then any other severity. */
  lemma BySeveritySorted(rs: seq<Risk>)
    ensures SortedByRank(BySeverity(rs))
  {
    var a, b, c, d := OfRank(rs, 1), OfRank(rs, 2), OfRank(rs, 3), OfRank(rs, 4);
    SortedAppend(a, b);
    SortedAppend(a + b, c);
    SortedAppend(a + b + c, d);
  }
}

=== FILE: workouts_store.dfy ===
/** The workouts slice of the mobile store: the catalog list, the workout being viewed, the
    catalog filters, and the request flags. */
module WorkoutsStore {
  import opened Wrappers
  import StoreFlags

  /** A workout as the list and detail endpoints return it (only what the slice relies on). */
  datatype Workout = Workout(id: string, name: string)

  /** The catalog filters; `status` is absent until a caller sets it. A missing value stands
      for both `null` and `undefined`. */
  datatype Filters = Filters(search: Option<string>, difficulty: Option<string>, status: Option<string>)

  const InitialFilters := Filters(Some(""), None, None)

  /** The payload of `setFilters`: for each key, whether it is present and with which value. */
  datatype FilterPatch = FilterPatch(
    search: Option<Option<string>>,
    difficulty: Option<Option<string>>,
    status: Option<Option<string>>)

  const NoChange := FilterPatch(None, None, None)

  datatype State = State(
    items: seq<Workout>,
    currentWorkout: Option<Workout>,
    flags: StoreFlags.Flags,
    filters: Filters)

  const InitialState := State([], None, StoreFlags.Flags(false, None), InitialFilters)

  datatype Action =
    | SetFilters(patch: FilterPatch)
    | ClearCurrentWorkout
    | FetchWorkoutsPending
    | FetchWorkoutsFulfilled(workouts: seq<Workout>)
    | FetchWorkoutsRejected(message: string)
    | FetchDetailPending
    | FetchDetailFulfilled(detail: Workout)
    | FetchDetailRejected(message: string)
    | CreateWorkoutFulfilled(created: Workout)

  /** One key of `{ ...filters, ...patch }`: the patch's value when the key is present. */
  function Pick(old_: Option<string>, p: Option<Option<string>>): Option<string> {
    match p
    case None => old_
    case Some(v) => v
  }

  /** `setFilters`: the keys present in the patch take its values, the others are kept. */
  function MergeFilters(f: Filters, p: FilterPatch): (r: Filters)
    ensures p.search.Some? ==> r.search == p.search.value
    ensures p.search.None? ==> r.search == f.search
    ensures p.difficulty.Some? ==> r.difficulty == p.difficulty.value
    ensures p.difficulty.None? ==> r.difficulty == f.difficulty
    ensures p.status.Some? ==> r.status == p.status.value
    ensures p.status.None? ==> r.status == f.status
  {
    Filters(Pick(f.search, p.search), Pick(f.difficulty, p.difficulty), Pick(f.status, p.status))
  }

  /** Two patches in a row: the later patch wins on the keys it holds. */
  function Then(p: FilterPatch, q: FilterPatch): FilterPatch {
    FilterPatch(if q.search.Some? then q.search else p.search,
                if q.difficulty.Some? then q.difficulty else p.difficulty,
                if q.status.Some? then q.status else p.status)
  }

  /** Merging is a monoid action: the empty patch changes nothing, a patch applied twice is
      applied once, and two merges are one merge of the combined patch. */
  lemma MergeLaws(f: Filters, p: FilterPatch, q: FilterPatch)
    ensures MergeFilters(f, NoChange) == f
    ensures MergeFilters(MergeFilters(f, p), p) == MergeFilters(f, p)
    ensures MergeFilters(MergeFilters(f, p), q) == MergeFilters(f, Then(p, q))
  {
  }

  /** `fetchWorkouts(filters)` query: `search`, `difficulty`, `status`, each only when truthy. */
  function WorkoutQuery(f: Filters): (r: seq<(string, string)>)
    ensures |r| <= 3
    ensures forall v :: ("search", v) in r <==> f.search == Some(v) && v != ""
    ensures forall v :: ("difficulty", v) in r <==> f.difficulty == Some(v) && v != ""
    ensures forall v :: ("status", v) in r <==> f.status == Some(v) && v != ""
  {
    StoreFlags.QueryParams([("search", f.search), ("difficulty", f.difficulty), ("status", f.status)])
  }

  /** The initial filters ask for every workout. */
  lemma InitialQueryIsEmpty()
    ensures WorkoutQuery(InitialFilters) == []
  {
  }

  /** The slice reducer. */
  function Reduce(s: State, a: Action): (r: State)
    ensures a.SetFilters? ==> r == s.(filters := MergeFilters(s.filters, a.patch))
    ensures a.ClearCurrentWorkout? ==> r.currentWorkout.None? && r.(currentWorkout := s.currentWorkout) == s
    ensures !a.SetFilters? ==> r.filters == s.filters
    ensures a.FetchWorkoutsPending? ==> r == s.(flags := StoreFlags.Flags(true, None))
    ensures a.FetchWorkoutsFulfilled? ==> r == s.(items := a.workouts, flags := StoreFlags.Flags(false, s.flags.error))
    ensures a.FetchWorkoutsRejected? ==> r == s.(flags := StoreFlags.Flags(false, Some(a.message)))
    ensures a.FetchDetailPending? ==> r == s.(flags := StoreFlags.Flags(true, s.flags.error))
    ensures a.FetchDetailFulfilled? ==>
              r == s.(currentWorkout := Some(a.detail), flags := StoreFlags.Flags(false, s.flags.error))
    ensures a.FetchDetailRejected? ==> r == s.(flags := StoreFlags.Flags(false, Some(a.message)))
    ensures a.CreateWorkoutFulfilled? ==>
              |r.items| == |s.items| + 1 && r.items[0] == a.created && r.items[1..] == s.items
              && r == s.(items := r.items)
  {
    match a
    case SetFilters(p) => s.(filters := MergeFilters(s.filters, p))
    case ClearCurrentWorkout => s.(currentWorkout := None)
    case FetchWorkoutsPending => s.(flags := StoreFlags.Pending(s.flags))
    case FetchWorkoutsFulfilled(ws) => s.(items := ws, flags := StoreFlags.Fulfilled(s.flags))
    case FetchWorkoutsRejected(m) => s.(flags := StoreFlags.Rejected(s.flags, m))
    case FetchDetailPending => s.(flags := StoreFlags.DetailPending(s.flags))
    case FetchDetailFulfilled(w) => s.(currentWorkout := Some(w), flags := StoreFlags.Fulfilled(s.flags))
    case FetchDetailRejected(m) => s.(flags := StoreFlags.Rejected(s.flags, m))
    case CreateWorkoutFulfilled(w) => s.(items := [w] + s.items)
  }

  /** A list request ends with the loaded list and no error, or with the old list and the
      request's message; a failed request is recovered by the next successful one. */
  lemma FetchRoundTrip(s: State, ws: seq<Workout>, m: string)
    ensures Reduce(Reduce(s, FetchWorkoutsPending), FetchWorkoutsFulfilled(ws)).flags == StoreFlags.Flags(false, None)
    ensures Reduce(Reduce(s, FetchWorkoutsPending), FetchWorkoutsFulfilled(ws)).items == ws
    ensures var failed := Reduce(Reduce(s, FetchWorkoutsPending), FetchWorkoutsRejected(m));
      failed.items == s.items
      && Reduce(Reduce(failed, FetchWorkoutsPending), FetchWorkoutsFulfilled(ws)).flags.error.None?
  {
  }

  /** Each created workout goes to the front: after several creations the newest is first and
      the earlier list follows unchanged. */
  lemma {:induction false} CreatedWorkoutsLeadTheList(s: State, created: seq<Workout>)
    ensures CreateAll(s, created).items == Reversed(created) + s.items
    decreases |created|
  {
    if |created| > 0 {
      var last := created[|created| - 1];
      var init := created[..|created| - 1];
      CreatedWorkoutsLeadTheList(s, init);
      assert Reversed(created) == [last] + Reversed(init);
    }
  }

  /** The state after a `createWorkout` success for each workout in turn. */
  function CreateAll(s: State, created: seq<Workout>): State
    decreases |created|
  {
    if |created| == 0 then s
    else Reduce(CreateAll(s, created[..|created| - 1]), CreateWorkoutFulfilled(created[|created| - 1]))
  }

  function Reversed<T>(xs: seq<T>): (r: seq<T>)
    ensures |r| == |xs|
    decreases |xs|
  {
    if |xs| == 0 then [] else [xs[|xs| - 1]] + Reversed(xs[..|xs| - 1])
  }
}

=== FILE: wrappers.dfy ===
/** Option and Result, and JavaScript's `a || fallback` for the value shapes the
    application passes around (optional numbers and optional strings). */
module Wrappers {

  /** A value that may be absent: `undefined` or `null` in the application. */
  datatype Option<+T> = None | Some(value: T)

  /** The outcome of an operation that can be refused. */
  datatype Result<+T, +E> = Ok(value: T) | Err(error: E)

  /** A JSON request-body field, where `undefined` (key absent) and `null` are told apart. */
  datatype Field<+T> = Undefined | Null | Given(value: T)

  /** JavaScript truthiness of an optional number: absent and 0 are falsy (NaN is not modelled). */
  predicate TruthyInt(o: Option<int>) {
    o.Some? && o.value != 0
  }

  /** JavaScript truthiness of an optional string: absent and the empty string are falsy. */
  predicate TruthyStr(o: Option<string>) {
    o.Some? && o.value != ""
  }

  /** `o || fallback` for an optional number. */
  function IntOr(o: Option<int>, fallback: int): int {
    if TruthyInt(o) then o.value else fallback
  }

  /** `o || fallback` for an optional string. */
  function StrOr(o: Option<string>, fallback: string): string {
    if TruthyStr(o) then o.value else fallback
  }

  /** `o || fallback` when the fallback may itself be absent. */
  function IntOrOpt(o: Option<int>, fallback: Option<int>): Option<int> {
    if TruthyInt(o) then o else fallback
  }

  /** `o || fallback` for an optional string whose fallback may itself be absent. */
  function StrOrOpt(o: Option<string>, fallback: Option<string>): Option<string> {
    if TruthyStr(o) then o else fallback
  }
}
